=== FILE: README.md ===
# pyappscan in Dafny

A model of the core of `pyappscan`, a Python client for the REST API of an
AppScan Enterprise server. The client's classes form a chain:

- `Helper` holds the base URL, the credentials and the shared utilities;
- `Query` extends it with the read operations;
- `PyAppscan` adds the operations that create, change and delete things.

An example script that ships with the library converts issue lists into
dictionaries. It is modelled too.

The model is functional. The server is a pure function from request to
response (`Http.Server`). Every operation returns an `Http.Run`, which
holds two things:

- the requests the operation sent, in order;
- how it ended: a value, or the Python exception it raised.

Python objects are one datatype, `PyValue.Value`, with no case for floats.
A bytes object is a string of the byte values 0 to 255. `Utf8` decodes it
as Python's strict UTF-8 decoder does. Dictionaries are ordered
lists of entries, because request bodies and rendered trees follow dict
insertion order. `==` between objects follows Python (`PyValue.Eq`, where
`True == 1`), and so does truthiness (`PyValue.Truthy`).

Almost every operation accepts an "ID or name" argument and resolves it
with `bool(int(x))` inside `try ... except ValueError`. `Conv.Classify` says
how `int()` and `bool()` sort an argument into four kinds: a non-zero
number, zero, a string `int` rejects with ValueError, and a value `int`
rejects with TypeError. Each operation's resolver then says what that
operation does with each kind. The resolvers differ in small ways:

- some keep the argument as given rather than the converted integer;
- some compare where they evidently meant to assign;
- some look a name up again in the handler, others convert it with `int`
  and so raise.

The model keeps those differences.

Modules, in dependency order:

- `wrappers.dfy`: `Option`.
- `pyvalue.dfy`: Python objects, exceptions, dict lookup and assignment,
  `==`, indexing, iteration, `+`.
- `conv.dfy`: `str()`, `int()`, `strip()`, and the classification of
  references.
- `http.dfy`: requests, the server, runs, and `except ValueError`.
- `helper.py` → `helper.dfy`: the constructor's URLs, `returnobject`,
  `returnhtml`, `searchlist`, `searchdict`, `queryhelper`,
  `dicttolistofdicts`, `attributecheck`, `dictprint`.
- `query.py` → `query.dfy`: `jobsquery`, `folderjobsquery`,
  `appissuequery`, `reportquery`, `reportjsonquery`, `issuequery`,
  `issuetypequery`, `folderitemsquery`, `folderitemquery`.
- `pyappscan.py` → `pyappscan.dfy`: `adduser`, `jobcreate`, `updatejob`,
  `updatescan`, `createapplication`, `updateapplication`,
  `deleteapplication`, `createfolder`, `updatefolder`, `deletefolder`.
- `examples/convert_list_of_issues_to_issue_dict.py` → `issuedict.dfy`:
  `issuelisttodict`.

The per-collection query wrappers (`folderquery`, `applicationquery`,
`testpolicyquery`, `templatequery`, `usertypequery`, `issuetypes`) are each
one call of `queryhelper` with a fixed collection name. The model uses
`Helper.QueryHelper` with the constants `Helper.Folders`,
`Helper.Applications` and so on.

Where the library's documented behaviour and its code disagree, the model
follows the code:

- `jobsquery` fetches one job from `baseurl + '/jobs/' + name`. The base
  URL already ends in `/`, so the path holds `//jobs/`.
- `updateapplication` sends its PUT to `applications` followed by the id
  with no `/` between them.
- `updatejob` accepts a template but never uses it.
- `deleteapplication` and `createfolder` cannot reach their "is None"
  handlers: `int(None)` raises TypeError, not ValueError.
- The scan service root uses `'/ase' or '/ASE'`, which is just `'/ase'`.

Two operations are evidently wrong as written (see "## Findings"). Each is
modelled as written, and a corrected version sits beside it:

- `Query.ReportJsonQuery` reads the data report as written: it raises
  TypeError once the report has three or more pages.
  `Query.ReportJsonQueryIntended` converts the page number to a string.
- `Query.IssueTypeQuery` fetches the advisory page for an unnamed `fix`
  lookup. `Query.IssueTypeQueryIntended` fetches the fix recommendation.

## Model

| member | source | states |
|---|---|---|
| `Conv.Classify` | pyappscan/query.py:200-204 | How `bool(int(x))` inside `try/except ValueError` sorts a reference. It is non-zero exactly when `int(x)` gives a non-zero number, and carries that number. It is zero exactly when `int(x)` is 0. It is a name exactly when `int` raises ValueError. It cannot be cast exactly when `int` raises TypeError. |
| `Conv.IntOfNumber` | pyappscan/query.py:201 | `int` of an int or a bool is its number, which `==` equates with the value. |
| `Conv.IntOfText` | pyappscan/query.py:201-204 | `int` of a string never raises TypeError. It succeeds only when the stripped text is non-empty, ends in a digit, and holds only digits, `_`, and a leading sign. Bytes strip only ASCII white space: bytes that `int` accepts give the same number as the string of the same characters, and the two agree whenever the text's only white space is ASCII. |
| `Conv.NonBreakingSpaceOnlyInStrings` | pyappscan/query.py:201-204 | `int` skips a leading U+00A0 in a string, giving 42 for `'\xa042'`, but raises ValueError for the bytes `b'\xa042'`. |
| `Conv.StrOfIntInjective` | pyappscan/query.py:205 | `str` of an integer is read back by `int`, and two integers have the same text exactly when they are equal, so an id put in a URL names one number. |
| `Conv.IntValue` | pyappscan/query.py:573 | `int(v)` succeeds exactly for the values `int` accepts and gives their number. A string that is not a literal raises ValueError. None, lists and dicts raise TypeError. |
| `Conv.DecimalRoundTrip` | pyappscan/query.py:201-205 | `int(str(n)) == n` for every integer. A reference converted with `int` and put in a URL with `str` denotes the same number. |
| `Conv.ParseDecimalOfDecimal` | pyappscan/query.py:201-205 | The decimal text of any integer, sign included, is read back by `int`'s parser as that integer. |
| `Conv.ZeroIsNotAnIdentifier` | pyappscan/query.py:201 | `0`, `False` and `'0'` are all classified as zero, so none of them is used as an id directly. |
| `Conv.NoneIsNotCastable` | pyappscan/pyappscan.py:519-526 | `None` raises TypeError from `int`. No `except ValueError` handler ever sees it. |
| `Conv.NoDigitIsName` | pyappscan/query.py:203-204 | A string holding no digit always reaches the name lookup of the ValueError handler. |
| `Conv.ForeignCharIsName` | pyappscan/query.py:203-204 | A string holding any character other than digits, `_`, a sign or white space is taken for a name. |
| `Conv.DecimalPointIsNotNumeric` | pyappscan/query.py:203-204 | `'4.2'` is a name, not a number, for `int`. |
| `Conv.PaddedNumberIsIdentifier` | pyappscan/query.py:201-202 | `' 42 '` is the identifier 42: `int` strips white space. |
| `Helper.NewClient` | pyappscan/helper.py:16-32 | The constructor fails exactly for an empty base URL. The base URL gains one trailing `/` when it lacks one. The scan root is `ScanBaseUrl`. Credentials exist exactly when the username is truthy, and the key defaults to `AppscanEnterpriseUser`. |
| `Helper.ScanBaseUrl` | pyappscan/helper.py:17-21 | The scan service root is never empty, ends in `/`, and every character before that `/` comes from the base URL. |
| `Helper.NormalizeBase` | pyappscan/helper.py:22-25 | An empty URL raises IndexError. Otherwise the result ends in `/`, equals the URL when it already did, and is the URL plus `/` otherwise. |
| `Helper.NormalizeIdempotent` | pyappscan/helper.py:22-25 | Normalising a normalised base URL changes nothing. |
| `Helper.SliceBound` | pyappscan/helper.py:18-20 | A slice bound is clamped to the string, and a negative bound counts from the end, as Python slicing does. |
| `Helper.ScanBaseUrlOfServiceUrl` | pyappscan/helper.py:17-21 | For a URL `scheme://host:port/ase/api/`, the scan root is everything before the second `:` followed by `/ase/`. |
| `Helper.ScanBaseUrlWithoutPort` | pyappscan/helper.py:17-21 | Without a port, `find` returns -1, so the prefix loses the URL's last character. |
| `Helper.UpperCaseServicePathIsLost` | pyappscan/helper.py:19-20 | A URL spelling the path `/ASE` has no `/ase`, so its scan root is the host part and `/`, without the service path. |
| `Helper.UserName` | pyappscan/pyappscan.py:138-141 | `self.username` can be read exactly when the constructor was given a truthy user name. |
| `Helper.RaiseForStatus` | pyappscan/helper.py:175-177 | An unsuccessful response raises HTTPError, carrying the response's status, exactly when `raise_for_status` raises. Otherwise the gate returns None. |
| `Helper.ReturnObject` | pyappscan/helper.py:170-177 | A 200/201/204 response gives its decoded JSON, or the response itself when the body does not decode. Any other status goes through `raise_for_status`. |
| `Helper.ReturnHtml` | pyappscan/helper.py:188-192 | A 200/201/204 response gives its raw body. Any other status goes through `raise_for_status`. |
| `Helper.GatesAgree` | pyappscan/helper.py:170-192 | The two gates accept exactly the same responses: success statuses, and failures that do not raise. They differ only in the payload. |
| `Helper.Probe` | pyappscan/helper.py:97-100 | Reading one node succeeds exactly when `node[category]` does. The node matches when `name` or `str(name)` equals the field. A failed read raises the error of `node[category]`. |
| `Helper.SearchNodes` | pyappscan/helper.py:96-101 | A node found by the search is one of the list's nodes, and its field matches. |
| `Helper.SearchNodesStep` | pyappscan/helper.py:96-100 | One loop step: an unreadable field raises, a match returns the node, a miss moves on to the rest. |
| `Helper.SearchNodesFirst` | pyappscan/helper.py:96-101 | The search returns the first matching node. It returns None when every node has the field and none matches. It raises the error of the first unreadable node met before any match. |
| `Helper.MissingFieldRaises` | pyappscan/helper.py:97 | A dict node lacking the searched key stops the search with KeyError instead of being skipped. |
| `Helper.SearchRaisesNoValueError` | pyappscan/helper.py:94-101 | The search never raises ValueError, so `except ValueError` around it only catches JSON decoding. |
| `Helper.SearchNodesAppend` | pyappscan/helper.py:96-101 | Searching a concatenation searches the first part, and searches the second only when the first gives None. |
| `Helper.SearchList` | pyappscan/helper.py:80-101 | `searchlist`: the first node of a list whose field matches, or None. Stated by `Helper.SearchListFirst` and `Helper.SearchNodesFirst`. |
| `Helper.SearchListFirst` | pyappscan/helper.py:94-101 | A non-list raises TypeError "Must be a list". For a list the answer is its first matching node, or None when every node has the field and none matches; an unreadable node met before any match raises its error. |
| `Helper.SearchValues` | pyappscan/helper.py:119-125 | A result other than None is a node of one of the dictionary's list values. |
| `Helper.SearchDict` | pyappscan/helper.py:103-125 | `searchdict`: the same search over a dict's values, in key order. Stated by `Helper.SearchDictFirst` and `Helper.SearchDictIsFlatSearch`. |
| `Helper.SearchDictFirst` | pyappscan/helper.py:117-125 | A non-dict raises TypeError "Must be a dictionary". For a dictionary of lists the answer is the first matching node over all its lists in key order, or None. |
| `Helper.SearchDictIsFlatSearch` | pyappscan/helper.py:117-125 | Searching a dictionary of lists is searching the concatenation of its lists in key order. |
| `Helper.QueryHelper` | pyappscan/helper.py:51-78 | `queryhelper`: one GET of a collection, then the first node whose field matches the name. Stated by `Helper.QueryHelperFindsFirst`. |
| `Helper.QueryHelperFindsFirst` | pyappscan/helper.py:70-78 | Exactly one GET is sent: `ext/name` for a name without a category, the collection otherwise. Without a search the answer goes through `returnobject`. A search raises ValueError exactly when the collection does not decode, TypeError when it is not a list, and otherwise gives the collection's first matching node, or None. |
| `Helper.DictItems` | pyappscan/helper.py:205-215 | One `{'name': k, 'value': str(v)}` item per key, in key order. The value is wrapped in a one-element list when asked. |
| `Helper.DictToListOfDicts` | pyappscan/helper.py:203-216 | A dictionary without `URL` raises KeyError, and only a dictionary with `URL` succeeds. The result has one item per key, in order. The values are wrapped in lists exactly when `dic['URL']` is not a list. |
| `Helper.RegroupItems` | pyappscan/helper.py:205-215 | For string values, reading the items back (unwrapping one-element lists) gives the entries again, wrapped or not. |
| `Helper.DictToListRoundTrip` | pyappscan/helper.py:203-216 | For a dictionary of strings holding `URL`, the conversion succeeds and loses nothing: the items regroup to the same dictionary, in order. |
| `Helper.FirstMissing` | pyappscan/helper.py:262-273 | Reports the first required key that is absent, with every earlier key present. It reports nothing exactly when all keys are present. |
| `Helper.AttributeCheck` | pyappscan/helper.py:260-273 | Passes exactly for a dict with at least six keys that holds all six required attributes. A non-dict raises AttributeError on `keys`. Fewer than six keys raise `AttrError('len')`. Otherwise the error names the first missing attribute, in the source's order. |
| `Helper.Indent` | pyappscan/helper.py:237-238 | The indentation holds no newline, so it never adds a line to the rendering. |
| `Helper.PrintFrom` | pyappscan/helper.py:236-245 | The loop over keys only ever appends to the string it is given. |
| `Helper.PrintValue` | pyappscan/helper.py:240-244 | A value adds to the string only by extending it: a non-empty dict is printed one level deeper, anything else adds nothing. |
| `Helper.DictPrint` | pyappscan/helper.py:235-245 | A non-dict raises AttributeError on `items`. A dict gives a string that extends the one passed in. |
| `Helper.PrintFromAppends` | pyappscan/helper.py:235-245 | `dictprint` appends exactly the rendering of the tree, built independently, to the string it is given. |
| `Helper.PrintValueAppends` | pyappscan/helper.py:240-244 | The same for one value: nested non-empty dicts are rendered one tab deeper. |
| `Helper.LineHasOneNewLine` | pyappscan/helper.py:237-239 | Each key's line holds exactly one newline when the key holds none. |
| `Helper.RenderLines` | pyappscan/helper.py:236-245 | The rendering of a tree whose keys hold no newline has one line per key, counting the keys of nested non-empty dicts. |
| `Helper.ValueLines` | pyappscan/helper.py:240-244 | A value renders one line per key of its nested tree, and none for anything that is not a non-empty dict. |
| `Http.CatchValue` | pyappscan/pyappscan.py:114-120 | The contract states that a ValueError ends in the handler's outcome, after the requests already sent and then the handler's requests, and that any other outcome is returned unchanged. |
| `Http.CatchValueResult` | pyappscan/pyappscan.py:61-69 | The same for a computation that sends nothing. |
| `Http.JsonOf` | pyappscan/helper.py:78 | `response.json()` succeeds exactly when the body decodes, and raises ValueError otherwise. |
| `PyValue.Assign` | examples/convert_list_of_issues_to_issue_dict.py:26 | `d[k] = v`: afterwards `k` holds `v` and every other key holds what it held. An existing key keeps its place. A new key is appended at the end. |
| `PyValue.GetItem` | pyappscan/helper.py:97 | `v[key]` on a dict with a string key succeeds only with the value stored under it. A missing key raises KeyError. |
| `PyValue.Add` | pyappscan/query.py:366 | Lists concatenate and strings concatenate. `+` succeeds only between two lists or two strings when either operand is one. |
| `PyValue.EqNumbers` | pyappscan/helper.py:97 | `==` between numbers compares their values, `True == 1` included. A number never equals a non-number, and `==` is symmetric. |
| `PyValue.TruthyIsNonEmpty` | pyappscan/query.py:180 | A container is truthy exactly when iterating it yields something, and a number exactly when it is not equal to 0. |
| `PyValue.IterateVisits` | examples/convert_list_of_issues_to_issue_dict.py:26 | Iteration succeeds exactly on lists, dicts, strings, bytes and responses, and raises TypeError "not iterable" otherwise. A list yields its elements, a dict its keys, and a string its characters. |
| `PyValue.ChunksCover` | pyappscan/query.py:174 | A response, such as an undecodable folder list, is iterated in non-empty chunks of at most 128 bytes whose concatenation is the content. |
| `Query.Field` | pyappscan/query.py:204 | `lookup(...)[field]` sends the lookup's requests. It propagates the lookup's exception, or reads the field from the node found. |
| `Query.JobFolderIdRequests` | pyappscan/query.py:200-204 | A non-zero number is the folder id with no request. Zero leaves `folderid` unbound. `None` raises TypeError with no request. |
| `Query.JobFolderIdByName` | pyappscan/query.py:200-204 | A value `int` rejects with ValueError is a folder name: it is found by one search of the folder list on `folderName`, and its `folderId` is the answer. |
| `Query.SearchJson` | pyappscan/query.py:209-213 | `folderjobsquery`'s search of the decoded job list. Stated by `Query.SearchJsonFirst` and `Query.DecodedSearchRaisesNoValueError`. |
| `Query.SearchJsonFirst` | pyappscan/query.py:209-213 | Searching a job list raises ValueError exactly when the body does not decode, and TypeError when it is not a list. Otherwise it gives the first job whose field matches, or None. |
| `Query.DecodedSearchRaisesNoValueError` | pyappscan/query.py:209-213 | Once the body decodes, searching by `id` cannot raise ValueError, so the handler's search by `name` runs only for an undecodable body. |
| `Query.JobsOfFolder` | pyappscan/query.py:206-213 | No job name gives the folder's decoded job list. A non-zero id is searched by `id`. A name is searched by `name`. Zero returns None. An uncastable job raises TypeError. |
| `Query.FolderJobsQuery` | pyappscan/query.py:199-213 | A zero folder raises UnboundLocalError before any request. Otherwise one GET of `folders/<id>/jobs` follows the id's resolution, and the answer is what `JobsOfFolder` makes of it. |
| `Query.JobsLoop` | pyappscan/query.py:173-184 | When searching for a name, the loop returns either a truthy answer or the list it was given. |
| `Query.JobsLoopCollects` | pyappscan/query.py:174-177 | With no job name, the result has one entry per folder, in folder order. Each entry is that folder's `folderjobsquery` answer. |
| `Query.JobsLoopFirstTruthy` | pyappscan/query.py:178-184 | With a job name, a non-empty result is the first truthy answer, and every earlier folder answered something falsy. |
| `Query.JobsLoopFindsFirstTruthy` | pyappscan/query.py:178-184 | With a job name, when folder `k` answers something truthy and every earlier folder answered something falsy, that answer is returned. |
| `Query.JobsLoopAllFalsy` | pyappscan/query.py:178-184 | With a job name, when every folder answers something falsy, the result is the empty list. |
| `Query.JobsQuery` | pyappscan/query.py:168-184 | A truthy name with a falsy category fetches `baseurl + '/jobs/' + name`. Otherwise the folder list is fetched first. |
| `Query.Severities` | pyappscan/query.py:257-259 | The result is always a suffix of High, Medium, Low. Medium starts at Medium, Low is Low alone, and anything unrecognised asks for all three. |
| `Query.SeverityList` | pyappscan/query.py:257-261 | `Information` is added exactly when `includeinfoseverity == True`, and `1` satisfies that too. |
| `Query.IssuesUrl` | pyappscan/query.py:256-264 | The URL is built exactly when the application and `sortBy` are strings. It holds one `,Severity=` clause per severity in order. Otherwise `+` raises TypeError. |
| `Query.AppNameRequests` | pyappscan/query.py:251-255 | Zero and names are kept with no request. `None`-like values raise TypeError with no request. |
| `Query.AppNameById` | pyappscan/query.py:251-255 | A non-zero number is replaced by the `name` of the application found by one search of the application list on `id`. It is kept when that list does not decode. |
| `Query.Names` | pyappscan/query.py:234-236 | One `node['name']` per node, in order. |
| `Query.AllAppIssues` | pyappscan/query.py:237-248 | One request and one decoded answer per application name. |
| `Query.AllAppIssuesDecoded` | pyappscan/query.py:237-248 | The `i`-th request is the issue URL of the `i`-th name. Its decoded answer is the `i`-th result. |
| `Query.EveryAppIssues` | pyappscan/query.py:231-249 | The application list is fetched first, and the result is a list. |
| `Query.AppIssueQuery` | pyappscan/query.py:230-268 | No application means every application's issues. Otherwise the resolved name is queried with a `Range: items=0-<itemcount>` header. A name or `sortBy` that is not a string raises TypeError before the request. |
| `Query.ReportQuery` | pyappscan/query.py:322-327 | One GET on the scan service: the report, or its issues unless `issues == False`, gated by `returnhtml`. |
| `Query.ReportIdRequests` | pyappscan/query.py:350-355 | A non-zero number becomes the id and zero is kept, both with no request. `None` raises TypeError with no request. A string name raises. |
| `Query.ReportIdOfItem` | pyappscan/query.py:350-355 | Any other value `int` rejects with ValueError is put in a `folderitems/<x>/reports` URL, read once. It is replaced by the `int` of the `id` of the first security report there, and a success always comes from that report. |
| `Query.ReportModeOf` | pyappscan/query.py:356-368 | The summary is read exactly when `issues == False and summary == True`. The issue list is read exactly for the opposite. The data report is read otherwise. |
| `Query.RangeBound` | pyappscan/query.py:363 | `range(2, total)` accepts exactly an integer or a bool as its bound, and raises TypeError otherwise. |
| `Query.Extend` | pyappscan/query.py:366 | When both reports hold issue lists, the page's issues are appended to the accumulated ones and every other key is unchanged. |
| `Query.MergePages` | pyappscan/query.py:363-366 | The page loop sends at most one request per page of the range. |
| `Query.MergePagesContents` | pyappscan/query.py:362-367 | When every page is well formed, each page is fetched once, in order. The merged report holds the first issues followed by every page's issues, in page order, and every other key is unchanged. |
| `Query.PageRequestsCount` | pyappscan/query.py:363 | `range(page, end)` visits `end - page` pages, or none. |
| `Query.MergedReport` | pyappscan/query.py:359-367 | The report is fetched first. A gate error stops there. A single-page report is returned as is. |
| `Query.MergedReportPages` | pyappscan/query.py:359-367 | A report of `t ≠ 1` pages requests pages 2 to `t - 1` after the first answer. Its issues are the first answer's followed by those pages'. |
| `Query.DataReportAsWritten` | pyappscan/query.py:369-377 | As written, the data report loop sends only the first request. |
| `Query.DataReportAsWrittenRaises` | pyappscan/query.py:372-374 | As written, a data report of three or more pages raises TypeError from `url + '/pages/' + page` before any page is requested. |
| `Query.DataReportMerged` | pyappscan/query.py:369-377 | With the page number converted to a string, a data report of `t > 2` pages is read whole in `t - 1` requests. |
| `Query.ReportJsonQuery` | pyappscan/query.py:329-378 | `reportjsonquery` as written. Its contract: outside the data report it equals the corrected query. Its requests and answers are stated by `Query.ReportJsonRequests`, `Query.DataReportPagesFinding`, `Query.ReportIdRequests` and `Query.ReportIdOfItem`. |
| `Query.ReportJsonQueryIntended` | pyappscan/query.py:329-378 | `reportjsonquery` with the data report's page number converted to a string. Stated by `Query.ReportJsonRequests`, `Query.DataReportMerged` and `Query.DataReportPagesFinding`. |
| `Query.ReportJsonLookup` | pyappscan/query.py:348-378 | A failure in resolving the report id propagates. Otherwise the summary, the merged issue report or the data report is fetched under `reports/<id>`, after the id's requests. The data report is read as written, or page by page when the page number is converted to a string. |
| `Query.ReportJsonRequests` | pyappscan/query.py:348-378 | For a report numbered `n`, no request resolves the id. The summary and the issues report are the same as written and corrected. The data report as written sends only its first request. Corrected, it is merged page by page like the issues. |
| `Query.DataReportPagesFinding` | pyappscan/query.py:369-377 | For a data report of `t > 2` pages, `reportjsonquery` as written raises TypeError after one request. Corrected, it asks for pages 2 to `t - 1` and returns the first answer's issues followed by every page's. |
| `Query.FolderItemsQuery` | pyappscan/query.py:549-587 | `folderitemsquery`: the folder is resolved, then its items are read once and selected. Stated by `Query.ItemsFolderIdRequests`, `Query.ItemsFolderIdByName`, `Query.FolderItemsQuerySelects` and `Query.FolderItemsQueryFinds`. |
| `Query.ItemsFolderIdRequests` | pyappscan/query.py:568-573 | A non-zero number becomes the id and zero is kept, both with no request. Values that are not strings and that `int` rejects with ValueError are kept. `None` raises TypeError. |
| `Query.ItemsFolderIdByName` | pyappscan/query.py:568-573 | A string name is found by one search of the folder list on `folderName`, and its `folderId` is converted with `int`. An error of the search is passed on. |
| `Query.SelectItems` | pyappscan/query.py:576-585 | A selection succeeds only on a decodable body with `folder-items`. With no keyword and no complete search, it is those items. |
| `Query.FolderItemsQuerySelects` | pyappscan/query.py:574-587 | For a numbered folder, one GET of `folders/<n>/folderitems` is sent. Without a search the answer is its items, or the kind the keyword selects. When those cannot be read, the whole answer goes through `returnobject`. |
| `Query.FolderItemsQueryFinds` | pyappscan/query.py:574-587 | With a name search, the answer is the first matching item: within the selected kind, or over all kinds in key order when no kind is given. It is None when every item misses. |
| `Query.FolderItemsOnlyHttpErrors` | pyappscan/query.py:568-587 | For a numbered folder, exactly one request is sent, and the only exception possible is the HTTP error of its answer. |
| `Query.ItemModeOf` | pyappscan/query.py:629-639 | Each endpoint is chosen exactly when its flag alone is truthy. Otherwise the item itself is read. |
| `Query.SecurityReports` | pyappscan/query.py:633 | The filter succeeds exactly when every report has a name. It keeps exactly the reports named `Security Issues`. |
| `Query.SecurityReportsKeepOrder` | pyappscan/query.py:633 | The filter keeps order: filtering a concatenation concatenates the filtered parts, and one named report is kept exactly when it is a security report. |
| `Query.SecurityReportsFirst` | pyappscan/query.py:633 | The first report the filter keeps is the first security report of the list. |
| `Query.SecurityReport` | pyappscan/query.py:632-641 | A result is a dict named `Security Issues`. |
| `Query.SecurityReportIsFirst` | pyappscan/query.py:632-641 | When every report has a name, the answer is the first security report. It is AttributeError when that report is not a dict, and IndexError when there is none. A report without a name raises KeyError. A success is always the first security report. |
| `Query.ItemSearch` | pyappscan/query.py:619-627 | The name search always raises. When no folder's query raises first, the error is ValueError "Not a valid folderitem name", because the `for` loop has no `break` and its `else` runs even after a hit. |
| `Query.FolderItemId` | pyappscan/query.py:612-627 | A non-zero number is used as is. Zero and non-string names are kept. A string name always raises. `None` raises TypeError. |
| `Query.FolderItemQuery` | pyappscan/query.py:589-642 | `folderitemquery`: the item is resolved, then one GET of the endpoint its flags select. Stated by `Query.FolderItemQueryRequests` and `Query.ItemNameAlwaysRaises`. |
| `Query.FolderItemQueryRequests` | pyappscan/query.py:610-642 | A non-zero number, zero, or a non-string value that `int` rejects with ValueError sends exactly one GET, of `folderitems/<x>` plus the chosen endpoint. The reports endpoint yields its security report, and the others go through `returnobject`. A string name reads the folder list first and always raises. `None` raises TypeError with no request. |
| `Query.ItemNameAlwaysRaises` | pyappscan/query.py:612-627 | A folder item given by a non-numeric name is never found, so `folderitemquery`, and `reportjsonquery` given that name, always raise. |
| `Utf8.DecodeOfEncode` | pyappscan/query.py:420 | The UTF-8 encoding of any text decodes back to that text. |
| `Utf8.EncodeOfDecode` | pyappscan/query.py:420 | Bytes that decode are exactly the UTF-8 encoding of the text they decode to. |
| `Utf8.DecodeIsInverse` | pyappscan/query.py:420 | `d.decode('utf-8') == s` holds exactly when `s.encode('utf-8') == d`. |
| `Utf8.TwoBytesOneChar` | pyappscan/query.py:420 | `b'\xc3\xa9'` decodes to the one character `é`, not to two Latin-1 characters. |
| `Utf8.MalformedBytesFail` | pyappscan/query.py:420 | A lone continuation byte, an overlong form and an encoded surrogate each raise UnicodeDecodeError. |
| `Query.Decode` | pyappscan/query.py:420 | `.decode('utf-8')` succeeds exactly on bytes that are valid UTF-8, and gives the text whose UTF-8 encoding they are. Other bytes raise UnicodeDecodeError, a ValueError. Anything but bytes raises AttributeError. |
| `Query.DigitRun` | pyappscan/query.py:420 | The `[\d]+` run: every character in it is a digit, and the character after it is not. |
| `Query.TagAt` | pyappscan/query.py:420-422 | A tag match has a positive length within the text. |
| `Query.TagAtTag` | pyappscan/query.py:420-422 | `<id>n</id>` at the start of a text is matched as the number `n`, with the tag's length. |
| `Query.IdTagsOfTags` | pyappscan/query.py:420-422 | Scanning a text of consecutive `<id>` tags gives back exactly the numbers written, in order. |
| `Query.FollowUps` | pyappscan/query.py:423-425 | The ids followed up are exactly those other than the report id and above 1000. |
| `Query.FollowUpsKeepOrder` | pyappscan/query.py:420-425 | The filter keeps document order and repeats: filtering a concatenation concatenates the filtered parts, and one id is kept exactly when it is above 1000 and not the report id. |
| `Query.ReportIssueTexts` | pyappscan/query.py:419-426 | One request per followed-up id, in order. The `i`-th text is the `utf-8` decoding of the body that the `i`-th id's `issuequery` returns. |
| `Query.AppId` | pyappscan/query.py:432-436 | The `try` block that resolves `issuequery`'s `appid`. Stated by `Query.AppIdRequests` and `Query.AppIdByName`. |
| `Query.AppIdRequests` | pyappscan/query.py:432-436 | A non-zero number becomes the id and zero is kept, both with no request. `None` raises TypeError. |
| `Query.AppIdByName` | pyappscan/query.py:432-436 | A name is replaced by the `id` of the application found by one search of the application list on `name`. |
| `Query.ReportIssues` | pyappscan/query.py:418-430 | An issue id fetches that one issue. Otherwise the report's issue list is read and decoded first. On success, the list returned holds, in order, the decoded body of each followed-up id's issue. |
| `Query.HighMeansAllSeverities` | pyappscan/query.py:257-261 | The `'High'` that `issuequery` passes asks for High, Medium and Low issues. |
| `Query.AppIssues` | pyappscan/query.py:431-446 | The application branch of `issuequery`. Stated by `Query.AppIssuesListRequests`, `Query.AppIssueRequests` and `Query.HighMeansAllSeverities`. |
| `Query.AppIssuesListRequests` | pyappscan/query.py:438-439 | For an application numbered `n` and no issue id, the application list is read first to find its name. Then one GET asks for the issues of every severity, sorted by severity, with the header `Range: items=0-<issuecount>`. |
| `Query.AppIssueRequests` | pyappscan/query.py:441-446 | For an application numbered `n` and an issue id, exactly one GET reads that issue: `issues/<id>/application/<n>` when `zipfile == False`, and the `details_v2` endpoint otherwise. |
| `Query.IssueQuery` | pyappscan/query.py:380-447 | `issuequery`: the report branch first, then the application branch, then the returned ValueError. Stated by `Query.IssueQueryRequests`, `Query.ReportIssueListRequests`, `Query.FollowUpsRead`, `Query.FollowUpIsIssueQuery`, `Query.AppIssuesListRequests` and `Query.AppIssueRequests`. |
| `Query.IssueQueryRequests` | pyappscan/query.py:413-447 | A report wins over an application. A zipped report raises TypeError before any request. An issue id of a report is one GET through `returnhtml`. With neither a report nor an application, a ValueError is returned, not raised. A numbered application is queried by that number, and a named one reads the application list first. |
| `Query.ReportIssueListRequests` | pyappscan/query.py:418-426 | A report's issue list is read first. On success, every follow-up id is then read with one request each, in order, and nothing else is sent. The `i`-th text returned is the one whose UTF-8 encoding is the body of the `i`-th follow-up response. |
| `Query.FollowUpsRead` | pyappscan/query.py:419-426 | On success, the `i`-th follow-up request reads the `i`-th id. Its response is successful, and its body is the UTF-8 encoding of the `i`-th text returned. |
| `Query.FollowUpIsIssueQuery` | pyappscan/query.py:425-430 | Each follow-up fetch is what `issuequery(reportid, issueid=ent)` fetches. |
| `Query.IssueTypeIdRequests` | pyappscan/query.py:486-491 | None and zero are kept and a non-zero number becomes the id, all with no request. Other values `int` cannot take raise TypeError. |
| `Query.IssueTypeIdByName` | pyappscan/query.py:486-491 | A name is replaced by the `id` of the issue type found by one search of the issue type list on `name`. |
| `Query.LookupKindOf` | pyappscan/query.py:492-505 | No lookup exactly for None. Advisory exactly for `advisory`/`Advisory`. Fix exactly for `fix`/`Fix`. |
| `Query.IssueTypeLookup` | pyappscan/query.py:468-514 | `issuetypequery` with the unnamed-fix page as a parameter. Stated by `Query.IssueTypeIdRequests`, `Query.IssueTypeIdByName`, `Query.IssueTypeLookupRequests`, `Query.IssueTypeLookupPages` and `Query.IssueTypeLookupFallback`. |
| `Query.IssueTypeLookupRequests` | pyappscan/query.py:485-514 | For a type numbered `n`: no lookup type reads the type. An unknown one returns None with no request. A named lookup reads the advisory or fix page under that name through `returnhtml`. An unnamed one reads the type, then the fallback page under its `issueTypeLookup`. |
| `Query.IssueTypeLookupPages` | pyappscan/query.py:495-514 | An advisory or fix lookup that succeeds ends with the page it asked for: the named page when a name is given, the fallback page otherwise. |
| `Query.IssueTypeLookupFallback` | pyappscan/query.py:505-514 | The fallback page matters only for an unnamed `fix` lookup. Every other lookup is the same whatever the fallback. |
| `Query.IssueTypeQuery` | pyappscan/query.py:485-514 | As written, `issuetypequery` agrees with the corrected query except for an unnamed `fix` lookup, which ends with the advisory page when it succeeds. |
| `Query.IssueTypeQueryIntended` | pyappscan/query.py:505-514 | Corrected, a `fix` lookup that succeeds always ends with the fix recommendation page, and an `advisory` lookup with the advisory page. |
| `Query.UnnamedFixUrl` | pyappscan/query.py:508-513 | An unnamed fix lookup reads the type's `issueTypeLookup`, then asks for the fallback page under that name. |
| `Query.NamedFixUrl` | pyappscan/query.py:506-507 | A named fix lookup asks for `/fixrecommendation` under that name. |
| `Query.FixWithoutNameFetchesAdvisory` | pyappscan/query.py:505-514 | As written, an unnamed `fix` lookup fetches the advisory page. |
| `Query.FixWithoutNameFetchesFix` | pyappscan/query.py:505-514 | Corrected, an unnamed `fix` lookup fetches the fix recommendation, the same page a named lookup for that name fetches. |
| `PyAppscan.RetryRefRequests` | pyappscan/pyappscan.py:114-120 | `jobcreate`'s resolver. A non-zero number becomes the id with no request. `None` raises TypeError with no request. |
| `PyAppscan.RetryRefLookup` | pyappscan/pyappscan.py:114-120 | A name is looked up by one search. Zero is looked up, and the same GET is sent again exactly when the first answer does not decode, after which it raises ValueError. |
| `PyAppscan.CastRefRequests` | pyappscan/pyappscan.py:283-289 | `updatejob`'s resolver. A non-zero number becomes the id with no request. A name raises ValueError from the handler's `int` and `None` raises TypeError, both with no request. |
| `PyAppscan.CastRefZero` | pyappscan/pyappscan.py:283-289 | Zero is looked up once, and becomes 0 when the answer does not decode. |
| `PyAppscan.EditFolderRefRequests` | pyappscan/pyappscan.py:580-584 | A non-zero reference is kept as given, with no request. A name raises ValueError and `None` raises TypeError, with no request. |
| `PyAppscan.EditFolderRefZero` | pyappscan/pyappscan.py:580-584 | Zero is looked up once by `name`, and becomes 0 when the answer does not decode. |
| `PyAppscan.KeepFolderRefRequests` | pyappscan/pyappscan.py:546-553 | A non-zero reference is kept with no request. A name raises ValueError and `None` raises TypeError, with no request. |
| `PyAppscan.KeepFolderRefZero` | pyappscan/pyappscan.py:546-553 | The handler compares instead of assigning. Zero is looked up once, and is kept as given when the answer does not decode. |
| `PyAppscan.CheckAppRef` | pyappscan/pyappscan.py:519-526 | The reference that comes out is always the one given. A zero lookup still runs, and its errors other than ValueError propagate. |
| `PyAppscan.AddUser` | pyappscan/pyappscan.py:42-78 | `adduser`: the user type is resolved, then one POST. Stated by `PyAppscan.AddUserPosts`, `PyAppscan.UserTypeRefRequests` and `PyAppscan.UserTypeZero`. |
| `PyAppscan.UserTypeRefRequests` | pyappscan/pyappscan.py:61-69 | A non-zero user type is kept as given. A name raises ValueError and `None` raises TypeError. None of these sends a request. |
| `PyAppscan.UserTypeZero` | pyappscan/pyappscan.py:61-69 | Zero reads the user type list once. It gives 0 when the list does not decode, UserTypeError when no type has that name, and otherwise `int` of the first such type's `id`. |
| `PyAppscan.TemplateRef` | pyappscan/pyappscan.py:142-148 | `jobcreate`'s template id as text. Stated by `PyAppscan.TemplateRefRequests`. |
| `PyAppscan.TemplateRefRequests` | pyappscan/pyappscan.py:142-148 | A non-zero template is sent as its own text, with no request. A name reads the template list once, and a template id it gives is the text of the `id` found for that name. |
| `PyAppscan.NumbersAreNotLookedUp` | pyappscan/pyappscan.py:114-148 | A non-zero number is answered by every resolver without a request. |
| `PyAppscan.NamesAreLookedUpOnce` | pyappscan/pyappscan.py:114-127 | `jobcreate` looks a name up with exactly one request. The resolvers whose handler converts with `int` refuse it with ValueError. |
| `PyAppscan.UserBody` | pyappscan/pyappscan.py:71-76 | The user body holds exactly four keys: the full name, user name, email and user type given. |
| `PyAppscan.AddUserPosts` | pyappscan/pyappscan.py:61-78 | A non-zero user type gives exactly one POST to `consoleusers` carrying the four arguments, the type as given. A named type raises before any request. For zero the type list is read first: a type it does not list raises UserTypeError before the POST, and an undecodable list posts type 0. |
| `PyAppscan.JobTail` | pyappscan/pyappscan.py:128-141 | The application id is present exactly when given. The description is present exactly when not None. The contact is always present. |
| `PyAppscan.JobBody` | pyappscan/pyappscan.py:113-141 | Every key of the job body holds the argument it is named after, and the optional keys are present exactly when given. |
| `PyAppscan.JobFields` | pyappscan/pyappscan.py:113-141 | The references are resolved in argument order: policy, folder, then the application when given. The body holds the resolved ids, and the contact defaults to the client's user name; with no user name, the operation raises. |
| `PyAppscan.JobCreate` | pyappscan/pyappscan.py:112-150 | A job is created only by one POST to `jobs/<template>/dastconfig/createjob`, sent after every resolution and carrying the resolved body. |
| `PyAppscan.JobCreateByNumbers` | pyappscan/pyappscan.py:112-150 | Given numbers and a contact, the POST is the only request, and its body holds the numbers. |
| `PyAppscan.UpdateJob` | pyappscan/pyappscan.py:281-314 | The job is read for its `ETag`, which goes back as `If-Match` on the PUT of the new body. A missing `ETag` raises KeyError after the read. |
| `PyAppscan.UpdateJobByNumbers` | pyappscan/pyappscan.py:281-314 | Given non-zero numbers and a contact, exactly two requests are sent: the GET of `jobs/<id>`, then the PUT of the job body to the same URL with its `ETag` as `If-Match`. Without an `ETag` only the GET is sent, and KeyError is raised. |
| `PyAppscan.XPathFor` | pyappscan/pyappscan.py:191-208 | Only a string data code names a setting. |
| `PyAppscan.XPathForTable` | pyappscan/pyappscan.py:191-208 | A data code is accepted exactly when the table of codes lists it, and it then names the table's setting. |
| `PyAppscan.ScanBody` | pyappscan/pyappscan.py:187-206 | The body holds the new value, the encryption flag and the setting's XPath, and nothing else. |
| `PyAppscan.UpdateScan` | pyappscan/pyappscan.py:161-210 | `updatescan`: the data code is checked, then one POST. Stated by `PyAppscan.UpdateScanRequests` and `PyAppscan.UpdateScanSetsTableEntry`. |
| `PyAppscan.UpdateScanRequests` | pyappscan/pyappscan.py:186-210 | Nothing is sent exactly when the table of codes does not list the data code, and the operation then raises DataCodeError. Otherwise exactly one POST goes to `jobs/<id>/dastconfig/updatescant`. |
| `PyAppscan.UpdateScanSetsTableEntry` | pyappscan/pyappscan.py:186-210 | The POST changes the setting the table gives for the code, to the data given. |
| `PyAppscan.OutOfDate` | pyappscan/pyappscan.py:420-425 | `isOutOfDate` is 1 exactly when `appoutdated == True` and 0 exactly when `== False`; it is 2 otherwise. |
| `PyAppscan.AppBody` | pyappscan/pyappscan.py:411-425 | The body's keys appear in insertion order, the description only when given. The attribute array is nested under `attributeCollection`. |
| `PyAppscan.AppBodyFields` | pyappscan/pyappscan.py:411-425 | Each key of the application body can be read back: the name, the dates from `now`, the out-of-date flag, the attributes, and the description exactly when given. |
| `PyAppscan.AppAttributes` | pyappscan/pyappscan.py:377-405 | No attributes raise ValueError. The attributes must pass `attributecheck`, and are then flattened by `dicttolistofdicts`. |
| `PyAppscan.CreateApplication` | pyappscan/pyappscan.py:343-427 | `createapplication`: the attributes are checked, then one POST. Stated by `PyAppscan.CreateApplicationPosts` and `PyAppscan.CreateApplicationKeepsAttributes`. |
| `PyAppscan.CreateApplicationPosts` | pyappscan/pyappscan.py:374-427 | Nothing is sent exactly when there are no attributes or they fail `attributecheck`. Missing attributes raise ValueError. Otherwise exactly one POST to `applications` carries the name, the creation time, the description exactly when given, and the out-of-date flag. |
| `PyAppscan.CreateApplicationKeepsAttributes` | pyappscan/pyappscan.py:401-427 | The attributes an application is created with can be read back from the request body unchanged. |
| `PyAppscan.AppIdString` | pyappscan/pyappscan.py:500-503 | `updateapplication`'s id as text. Stated by `PyAppscan.AppIdStringRequests`. |
| `PyAppscan.AppIdStringRequests` | pyappscan/pyappscan.py:500-503 | An `int` id becomes its decimal text with no request. Anything else but None reads the application list once and is replaced by what the lookup by `name` finds; it raises ValueError exactly when that list does not decode. |
| `PyAppscan.UpdateApplication` | pyappscan/pyappscan.py:429-505 | `updateapplication`: the attributes are checked, the id is resolved, then one PUT. Stated by `PyAppscan.UpdateApplicationPuts` and `PyAppscan.AppIdStringRequests`. |
| `PyAppscan.UpdateApplicationPuts` | pyappscan/pyappscan.py:448-505 | For an `int` id: without attributes, or with attributes that fail the check, nothing is sent and the operation raises. Otherwise exactly one PUT, without `If-Match`, goes to `applications` followed by the id's decimal text with no `/`, carrying the application body. |
| `PyAppscan.DeleteApplication` | pyappscan/pyappscan.py:507-529 | `deleteapplication`: the reference is checked, then one DELETE. Stated by `PyAppscan.DeleteApplicationRequests` and `PyAppscan.DeleteApplicationOfNone`. |
| `PyAppscan.DeleteApplicationRequests` | pyappscan/pyappscan.py:519-529 | A non-zero reference gives exactly one DELETE of `applications/<appid>`, with the reference as given. A name raises with no request. Zero reads the application list first, and any DELETE after it still uses the reference given. |
| `PyAppscan.DeleteApplicationOfNone` | pyappscan/pyappscan.py:519-524 | `deleteapplication(None)` raises the TypeError of `int(None)`, not the handler's ValueError. |
| `PyAppscan.FolderBody` | pyappscan/pyappscan.py:555-564 | The body holds the name, the parent and the contact. The description is present exactly when truthy. |
| `PyAppscan.CreateFolder` | pyappscan/pyappscan.py:531-566 | `createfolder`: the parent is resolved, then one POST. Stated by `PyAppscan.CreateFolderPosts`, `PyAppscan.CreateFolderWithoutParent`, `PyAppscan.KeepFolderRefRequests` and `PyAppscan.KeepFolderRefZero`. |
| `PyAppscan.CreateFolderPosts` | pyappscan/pyappscan.py:546-566 | A non-zero parent gives exactly one POST to `folders/create`. It carries the name, the parent as given, and the contact, or the user name when no contact is given. A named parent raises with no request. A zero parent reads the folder list first. |
| `PyAppscan.CreateFolderWithoutParent` | pyappscan/pyappscan.py:546-551 | `createfolder` with no parent raises the TypeError of `int(None)`, not "Parent cannot be Nonetype". |
| `PyAppscan.FolderEdits` | pyappscan/pyappscan.py:586-592 | Exactly the truthy fields are sent, and no other key. |
| `PyAppscan.UpdateFolder` | pyappscan/pyappscan.py:568-594 | `updatefolder`: the folder is resolved, then one POST of the changed fields. Stated by `PyAppscan.UpdateFolderPosts`, `PyAppscan.UpdateFolderByName`, `PyAppscan.EditFolderRefRequests` and `PyAppscan.EditFolderRefZero`. |
| `PyAppscan.UpdateFolderPosts` | pyappscan/pyappscan.py:580-594 | A folder numbered `n ≠ 0` gives exactly one POST to `folders/edit/<n>` whose body holds exactly the truthy fields. Folder 0, when the folder list does not decode, reads that list and then posts to `folders/edit/0`. |
| `PyAppscan.UpdateFolderByName` | pyappscan/pyappscan.py:580-584 | A folder given by name raises ValueError with no request. |
| `PyAppscan.DeleteFolder` | pyappscan/pyappscan.py:596-612 | `deletefolder`: the folder is resolved, then one DELETE. Stated by `PyAppscan.DeleteFolderRequests`. |
| `PyAppscan.DeleteFolderRequests` | pyappscan/pyappscan.py:605-612 | A non-zero reference gives exactly one DELETE of `folders/delete/<x>`. A name raises with no request. Zero reads the folder list first, then deletes the folder id looked up, or the reference as given when the list does not decode. |
| `IssueDict.JoinStrings` | examples/convert_list_of_issues_to_issue_dict.py:26 | `''.join` succeeds exactly when every element is a string, and raises TypeError otherwise. |
| `IssueDict.Join` | examples/convert_list_of_issues_to_issue_dict.py:26 | A list joins its elements. A number or None cannot be iterated and raises TypeError. |
| `IssueDict.JoinOfString` | examples/convert_list_of_issues_to_issue_dict.py:26 | Joining a plain string gives the string back. |
| `IssueDict.JoinOfList` | examples/convert_list_of_issues_to_issue_dict.py:26 | Joining a list of strings concatenates them in order. |
| `IssueDict.Attribute` | examples/convert_list_of_issues_to_issue_dict.py:21-26 | An attribute's entry is its `lookup` and the join of its `value`. |
| `IssueDict.Flatten` | examples/convert_list_of_issues_to_issue_dict.py:20-26 | The attribute dictionary is built exactly when every attribute is well formed. |
| `IssueDict.FlattenLastWins` | examples/convert_list_of_issues_to_issue_dict.py:20-26 | Each lookup name holds the joined value of its last attribute, and names that do not occur keep their earlier value. |
| `IssueDict.Rewrite` | examples/convert_list_of_issues_to_issue_dict.py:21-27 | The rewrite succeeds exactly when the issue's own `attributeArray` can be read and every attribute in it is well formed. Then `attributeCollection` is replaced by the dictionary flattened from exactly that array, and every other key is unchanged. |
| `IssueDict.RewriteReadsAttributes` | examples/convert_list_of_issues_to_issue_dict.py:20-27 | After a rewrite, each lookup name in the collection holds the joined value of the last attribute with that name in the issue's array. |
| `IssueDict.RewriteAll` | examples/convert_list_of_issues_to_issue_dict.py:19-27 | The rewrite succeeds exactly when every issue rewrites, and keeps the issues in order. |
| `IssueDict.OnHostOnly` | examples/convert_list_of_issues_to_issue_dict.py:28-30 | The filter succeeds exactly when every issue has a domain. It keeps exactly the issues whose domain equals the host. |
| `IssueDict.OnHostOnlyKeepsOrder` | examples/convert_list_of_issues_to_issue_dict.py:30 | The filter keeps order: filtering a concatenation concatenates the filtered parts, and one issue is kept exactly when its domain equals the host. |
| `IssueDict.FetchAllAnswers` | examples/convert_list_of_issues_to_issue_dict.py:18 | Each issue is replaced, in order, by the answer fetched for its `id`. |
| `IssueDict.Convert` | examples/convert_list_of_issues_to_issue_dict.py:18-31 | The result is the fetched issues, rewritten, and filtered by host when a host is given. |
| `IssueDict.ConvertKeepsAll` | examples/convert_list_of_issues_to_issue_dict.py:18-31 | Without a filter, every issue of the list comes back in order, as fetched by its `id` and rewritten. |
| `IssueDict.ConvertKeepsHost` | examples/convert_list_of_issues_to_issue_dict.py:18-31 | With a filter, every issue that comes back is on the host and is the rewritten form of some listed issue. Every rewritten listed issue on the host comes back. The result is the unfiltered conversion with the other hosts dropped, so with `IssueDict.OnHostOnlyKeepsOrder` it keeps the list's order. |
| `IssueDict.IssueListToDict` | examples/convert_list_of_issues_to_issue_dict.py:18-31 | Without a host filter, the `i`-th result is the `i`-th listed issue fetched by its `id` and rewritten. With one, every result is on the host and is the rewritten form of some listed issue. |

## Left out

- Logging in and out: `login`, `logout`, `version`, `getapikey`, the
  session, the API key and secret, and the certificate setting. Every
  operation opens a session first. Those requests are not recorded, and a
  failed login is not modelled.
- Logging (`self.logger`) and the exceptions' message texts. They have no
  effect on results.
- `time()` in `createapplication` and `updateapplication` is the parameter
  `now`, because the clock is outside the model.
- The `copyappname` path of `createapplication` and `updateapplication`.
  It merges another application's attributes fetched through
  `applicationattributequery`, which is not part of this model. The model
  takes `copyappname` as None.
- `buildfoldertree`, `createfolderitem`, `schedulescan`, `deltaToString` and
  the other thin wrappers around a single GET or POST.
- The HTTP transport. A response is an abstract record: status, body,
  decoded JSON, whether `raise_for_status` raises, and `ETag`.
- The `Range` header that `appissuequery` puts on the session is attached
  to its one request. Later requests of the same session do not carry it.
- `int()` and `strip()` recognise ASCII digits and Latin-1 white space
  only. For bytes, `int()` skips ASCII white space only, as Python does.
  `[\d]` in the report scan is ASCII digits only. The other Unicode digits
  and spaces Python accepts for strings are not modelled.
- Floats. `PyValue.Value` has no float case. JSON numbers with a fraction,
  float arguments such as a reference `4.0` (which `int` would accept), and
  `1 == 1.0` in a search cannot be expressed. The core computes with
  integers, text and containers only.
- `str()` of a string inside a list or dict quotes it without escaping.
- Dictionaries from the server are assumed to have distinct keys. A lookup
  reads the first entry with the key.
- The page loops of `reportjsonquery` run over `range(2, TotalPages)`, as
  written. Whether that reaches the server's last page depends on how the
  server numbers pages, and that is not part of this model.
- IssueDict.Attribute: stores an attribute only under a string lookup name,
  and raises TypeError for a number, a bool or None. Python would accept
  those as dict keys.
- Query.JobsQuery: for the folder loop, the contract states only that the
  folder list is fetched first. The loop itself is stated by
  `Query.JobsLoopCollects` and `Query.JobsLoopFirstTruthy`.
- Query.EveryAppIssues: states only the first request and the list shape.
  The per-application requests and answers are stated by
  `Query.AllAppIssuesDecoded`.
- Query.SecurityReport: states only what a successful result is. That it
  is the first security report, and the IndexError and AttributeError
  paths, are stated by `Query.SecurityReportIsFirst`.
- Query.SecurityReports: states which reports are kept, not their order.
  The order is stated by `Query.SecurityReportsKeepOrder`.
- Query.FollowUps: states which ids are kept, not their order or
  repetition. Both are stated by `Query.FollowUpsKeepOrder`.
- IssueDict.OnHostOnly: states which issues are kept, not their order. The
  order is stated by `IssueDict.OnHostOnlyKeepsOrder`.
- Query.JobsLoopFirstTruthy: states one direction only. The converse and
  the all-falsy case are `Query.JobsLoopFindsFirstTruthy` and
  `Query.JobsLoopAllFalsy`.
- Query.ItemSearch: when a folder's query raises, states only that the
  search raises, not which error.
- Query.FolderItemId: for a string name, states only that it raises (see
  `Query.ItemSearch`).
- Query.MergedReport: its multi-page case is stated by
  `Query.MergedReportPages` for well-formed pages only. Malformed pages end
  in whatever exception `+` or the lookup raises.

## Findings

| source | as written | input that shows it | evidently intended | confidence | as-written member | corrected member |
|---|---|---|---|---|---|---|
| pyappscan/query.py:374 | The data report's page URL is `url+'/pages/'+page` with an integer `page`. | `reportjsonquery(n)` (data mode) on a report whose `TotalPages` is 3 or more raises TypeError after the first request, before any page is fetched (`Query.ReportJsonQuery`, as written). | `str(page)`, as the issues loop at line 364 writes it. The whole report is then merged (`Query.ReportJsonQueryIntended`). | not executed | `Query.DataReportPagesFinding` | `Query.DataReportMerged` |
| pyappscan/query.py:505-514 | An unnamed `fix` lookup fetches `issuetypes/<lookup>/advisory`. | `issuetypequery(n, 'fix')` for a non-zero `n` whose issue type has `issueTypeLookup` `L` asks for `issuetypes/L/advisory`. | `issuetypes/L/fixrecommendation`, the page a named `fix` lookup fetches. | not executed | `Query.FixWithoutNameFetchesAdvisory` | `Query.FixWithoutNameFetchesFix` |

=== FILE: conv.dfy ===
/**
 Python's `str()` and `int()` as the library applies them to caller
 arguments, and the `bool(int(x))` test with which nearly every operation
 decides whether an argument is an identifier or a name.
 */
module Conv {
  import opened Wrappers
  import opened PyValue

  predicate IsDigit(c: char) {
    '0' <= c <= '9'
  }

  /** The characters `str.strip()` and `int()` treat as surrounding white space
      (the ASCII and Latin-1 ones). */
  predicate IsSpace(c: char) {
    c == ' ' || c == '\t' || c == '\n' || c == '\r' || c == '\U{000B}' || c == '\U{000C}'
    || ('\U{001C}' <= c <= '\U{001F}') || c == '\U{0085}' || c == '\U{00A0}'
  }

  /** The white space `int()` skips around a bytes object: ASCII only. */
  predicate IsAsciiSpace(c: char) {
    c == ' ' || ('\t' <= c <= '\r')
  }

  /** What `int()` skips: `IsAsciiSpace` for bytes, `IsSpace` for a string. */
  predicate Skipped(c: char, ascii: bool) {
    if ascii then IsAsciiSpace(c) else IsSpace(c)
  }

  function DigitChar(d: int): (c: char)
    requires 0 <= d < 10
    ensures IsDigit(c) && c as int - '0' as int == d
  {
    ('0' as int + d) as char
  }

  /** Decimal notation of a natural number, most significant digit first. */
  function NatToDecimal(n: nat): (s: string)
    ensures |s| > 0
    ensures forall i :: 0 <= i < |s| ==> IsDigit(s[i])
    decreases n
  {
    if n < 10 then [DigitChar(n)] else NatToDecimal(n / 10) + [DigitChar(n % 10)]
  }

  function IntToDecimal(n: int): string {
    if n < 0 then "-" + NatToDecimal(-n) else NatToDecimal(n)
  }

  /** `str(v)`. Inside lists and dicts, strings are shown between single
      quotes without escaping. */
  function StrOf(v: Value): string
    decreases v, 1
  {
    match v
    case Null => "None"
    case Bool(b) => if b then "True" else "False"
    case Int(i) => IntToDecimal(i)
    case Str(s) => s
    case Bytes(d) => "b'" + d + "'"
    case List(xs) => "[" + ReprElems(v, 0) + "]"
    case Dict(es) => "{" + ReprEntries(v, 0) + "}"
    case Resp(r) => "<Response [" + IntToDecimal(r.status) + "]>"
    case Exc(e) => ""
  }

  /** `repr(v)`: differs from `str(v)` only for strings. */
  function ReprOf(v: Value): string
    decreases v, 2
  {
    if v.Str? then "'" + v.s + "'" else StrOf(v)
  }

  function ReprElems(v: Value, i: nat): string
    requires v.List? && i <= |v.elems|
    decreases v, 0, |v.elems| - i
  {
    if i == |v.elems| then ""
    else (if i == 0 then "" else ", ") + ReprOf(v.elems[i]) + ReprElems(v, i + 1)
  }

  function ReprEntries(v: Value, i: nat): string
    requires v.Dict? && i <= |v.entries|
    decreases v, 0, |v.entries| - i
  {
    if i == |v.entries| then ""
    else
      (if i == 0 then "" else ", ") + "'" + v.entries[i].key + "': "
      + ReprOf(v.entries[i].val) + ReprEntries(v, i + 1)
  }

  function StripLeft(s: string, ascii: bool := false): (r: string)
    ensures |r| <= |s| && r == s[|s| - |r|..]
    ensures r == [] || !Skipped(r[0], ascii)
    decreases |s|
  {
    if s != [] && Skipped(s[0], ascii) then StripLeft(s[1..], ascii) else s
  }

  function StripRight(s: string, ascii: bool := false): (r: string)
    ensures |r| <= |s| && r == s[..|r|]
    ensures r == [] || !Skipped(r[|r| - 1], ascii)
    decreases |s|
  {
    if s != [] && Skipped(s[|s| - 1], ascii) then StripRight(s[..|s| - 1], ascii) else s
  }

  lemma {:induction false} StripLeftRemovesSpaces(s: string)
    ensures forall i :: 0 <= i < |s| - |StripLeft(s)| ==> IsSpace(s[i])
    decreases |s|
  {
    if s != [] && IsSpace(s[0]) {
      StripLeftRemovesSpaces(s[1..]);
      assert forall i :: 1 <= i < |s| ==> s[i] == s[1..][i - 1];
    }
  }

  lemma {:induction false} StripRightRemovesSpaces(s: string)
    ensures forall i :: |StripRight(s)| <= i < |s| ==> IsSpace(s[i])
    decreases |s|
  {
    if s != [] && IsSpace(s[|s| - 1]) {
      StripRightRemovesSpaces(s[..|s| - 1]);
    }
  }

  /** `s.strip()`: the part of `s` between leading and trailing white space;
      with `ascii`, the part between ASCII white space. */
  function Strip(s: string, ascii: bool := false): string {
    StripRight(StripLeft(s, ascii), ascii)
  }

  lemma StripIsSlice(s: string)
    ensures exists i, j :: 0 <= i <= j <= |s| && Strip(s) == s[i..j]
  {
    var l := StripLeft(s);
    var i := |s| - |l|;
    var j := i + |StripRight(l)|;
    SuffixPrefix(s, i, j);
  }

  lemma SuffixPrefix(s: string, i: nat, j: nat)
    requires i <= j <= |s|
    ensures s[i..][..j - i] == s[i..j]
  {
  }

  /** Digits, each `_` standing between two digits, as `int()` accepts them. */
  predicate DigitGroups(t: string)
    decreases |t|
  {
    |t| > 0 && IsDigit(t[0])
    && (|t| == 1 || DigitGroups(t[1..]) || (t[1] == '_' && DigitGroups(t[2..])))
  }

  lemma {:induction false} AllDigitsAreGroups(t: string)
    requires |t| > 0 && forall i :: 0 <= i < |t| ==> IsDigit(t[i])
    ensures DigitGroups(t)
    decreases |t|
  {
    if |t| > 1 {
      AllDigitsAreGroups(t[1..]);
    }
  }

  /** The number the digits of `t` spell, underscores ignored. */
  function DigitsValue(t: string): nat
    decreases |t|
  {
    if t == [] then 0
    else
      var c := t[|t| - 1];
      var p := DigitsValue(t[..|t| - 1]);
      if IsDigit(c) then p * 10 + (c as int - '0' as int) else p
  }

  /** `int(s)` for a string `s`, or with `ascii` for a bytes object: optional
      white space, an optional sign, and digit groups; None where Python
      raises ValueError. */
  function ParseDecimal(s: string, ascii: bool := false): Option<int> {
    ParseSigned(Strip(s, ascii))
  }

  function ParseSigned(t: string): Option<int> {
    if |t| > 0 && (t[0] == '-' || t[0] == '+') then
      if DigitGroups(t[1..]) then Some(if t[0] == '-' then -(DigitsValue(t[1..]) as int) else DigitsValue(t[1..]))
      else None
    else if DigitGroups(t) then Some(DigitsValue(t))
    else None
  }

  datatype IntResult = IntOk(n: int) | IntValueError | IntTypeError

  /** `int(v)`: the three outcomes the library's callers can observe. */
  function IntOf(v: Value): IntResult {
    match v
    case Int(i) => IntOk(i)
    case Bool(b) => IntOk(if b then 1 else 0)
    case Str(s) => (match ParseDecimal(s) case Some(n) => IntOk(n) case None => IntValueError)
    case Bytes(d) => (match ParseDecimal(d, true) case Some(n) => IntOk(n) case None => IntValueError)
    case _ => IntTypeError
  }

  /** `int(v)` where its exceptions propagate. */
  function IntValue(v: Value): (r: Result<Value>)
    ensures r.Ok? <==> IntOf(v).IntOk?
    ensures r.Ok? ==> r.value == Int(IntOf(v).n)
    ensures IntOf(v) == IntValueError ==> r == Err(ValueError(IntLiteral))
    ensures IntOf(v) == IntTypeError ==> r == Err(TypeError(IntArgument))
  {
    match IntOf(v)
    case IntOk(n) => Ok(Int(n))
    case IntValueError => Err(ValueError(IntLiteral))
    case IntTypeError => Err(TypeError(IntArgument))
  }

  /** How `bool(int(x))` classifies a reference: a non-zero integer, zero
      (falsy, so treated like a name), not a number (`int` raises
      ValueError), or not convertible at all (`int` raises TypeError). */
  datatype RefKind = NonZero(n: int) | Zero | NotNumeric | NotCastable

  function Classify(x: Value): (k: RefKind)
    ensures k.NonZero? <==> IntOf(x).IntOk? && IntOf(x).n != 0
    ensures k.NonZero? ==> k.n == IntOf(x).n
    ensures k == Zero <==> IntOf(x) == IntOk(0)
    ensures k == NotNumeric <==> IntOf(x) == IntValueError
    ensures k == NotCastable <==> IntOf(x) == IntTypeError
  {
    match IntOf(x)
    case IntOk(n) => if n != 0 then NonZero(n) else Zero
    case IntValueError => NotNumeric
    case IntTypeError => NotCastable
  }

  // ---------------------------------------------------------------------
  // Properties

  lemma {:induction false} DigitsValueAppend(t: string, c: char)
    requires IsDigit(c)
    ensures DigitsValue(t + [c]) == DigitsValue(t) * 10 + (c as int - '0' as int)
  {
    assert (t + [c])[..|t + [c]| - 1] == t;
  }

  lemma {:induction false} NatToDecimalValue(n: nat)
    ensures DigitGroups(NatToDecimal(n))
    ensures DigitsValue(NatToDecimal(n)) == n
    decreases n
  {
    AllDigitsAreGroups(NatToDecimal(n));
    if n < 10 {
      assert DigitsValue(NatToDecimal(n)) == DigitsValue([] + [DigitChar(n)]);
      DigitsValueAppend([], DigitChar(n));
    } else {
      NatToDecimalValue(n / 10);
      DigitsValueAppend(NatToDecimal(n / 10), DigitChar(n % 10));
    }
  }

  lemma StripUnchanged(s: string)
    requires s != [] ==> !IsSpace(s[0]) && !IsSpace(s[|s| - 1])
    ensures Strip(s) == s
  {
  }

  lemma StripOfDecimal(n: int)
    ensures Strip(IntToDecimal(n)) == IntToDecimal(n)
  {
    var s := IntToDecimal(n);
    assert !IsSpace(s[0]) && !IsSpace(s[|s| - 1]);
    StripUnchanged(s);
  }

  lemma {:induction false} ParseSignedOfDecimal(n: int)
    ensures ParseSigned(IntToDecimal(n)) == Some(n)
  {
    var m: nat := if n < 0 then -n else n;
    var d := NatToDecimal(m);
    NatToDecimalValue(m);
    if n < 0 {
      assert ("-" + d)[1..] == d;
    } else {
      assert IsDigit(d[0]);
    }
  }

  lemma {:induction false} ParseDecimalOfDecimal(n: int)
    ensures ParseDecimal(IntToDecimal(n)) == Some(n)
  {
    StripOfDecimal(n);
    ParseSignedOfDecimal(n);
  }

  /** `int(str(n)) == n` for every integer `n`. */
  lemma {:induction false} DecimalRoundTrip(n: int)
    ensures IntOf(Str(StrOf(Int(n)))) == IntOk(n)
  {
    ParseDecimalOfDecimal(n);
  }

  /** `int(s)` never raises TypeError for text, and accepts only a stripped
      run of digits and underscores, with an optional sign in front. Bytes
      that `int` accepts read as the same characters in a string do, and the
      two agree wherever the only white space is ASCII. */
  lemma IntOfText(s: string)
    ensures IntOf(Str(s)) != IntTypeError
    ensures IntOf(Bytes(s)).IntOk? ==> IntOf(Str(s)) == IntOf(Bytes(s))
    ensures (forall i :: 0 <= i < |s| && IsSpace(s[i]) ==> IsAsciiSpace(s[i])) ==> IntOf(Str(s)) == IntOf(Bytes(s))
    ensures IntOf(Str(s)).IntOk? ==>
              var t := Strip(s);
              |t| > 0 && IsDigit(t[|t| - 1])
              && forall i :: 0 <= i < |t| ==> IsDigit(t[i]) || t[i] == '_' || (i == 0 && (t[i] == '-' || t[i] == '+'))
  {
    if IntOf(Str(s)).IntOk? {
      SignedChars(Strip(s));
    }
    BytesNumberIsStrNumber(s);
    AsciiSpacedAgree(s);
  }

  lemma BytesNumberIsStrNumber(s: string)
    ensures IntOf(Bytes(s)).IntOk? ==> IntOf(Str(s)) == IntOf(Bytes(s))
  {
    if IntOf(Bytes(s)).IntOk? {
      BytesNumberStrips(s);
      SameStripSameInt(s);
    }
  }

  lemma AsciiSpacedAgree(s: string)
    ensures (forall i :: 0 <= i < |s| && IsSpace(s[i]) ==> IsAsciiSpace(s[i])) ==> IntOf(Str(s)) == IntOf(Bytes(s))
  {
    if forall i :: 0 <= i < |s| && IsSpace(s[i]) ==> IsAsciiSpace(s[i]) {
      OnlyAsciiBoundaries(s);
      StripOnlyAscii(s);
      SameStripSameInt(s);
    }
  }

  lemma SameStripSameInt(s: string)
    requires Strip(s) == Strip(s, true)
    ensures IntOf(Str(s)) == IntOf(Bytes(s))
  {
    assert ParseDecimal(s) == ParseDecimal(s, true);
  }

  /** Without white space beyond ASCII, the ASCII strips stop at characters
      that are not white space of either kind. */
  lemma OnlyAsciiBoundaries(s: string)
    requires forall i :: 0 <= i < |s| && IsSpace(s[i]) ==> IsAsciiSpace(s[i])
    ensures StartsOutsideSpace(StripLeft(s, true)) && EndsOutsideSpace(Strip(s, true))
  {
    var l := StripLeft(s, true);
    if l != [] {
      OnlyAsciiAt(s, |s| - |l|);
    }
    var t := StripRight(l, true);
    if t != [] {
      assert t[|t| - 1] == l[|t| - 1];
      OnlyAsciiAt(s, |s| - |l| + |t| - 1);
    }
  }

  lemma OnlyAsciiAt(s: string, k: int)
    requires forall i :: 0 <= i < |s| && IsSpace(s[i]) ==> IsAsciiSpace(s[i])
    requires 0 <= k < |s| && !IsAsciiSpace(s[k])
    ensures !IsSpace(s[k])
  {
  }

  /** Around a number that bytes spell, both strips agree. */
  lemma BytesNumberStrips(s: string)
    requires ParseDecimal(s, true).Some?
    ensures Strip(s) == Strip(s, true)
  {
    NumberBoundaries(Strip(s, true));
    LeftOfStrip(s);
    StripOnlyAscii(s);
  }

  /** A number's text starts and ends outside white space. */
  lemma NumberBoundaries(t: string)
    requires ParseSigned(t).Some?
    ensures t != [] && StartsOutsideSpace(t) && EndsOutsideSpace(t)
  {
    SignedChars(t);
  }

  lemma LeftOfStrip(s: string)
    requires Strip(s, true) != [] && StartsOutsideSpace(Strip(s, true))
    ensures StartsOutsideSpace(StripLeft(s, true))
  {
    var l := StripLeft(s, true);
    assert Strip(s, true)[0] == l[0];
  }

  /** Where neither ASCII strip stops at other white space, both strips
      agree. */
  lemma StripOnlyAscii(s: string)
    requires StartsOutsideSpace(StripLeft(s, true)) && EndsOutsideSpace(Strip(s, true))
    ensures Strip(s) == Strip(s, true)
  {
    var l := StripLeft(s, true);
    StripLeftAscii(s);
    assert StripLeft(s) == l;
    assert Strip(s, true) == StripRight(l, true);
    StripRightAscii(l);
  }

  /** `t` does not start with white space of either kind. */
  predicate StartsOutsideSpace(t: string) {
    t == [] || !IsSpace(t[0])
  }

  /** `t` does not end with white space of either kind. */
  predicate EndsOutsideSpace(t: string) {
    t == [] || !IsSpace(t[|t| - 1])
  }

  /** Where the ASCII strip stops short of any other white space, both
      strips stop at the same place. */
  lemma {:induction false} StripLeftAscii(s: string)
    requires StartsOutsideSpace(StripLeft(s, true))
    ensures StripLeft(s) == StripLeft(s, true)
    decreases |s|
  {
    if s != [] && IsAsciiSpace(s[0]) {
      assert IsSpace(s[0]);
      assert StripLeft(s, true) == StripLeft(s[1..], true);
      StripLeftAscii(s[1..]);
    } else {
      assert StripLeft(s, true) == s;
    }
  }

  lemma {:induction false} StripRightAscii(s: string)
    requires EndsOutsideSpace(StripRight(s, true))
    ensures StripRight(s) == StripRight(s, true)
    decreases |s|
  {
    if s != [] && IsAsciiSpace(s[|s| - 1]) {
      assert IsSpace(s[|s| - 1]);
      assert StripRight(s, true) == StripRight(s[..|s| - 1], true);
      StripRightAscii(s[..|s| - 1]);
    } else {
      assert StripRight(s, true) == s;
    }
  }

  lemma SignedChars(t: string)
    requires ParseSigned(t).Some?
    ensures |t| > 0 && IsDigit(t[|t| - 1])
    ensures forall i :: 0 <= i < |t| ==> IsDigit(t[i]) || t[i] == '_' || (i == 0 && (t[i] == '-' || t[i] == '+'))
  {
    if |t| > 0 && (t[0] == '-' || t[0] == '+') {
      TextDigits(t[1..]);
      assert forall i :: 1 <= i < |t| ==> t[i] == t[1..][i - 1];
    } else {
      TextDigits(t);
    }
  }

  lemma TextDigits(u: string)
    requires DigitGroups(u)
    ensures |u| > 0 && IsDigit(u[|u| - 1])
    ensures forall i :: 0 <= i < |u| ==> IsDigit(u[i]) || u[i] == '_'
  {
    DigitGroupsChars(u);
    DigitGroupsEnd(u);
  }

  lemma {:induction false} DigitGroupsEnd(u: string)
    requires DigitGroups(u)
    ensures IsDigit(u[|u| - 1])
    decreases |u|
  {
    if |u| > 1 {
      if DigitGroups(u[1..]) {
        DigitGroupsEnd(u[1..]);
        assert u[1..][|u[1..]| - 1] == u[|u| - 1];
      } else {
        DigitGroupsEnd(u[2..]);
        assert u[2..][|u[2..]| - 1] == u[|u| - 1];
      }
    }
  }

  /** A number converts to itself, and equals the `int` it converts to. */
  lemma IntOfNumber(v: Value)
    requires v.Int? || v.Bool?
    ensures IntOf(v) == IntOk(NumOf(v)) && Eq(v, Int(IntOf(v).n))
  {
  }

  /** `str()` of an integer is its decimal text, which `int()` reads back, so
      two integers print alike exactly when they are equal. */
  lemma StrOfIntInjective(a: int, b: int)
    ensures ParseDecimal(StrOf(Int(a))) == Some(a)
    ensures StrOf(Int(a)) == StrOf(Int(b)) <==> a == b
  {
    ParseDecimalOfDecimal(a);
    ParseDecimalOfDecimal(b);
  }

  /** A text whose first two characters are not digits is not a number:
      neither the first character nor the one after a sign starts a run of
      digits. */
  lemma NoLeadingDigit(t: string)
    requires t != [] ==> !IsDigit(t[0]) && (|t| > 1 ==> !IsDigit(t[1]))
    ensures ParseSigned(t) == None
  {
    if |t| > 1 {
      assert t[1..][0] == t[1];
    }
  }

  /** A string without a single digit is always taken for a name. */
  lemma NoDigitIsName(s: string)
    requires forall i :: 0 <= i < |s| ==> !IsDigit(s[i])
    ensures Classify(Str(s)) == NotNumeric
  {
    NoDigitParses(s);
  }

  lemma NoDigitParses(s: string)
    requires forall i :: 0 <= i < |s| ==> !IsDigit(s[i])
    ensures ParseDecimal(s) == None
  {
    var l := StripLeft(s);
    var t := StripRight(l);
    var i := |s| - |l|;
    if |t| > 0 {
      assert t[0] == l[0] == s[i];
      if |t| > 1 {
        assert t[1] == l[1] == s[i + 1];
      }
    }
    NoLeadingDigit(t);
  }

  lemma ZeroStrips()
    ensures Strip("0") == "0"
  {
    StripLeftUnchanged("0");
    StripRightUnchanged("0");
  }

  lemma ZeroDigits()
    ensures DigitsValue("0") == 0
  {
    assert "0"[..0] == [];
  }

  lemma ZeroSigned()
    ensures ParseSigned("0") == Some(0)
  {
    ZeroDigits();
  }

  lemma ZeroParses()
    ensures ParseDecimal("0") == Some(0)
  {
    ZeroStrips();
    ZeroSigned();
  }

  /** Zero, in any spelling, is falsy and so is not used as an identifier. */
  lemma ZeroIsNotAnIdentifier()
    ensures Classify(Int(0)) == Zero
    ensures Classify(Bool(false)) == Zero
    ensures Classify(Str("0")) == Zero
  {
    ZeroParses();
  }

  /** `None` is not convertible: `int(None)` raises TypeError, which the
      `except ValueError` clauses of the library do not catch. */
  lemma NoneIsNotCastable()
    ensures Classify(Null) == NotCastable
  {
  }

  lemma NameIsNotNumeric()
    ensures Classify(Str("abc")) == NotNumeric
  {
    ForeignCharIsName("abc", 0);
  }

  lemma {:induction false} DigitGroupsChars(u: string)
    requires DigitGroups(u)
    ensures forall i :: 0 <= i < |u| ==> IsDigit(u[i]) || u[i] == '_'
    decreases |u|
  {
    if |u| > 1 {
      if DigitGroups(u[1..]) {
        DigitGroupsChars(u[1..]);
        assert forall i :: 1 <= i < |u| ==> u[i] == u[1..][i - 1];
      } else {
        DigitGroupsChars(u[2..]);
        assert forall i :: 2 <= i < |u| ==> u[i] == u[2..][i - 2];
      }
    }
  }

  /** Any character other than digits, `_`, a sign or white space makes the
      argument a name: `"4.2"`, `"12a"`, `"my-app"`. */
  lemma ForeignCharIsName(s: string, k: int)
    requires 0 <= k < |s|
    requires !IsDigit(s[k]) && s[k] != '_' && s[k] != '+' && s[k] != '-' && !IsSpace(s[k])
    ensures Classify(Str(s)) == NotNumeric
  {
    ForeignCharParses(s, k);
  }

  lemma ForeignCharParses(s: string, k: int)
    requires 0 <= k < |s|
    requires !IsDigit(s[k]) && s[k] != '_' && s[k] != '+' && s[k] != '-' && !IsSpace(s[k])
    ensures ParseDecimal(s) == None
  {
    var l := StripLeft(s);
    var t := StripRight(l);
    var i := |s| - |l|;
    StripLeftRemovesSpaces(s);
    StripRightRemovesSpaces(l);
    assert i <= k;
    assert l[k - i] == s[k];
    assert k - i < |t|;
    assert t[k - i] == s[k];
    if |t| > 0 && (t[0] == '-' || t[0] == '+') {
      assert k - i > 0;
      assert t[1..][k - i - 1] == s[k];
      if DigitGroups(t[1..]) {
        DigitGroupsChars(t[1..]);
      }
    } else if DigitGroups(t) {
      DigitGroupsChars(t);
    }
  }

  lemma DecimalPointIsNotNumeric()
    ensures Classify(Str("4.2")) == NotNumeric
  {
    ForeignCharIsName("4.2", 1);
  }

  lemma PaddedStripsLeft()
    ensures StripLeft(" 42 ") == "42 "
  {
    assert " 42 "[1..] == "42 ";
    StripLeftUnchanged("42 ");
  }

  lemma PaddedStripsRight()
    ensures StripRight("42 ") == "42"
  {
    assert "42 "[..2] == "42";
    StripRightUnchanged("42");
  }

  lemma FortyTwoDigits()
    ensures DigitsValue("42") == 42
  {
    assert "42"[..1] == "4";
    assert "4"[..0] == [];
  }

  lemma FortyTwoGroups()
    ensures DigitGroups("42")
  {
    assert "42"[1..] == "2";
    assert DigitGroups("2");
  }

  lemma PaddedParses()
    ensures ParseDecimal(" 42 ") == Some(42)
  {
    PaddedStripsLeft();
    PaddedStripsRight();
    FortyTwoDigits();
    FortyTwoGroups();
  }

  lemma PaddedNumberIsIdentifier()
    ensures Classify(Str(" 42 ")) == NonZero(42)
  {
    PaddedParses();
  }

  lemma StripLeftUnchanged(s: string, ascii: bool := false)
    requires s != [] && !Skipped(s[0], ascii)
    ensures StripLeft(s, ascii) == s
  {
  }

  lemma StripRightUnchanged(s: string, ascii: bool := false)
    requires s != [] && !Skipped(s[|s| - 1], ascii)
    ensures StripRight(s, ascii) == s
  {
  }
}

=== FILE: helper.dfy ===
/**
 The `Helper` base class: the client's URLs and credentials, status
 gating of responses, collection search, the generic query dispatcher,
 and the payload utilities shared by the query and update operations.
 */
module Helper {
  import opened Wrappers
  import opened PyValue
  import opened Conv
  import opened Http

  // ---------------------------------------------------------------------
  // The client and its URLs

  /** The attributes the constructor sets. `username`, `password` and `key`
      exist only when a truthy username was given. The API key, the secret
      and the certificate setting only matter to logging in. */
  datatype Client = Client(
    baseurl: string,
    scanbaseurl: string,
    username: Option<Value>,
    password: Option<Value>,
    key: Option<Value>)

  const DefaultKey := "AppscanEnterpriseUser"

  /** `sub` occurs in `s` at position `p`. */
  predicate OccursAt(s: string, sub: string, p: int) {
    0 <= p && p + |sub| <= |s| && s[p..p + |sub|] == sub
  }

  /** `s.find(sub, start)` for a non-empty `sub`: the first position at or
      after `start` where `sub` occurs, or -1. */
  function Find(s: string, sub: string, start: nat): (r: int)
    requires |sub| > 0
    ensures r == -1 || (start <= r && OccursAt(s, sub, r))
    decreases |s| - start
  {
    if start + |sub| > |s| then -1
    else if s[start..start + |sub|] == sub then start
    else Find(s, sub, start + 1)
  }

  /** The position a slice bound `b` denotes in a sequence of length `len`. */
  function SliceBound(b: int, len: nat): (p: nat)
    ensures p <= len
    ensures 0 <= b <= len ==> p == b
    ensures -(len as int) <= b < 0 ==> p == b + len
  {
    if b < 0 then (if b + len < 0 then 0 else b + len) else if b > len then len else b
  }

  /** `s[a:b]`: negative bounds count from the end, bounds are clamped, and a
      slice whose start is not before its end is empty. */
  function Slice(s: string, a: int, b: int): string {
    var i := SliceBound(a, |s|);
    var j := SliceBound(b, |s|);
    if i < j then s[i..j] else []
  }

  /** The scan service root: everything before the second `:`, then the four
      characters from the first `/ase` on, then `/`. `'/ase' or '/ASE'` is
      just `'/ase'`, and a -1 from `find` slices from the end. */
  function ScanBaseUrl(b: string): (r: string)
    ensures |r| > 0 && r[|r| - 1] == '/'
    ensures forall i :: 0 <= i < |r| - 1 ==> r[i] in b
  {
    var i := Find(b, ":", 0);
    var prefix := Slice(b, 0, Find(b, ":", i + 1));
    var k := Find(b, "/ase", 0);
    prefix + Slice(b, k, k + 4) + "/"
  }

  /** `baseurl` with exactly one added `/` when it lacks a trailing one; an
      empty string fails on `baseurl[-1]`. */
  function NormalizeBase(b: string): (r: Result<string>)
    ensures b == [] <==> r == Err(IndexError)
    ensures r.Ok? ==> |r.value| > 0 && r.value[|r.value| - 1] == '/'
    ensures r.Ok? && b[|b| - 1] == '/' ==> r.value == b
    ensures r.Ok? && b[|b| - 1] != '/' ==> r.value == b + "/"
  {
    if b == [] then Err(IndexError)
    else if b[|b| - 1] == '/' then Ok(b)
    else Ok(b + "/")
  }

  /** `Helper.__init__`. */
  function NewClient(baseurl: string, username: Value, password: Value, key: Value): (r: Result<Client>)
    ensures r.Ok? <==> baseurl != []
    ensures r.Ok? ==> Ok(r.value.baseurl) == NormalizeBase(baseurl)
    ensures r.Ok? ==> r.value.scanbaseurl == ScanBaseUrl(baseurl)
    ensures r.Ok? ==> (r.value.username.Some? <==> Truthy(username))
    ensures r.Ok? && Truthy(username) ==>
              r.value.username == Some(username) && r.value.password == Some(password)
              && r.value.key == Some(if key.Null? then Str(DefaultKey) else key)
  {
    var scan := ScanBaseUrl(baseurl);
    var base :- NormalizeBase(baseurl);
    if Truthy(username) then
      Ok(Client(base, scan, Some(username), Some(password),
                Some(if key.Null? then Str(DefaultKey) else key)))
    else Ok(Client(base, scan, None, None, None))
  }

  /** `self.username`, which raises AttributeError when the constructor did
      not set it. */
  function UserName(c: Client): (r: Result<Value>)
    ensures r.Ok? <==> c.username.Some?
  {
    match c.username
    case Some(u) => Ok(u)
    case None => Err(AttributeError("username"))
  }

  // ---------------------------------------------------------------------
  // Status gating

  predicate Success(status: int) {
    status == 200 || status == 201 || status == 204
  }

  /** `raise_for_status()` for an unsuccessful response: it raises, or the
      caller goes on and returns None. */
  function RaiseForStatus(resp: Response): (r: Result<Value>)
    ensures r.Ok? <==> !resp.raises
    ensures r.Ok? ==> r.value == Null
    ensures r.Err? ==> r.error == HttpError(resp.status)
  {
    if resp.raises then Err(HttpError(resp.status)) else Ok(Null)
  }

  /** `returnobject`: the decoded body of a successful response, or the
      response itself when it does not decode. */
  function ReturnObject(resp: Response): (r: Result<Value>)
    ensures Success(resp.status) && resp.json.Some? ==> r == Ok(resp.json.value)
    ensures Success(resp.status) && resp.json.None? ==> r == Ok(Resp(resp))
    ensures !Success(resp.status) ==> r == RaiseForStatus(resp)
  {
    if Success(resp.status) then
      match resp.json
      case Some(j) => Ok(j)
      case None => Ok(Resp(resp))
    else RaiseForStatus(resp)
  }

  /** `returnhtml`: the raw body of a successful response. */
  function ReturnHtml(resp: Response): (r: Result<Value>)
    ensures Success(resp.status) ==> r == Ok(Bytes(resp.content))
    ensures !Success(resp.status) ==> r == RaiseForStatus(resp)
  {
    if Success(resp.status) then Ok(Bytes(resp.content)) else RaiseForStatus(resp)
  }

  // ---------------------------------------------------------------------
  // Collection search

  /** `name == field or str(name) == field`. */
  predicate Matches(name: Value, field: Value) {
    Eq(name, field) || Eq(Str(StrOf(name)), field)
  }

  /** Looking at one node: whether its field matches, or the error reading
      the field raises. */
  function Probe(node: Value, name: Value, category: Value): (r: Result<bool>)
    ensures r.Ok? <==> GetItem(node, category).Ok?
    ensures r.Ok? ==> r.value == Matches(name, GetItem(node, category).value)
    ensures r.Err? ==> r.error == GetItem(node, category).error
  {
    var field :- GetItem(node, category);
    Ok(Matches(name, field))
  }

  /** The node has the searched field and it matches. */
  predicate Hit(node: Value, name: Value, category: Value) {
    Probe(node, name, category) == Ok(true)
  }

  /** The node has the searched field and it does not match. */
  predicate Miss(node: Value, name: Value, category: Value) {
    Probe(node, name, category) == Ok(false)
  }

  /** The loop of `searchlist`. */
  function SearchNodes(nodes: seq<Value>, name: Value, category: Value): (r: Result<Value>)
    ensures r.Ok? && !r.value.Null? ==> r.value in nodes && Hit(r.value, name, category)
    decreases |nodes|
  {
    if nodes == [] then Ok(Null)
    else
      var hit :- Probe(nodes[0], name, category);
      if hit then Ok(nodes[0])
      else SearchNodes(nodes[1..], name, category)
  }

  /** One step of the search: a node without the field raises, a hit is
      returned, a miss moves on. */
  lemma SearchNodesStep(nodes: seq<Value>, name: Value, category: Value)
    requires nodes != []
    ensures Probe(nodes[0], name, category).Err? ==>
              SearchNodes(nodes, name, category) == Err(Probe(nodes[0], name, category).error)
    ensures Hit(nodes[0], name, category) ==> SearchNodes(nodes, name, category) == Ok(nodes[0])
    ensures Miss(nodes[0], name, category) ==> SearchNodes(nodes, name, category) == SearchNodes(nodes[1..], name, category)
  {
    if Probe(nodes[0], name, category).Ok? {
      if Probe(nodes[0], name, category).value {
        assert Hit(nodes[0], name, category);
      }
    }
  }

  /** `searchlist(liss, name, category)`. */
  function SearchList(liss: Value, name: Value, category: Value): (r: Result<Value>)
    ensures !liss.List? ==> r == Err(TypeError(MustBeList))
    ensures liss.List? ==> r == SearchNodes(liss.elems, name, category)
  {
    if !liss.List? then Err(TypeError(MustBeList))
    else SearchNodes(liss.elems, name, category)
  }

  /** The loop of `searchdict` over the dictionary's values; a search that
      returns None (`res == None`) moves on to the next list. */
  function SearchValues(es: seq<Entry>, name: Value, category: Value): (r: Result<Value>)
    ensures r.Ok? && !r.value.Null? ==> exists i :: 0 <= i < |es| && es[i].val.List? && r.value in es[i].val.elems
    decreases |es|
  {
    if es == [] then Ok(Null)
    else
      var res :- SearchList(es[0].val, name, category);
      if res.Null? then SearchValues(es[1..], name, category) else Ok(res)
  }

  /** `searchdict(dic, name, category)`. */
  function SearchDict(dic: Value, name: Value, category: Value): (r: Result<Value>)
    ensures !dic.Dict? ==> r == Err(TypeError(MustBeDict))
    ensures dic.Dict? ==> r == SearchValues(dic.entries, name, category)
  {
    if !dic.Dict? then Err(TypeError(MustBeDict))
    else SearchValues(dic.entries, name, category)
  }

  // ---------------------------------------------------------------------
  // Query dispatch

  /** `queryhelper(url_ext, name, category)`. Comparing with None by `!=`
      and `==` is the same as testing for None here. */
  function QueryHelper(c: Client, srv: Server, ext: string, name: Value, category: Value): (r: Run<Value>)
    ensures !name.Null? && category.Null? ==>
              var req := Get(c.baseurl + ext + "/" + StrOf(name));
              r == Run([req], ReturnObject(srv(req)))
    ensures name.Null? ==>
              var req := Get(c.baseurl + ext);
              r == Run([req], ReturnObject(srv(req)))
    ensures !name.Null? && !category.Null? ==>
              var req := Get(c.baseurl + ext);
              r.calls == [req]
              && (JsonOf(srv(req)).Err? ==> r.out == Err(ValueError(JsonDecode)))
              && (JsonOf(srv(req)).Ok? ==> r.out == SearchList(JsonOf(srv(req)).value, name, category))
  {
    if !name.Null? && category.Null? then
      var req := Get(c.baseurl + ext + "/" + StrOf(name));
      Run([req], ReturnObject(srv(req)))
    else
      var req := Get(c.baseurl + ext);
      var resp := srv(req);
      if name.Null? then Run([req], ReturnObject(resp))
      else
        Run([req], (var j :- JsonOf(resp); SearchList(j, name, category)))
  }

  // The collections `queryhelper` serves.
  const Templates := "templates"
  const Folders := "folders"
  const TestPolicies := "testpolicies"
  const Applications := "applications"
  const UserTypes := "usertypes"
  const IssueTypes := "issuetypes"

  // ---------------------------------------------------------------------
  // Payload utilities

  /** One element of the attribute array the server expects. */
  function NameValue(name: string, value: Value): Value {
    Dict([Entry("name", Str(name)), Entry("value", value)])
  }

  lemma NameValueFields(name: string, value: Value)
    ensures Lookup(NameValue(name, value).entries, "name") == Some(Str(name))
    ensures Lookup(NameValue(name, value).entries, "value") == Some(value)
  {
    LookupAt(NameValue(name, value).entries, 1);
  }

  function DictItems(es: seq<Entry>, wrap: bool): (r: seq<Value>)
    ensures |r| == |es|
    ensures forall i :: 0 <= i < |es| ==>
              r[i] == NameValue(es[i].key, if wrap then List([Str(StrOf(es[i].val))]) else Str(StrOf(es[i].val)))
  {
    if es == [] then []
    else
      var v := Str(StrOf(es[0].val));
      [NameValue(es[0].key, if wrap then List([v]) else v)] + DictItems(es[1..], wrap)
  }

  /** `dicttolistofdicts(dic)`: one `{'name': k, 'value': str(v)}` per key,
      in key order; the value is wrapped in a one-element list unless
      `dic['URL']` is itself a list. */
  function DictToListOfDicts(dic: Value): (r: Result<Value>)
    ensures dic.Dict? && !HasKey(dic.entries, "URL") ==> r == Err(KeyError(Str("URL")))
    ensures r.Ok? <==> dic.Dict? && HasKey(dic.entries, "URL")
    ensures r.Ok? ==>
              var wrap := !Lookup(dic.entries, "URL").value.List?;
              r.value.List? && |r.value.elems| == |dic.entries|
              && forall i :: 0 <= i < |dic.entries| ==>
                   r.value.elems[i]
                   == NameValue(dic.entries[i].key,
                                if wrap then List([Str(StrOf(dic.entries[i].val))])
                                else Str(StrOf(dic.entries[i].val)))
  {
    var url :- At(dic, "URL");
    Ok(List(DictItems(dic.entries, !url.List?)))
  }

  /** The six attributes every application needs, in the order they are checked. */
  const RequiredAttributes: seq<string> :=
    ["Name", "URL", "Hosts", "Development Contact", "Business Unit", "Description"]

  /** The first of `ks` that `es` lacks. */
  function FirstMissing(es: seq<Entry>, ks: seq<string>): (r: Option<nat>)
    ensures r.None? <==> forall i :: 0 <= i < |ks| ==> HasKey(es, ks[i])
    ensures r.Some? ==> r.value < |ks| && !HasKey(es, ks[r.value])
                        && forall j :: 0 <= j < r.value ==> HasKey(es, ks[j])
  {
    if ks == [] then None
    else if !HasKey(es, ks[0]) then Some(0)
    else
      match FirstMissing(es, ks[1..])
      case None => None
      case Some(n) => Some(n + 1)
  }

  /** `attributecheck(attributedict)`: returns None, or raises AttrError for
      too few keys or for the first required attribute that is missing. */
  function AttributeCheck(attrs: Value): (r: Result<Value>)
    ensures r.Ok? <==> attrs.Dict? && |attrs.entries| >= 6
                       && forall i :: 0 <= i < |RequiredAttributes| ==> HasKey(attrs.entries, RequiredAttributes[i])
    ensures r.Ok? ==> r.value == Null
    ensures !attrs.Dict? ==> r == Err(AttributeError("keys"))
    ensures attrs.Dict? && |attrs.entries| < 6 ==> r == Err(AttrError("len"))
    ensures attrs.Dict? && |attrs.entries| >= 6 && r.Err? ==>
              exists i :: 0 <= i < |RequiredAttributes| && r == Err(AttrError(RequiredAttributes[i]))
                          && !HasKey(attrs.entries, RequiredAttributes[i])
                          && forall j :: 0 <= j < i ==> HasKey(attrs.entries, RequiredAttributes[j])
  {
    if !attrs.Dict? then Err(AttributeError("keys"))
    else if |attrs.entries| < 6 then Err(AttrError("len"))
    else
      match FirstMissing(attrs.entries, RequiredAttributes)
      case None => Ok(Null)
      case Some(i) => Err(AttrError(RequiredAttributes[i]))
  }

  // ---------------------------------------------------------------------
  // Tree printing

  /** `tab` copies of `|\t`; `range` of a negative count is empty. */
  function Indent(tab: int): (r: string)
    ensures '\n' !in r
    decreases if tab < 0 then 0 else tab
  {
    if tab <= 0 then "" else "|\t" + Indent(tab - 1)
  }

  /** The line `dictprint` writes for one key. */
  function Line(tab: int, key: string): string {
    Indent(tab) + "| " + key + "\n"
  }

  /** The loop of `dictprint` from the `i`-th key on, with the text so far
      in `s`. */
  function PrintFrom(d: Value, i: nat, s: string, tab: int): (r: string)
    requires d.Dict? && i <= |d.entries|
    ensures s <= r
    decreases d, 0, |d.entries| - i
  {
    if i == |d.entries| then s
    else
      var e := d.entries[i];
      assert e in d.entries;
      PrintFrom(d, i + 1, PrintValue(e.val, s + Line(tab, e.key), tab), tab)
  }

  /** What `dictprint` does with a value: a non-empty dictionary is printed
      one level deeper, anything else adds nothing. */
  function PrintValue(v: Value, s: string, tab: int): (r: string)
    ensures s <= r
    decreases v, 1
  {
    if v.Dict? && v.entries != [] then PrintFrom(v, 0, s, tab + 1) else s
  }

  /** `dictprint(dic, string, tab)`. */
  function DictPrint(d: Value, s: string, tab: int): (r: Result<string>)
    ensures !d.Dict? <==> r == Err(AttributeError("items"))
    ensures d.Dict? ==> r.Ok? && s <= r.value
  {
    if !d.Dict? then Err(AttributeError("items")) else Ok(PrintFrom(d, 0, s, tab))
  }

  /** The lines the tree of `d` renders to from the `i`-th key on, built
      directly rather than by extending an accumulator. */
  function RenderFrom(d: Value, i: nat, tab: int): string
    requires d.Dict? && i <= |d.entries|
    decreases d, 0, |d.entries| - i
  {
    if i == |d.entries| then ""
    else
      var e := d.entries[i];
      assert e in d.entries;
      Line(tab, e.key) + RenderValue(e.val, tab) + RenderFrom(d, i + 1, tab)
  }

  function RenderValue(v: Value, tab: int): string
    decreases v, 1
  {
    if v.Dict? && v.entries != [] then RenderFrom(v, 0, tab + 1) else ""
  }

  /** Number of keys in the tree of `d` from the `i`-th key on, counting
      the keys of non-empty nested dictionaries. */
  function KeyCount(d: Value, i: nat): nat
    requires d.Dict? && i <= |d.entries|
    decreases d, 0, |d.entries| - i
  {
    if i == |d.entries| then 0
    else
      var e := d.entries[i];
      assert e in d.entries;
      1 + ValueKeyCount(e.val) + KeyCount(d, i + 1)
  }

  function ValueKeyCount(v: Value): nat
    decreases v, 1
  {
    if v.Dict? && v.entries != [] then KeyCount(v, 0) else 0
  }

  // ---------------------------------------------------------------------
  // Properties

  /** Normalising an already normalised base URL changes nothing. */
  lemma NormalizeIdempotent(b: string)
    requires NormalizeBase(b).Ok?
    ensures NormalizeBase(NormalizeBase(b).value) == NormalizeBase(b)
  {
  }

  /** `find` returns the first occurrence at or after `start`. */
  lemma {:induction false} FindFirst(s: string, sub: string, start: nat, p: nat)
    requires |sub| > 0 && start <= p && OccursAt(s, sub, p)
    requires forall q :: start <= q < p ==> !OccursAt(s, sub, q)
    ensures Find(s, sub, start) == p
    decreases p - start
  {
    if start < p {
      assert !OccursAt(s, sub, start);
      FindFirst(s, sub, start + 1, p);
    }
  }

  /** `find` returns -1 when there is no occurrence at or after `start`. */
  lemma {:induction false} FindAbsent(s: string, sub: string, start: nat)
    requires |sub| > 0
    requires forall q :: start <= q ==> !OccursAt(s, sub, q)
    ensures Find(s, sub, start) == -1
    decreases |s| - start
  {
    if start + |sub| <= |s| {
      assert !OccursAt(s, sub, start);
      FindAbsent(s, sub, start + 1);
    }
  }

  /** For a URL of the documented form `scheme://host:port/ase/api/` the
      scan root is `scheme://host:port/ase/`. */
  lemma ScanBaseUrlOfServiceUrl(b: string, i: nat, j: nat, k: nat)
    requires i < j && OccursAt(b, ":", i) && OccursAt(b, ":", j) && OccursAt(b, "/ase", k)
    requires forall p :: 0 <= p < j && p != i ==> !OccursAt(b, ":", p)
    requires forall p :: 0 <= p < k ==> !OccursAt(b, "/ase", p)
    ensures ScanBaseUrl(b) == b[..j] + "/ase/"
  {
    FindFirst(b, ":", 0, i);
    FindFirst(b, ":", i + 1, j);
    FindFirst(b, "/ase", 0, k);
    assert Slice(b, 0, j) == b[..j];
    assert Slice(b, k, k + 4) == "/ase";
  }

  /** Without a port there is only one `:`; `find` returning -1 then makes
      the prefix everything but the last character of the URL. */
  lemma ScanBaseUrlWithoutPort(b: string, i: nat, k: nat)
    requires OccursAt(b, ":", i) && OccursAt(b, "/ase", k)
    requires forall p :: 0 <= p && p != i ==> !OccursAt(b, ":", p)
    requires forall p :: 0 <= p < k ==> !OccursAt(b, "/ase", p)
    ensures ScanBaseUrl(b) == b[..|b| - 1] + "/ase/"
  {
    FindFirst(b, ":", 0, i);
    FindAbsent(b, ":", i + 1);
    FindFirst(b, "/ase", 0, k);
    assert Slice(b, 0, -1) == b[..|b| - 1];
    assert Slice(b, k, k + 4) == "/ase";
  }

  /** A service URL that spells the path `/ASE` has no `/ase`, so its scan
      root loses the service path. */
  lemma UpperCaseServicePathIsLost(b: string, i: nat, j: nat)
    requires i < j && OccursAt(b, ":", i) && OccursAt(b, ":", j) && |b| >= 4
    requires forall p :: 0 <= p < j && p != i ==> !OccursAt(b, ":", p)
    requires forall p :: 0 <= p ==> !OccursAt(b, "/ase", p)
    ensures ScanBaseUrl(b) == b[..j] + "/"
  {
    FindFirst(b, ":", 0, i);
    FindFirst(b, ":", i + 1, j);
    FindAbsent(b, "/ase", 0);
    assert Slice(b, 0, j) == b[..j];
    assert Slice(b, -1, 3) == [];
  }

  /** A successful response and an unsuccessful one that does not raise are
      both handed back by the two gates; only the payload differs. */
  lemma GatesAgree(resp: Response)
    ensures ReturnObject(resp).Ok? <==> ReturnHtml(resp).Ok?
    ensures ReturnObject(resp).Ok? <==> Success(resp.status) || !resp.raises
    ensures !Success(resp.status) ==> ReturnObject(resp) == ReturnHtml(resp)
  {
  }

  /** `searchlist` returns the first node whose field matches, None when
      every node has the field and none matches, and raises the error of
      the first node before any match whose field cannot be read. `k` is
      the first node that is not a plain miss. */
  lemma {:induction false} SearchNodesFirst(nodes: seq<Value>, name: Value, category: Value, k: nat)
    requires k <= |nodes|
    requires forall j :: 0 <= j < k ==> Miss(nodes[j], name, category)
    requires k < |nodes| ==> !Miss(nodes[k], name, category)
    ensures k == |nodes| ==> SearchNodes(nodes, name, category) == Ok(Null)
    ensures k < |nodes| && Hit(nodes[k], name, category) ==> SearchNodes(nodes, name, category) == Ok(nodes[k])
    ensures k < |nodes| && GetItem(nodes[k], category).Err? ==>
              SearchNodes(nodes, name, category) == Err(GetItem(nodes[k], category).error)
    decreases k
  {
    if k > 0 {
      SearchNodesStep(nodes, name, category);
      assert Miss(nodes[0], name, category);
      assert forall j :: 0 <= j < k - 1 ==> nodes[1..][j] == nodes[j + 1];
      SearchNodesFirst(nodes[1..], name, category, k - 1);
    } else if k < |nodes| {
      SearchNodesStep(nodes, name, category);
    }
  }

  /** Node `k` is the first node of the search that is not a miss, and it
      is a hit. */
  predicate FirstHit(nodes: seq<Value>, name: Value, category: Value, k: int) {
    0 <= k < |nodes| && Hit(nodes[k], name, category)
    && forall j :: 0 <= j < k ==> Miss(nodes[j], name, category)
  }

  /** Every node has the searched field and none of them matches. */
  predicate AllMiss(nodes: seq<Value>, name: Value, category: Value) {
    forall j :: 0 <= j < |nodes| ==> Miss(nodes[j], name, category)
  }

  /** `r` answers a search of `nodes` for the first match: the first hit
      when there is one, None when every node misses, and no other value. */
  ghost predicate FirstMatchOf(r: Result<Value>, nodes: seq<Value>, name: Value, category: Value) {
    (forall k :: FirstHit(nodes, name, category, k) ==> r == Ok(nodes[k]))
    && (AllMiss(nodes, name, category) ==> r == Ok(Null))
    && (r.Ok? && !r.value.Null? ==> exists k :: FirstHit(nodes, name, category, k) && r.value == nodes[k])
    && (r == Ok(Null) ==> AllMiss(nodes, name, category))
  }

  lemma FirstHitFromTail(nodes: seq<Value>, name: Value, category: Value, k: int)
    requires nodes != [] && Miss(nodes[0], name, category)
    requires k >= 1 && FirstHit(nodes[1..], name, category, k - 1)
    ensures FirstHit(nodes, name, category, k)
  {
    assert nodes[k] == nodes[1..][k - 1];
    forall j | 0 <= j < k
      ensures Miss(nodes[j], name, category)
    {
      if j > 0 {
        assert nodes[j] == nodes[1..][j - 1];
      }
    }
  }

  lemma FirstHitToTail(nodes: seq<Value>, name: Value, category: Value, k: int)
    requires k >= 1 && FirstHit(nodes, name, category, k)
    ensures FirstHit(nodes[1..], name, category, k - 1)
  {
    assert nodes[k] == nodes[1..][k - 1];
    forall j | 0 <= j < k - 1
      ensures Miss(nodes[1..][j], name, category)
    {
      assert nodes[1..][j] == nodes[j + 1];
    }
  }

  /** After a miss at the head, answering the first match of the rest is
      answering the first match of the whole. */
  lemma FirstMatchAfterMiss(r: Result<Value>, nodes: seq<Value>, name: Value, category: Value)
    requires nodes != [] && Miss(nodes[0], name, category)
    requires FirstMatchOf(r, nodes[1..], name, category)
    ensures FirstMatchOf(r, nodes, name, category)
  {
    forall k | FirstHit(nodes, name, category, k)
      ensures r == Ok(nodes[k])
    {
      FirstHitToTail(nodes, name, category, k);
      assert nodes[1..][k - 1] == nodes[k];
    }
    AllMissShift(nodes, name, category);
    if r.Ok? && !r.value.Null? {
      var k :| FirstHit(nodes[1..], name, category, k) && r.value == nodes[1..][k];
      FirstHitFromTail(nodes, name, category, k + 1);
    }
  }

  lemma AllMissShift(nodes: seq<Value>, name: Value, category: Value)
    requires nodes != [] && Miss(nodes[0], name, category)
    ensures AllMiss(nodes, name, category) <==> AllMiss(nodes[1..], name, category)
  {
    assert forall j :: 1 <= j < |nodes| ==> nodes[j] == nodes[1..][j - 1];
  }

  /** When the head is not a miss, only the head can be the first hit. */
  lemma OnlyHeadHits(nodes: seq<Value>, name: Value, category: Value)
    requires nodes != [] && !Miss(nodes[0], name, category)
    ensures forall k :: FirstHit(nodes, name, category, k) ==> k == 0 && Hit(nodes[0], name, category)
    ensures !AllMiss(nodes, name, category)
  {
    forall k | FirstHit(nodes, name, category, k)
      ensures k == 0
    {
      assert !Miss(nodes[0], name, category);
    }
  }

  /** A search whose head is not a miss answers the head or its error. */
  lemma FirstMatchAtHead(nodes: seq<Value>, name: Value, category: Value)
    requires nodes != [] && !Miss(nodes[0], name, category)
    ensures FirstMatchOf(SearchNodes(nodes, name, category), nodes, name, category)
  {
    SearchNodesStep(nodes, name, category);
    OnlyHeadHits(nodes, name, category);
    if Hit(nodes[0], name, category) {
      assert FirstHit(nodes, name, category, 0);
    }
  }

  /** The search answers the first hit, None when every node misses, and
      nothing else: whatever it finds comes before any other match. */
  lemma {:induction false} SearchNodesFindsFirst(nodes: seq<Value>, name: Value, category: Value)
    ensures FirstMatchOf(SearchNodes(nodes, name, category), nodes, name, category)
    decreases |nodes|
  {
    if nodes == [] {
      assert AllMiss(nodes, name, category);
    } else if Miss(nodes[0], name, category) {
      SearchNodesStep(nodes, name, category);
      SearchNodesFindsFirst(nodes[1..], name, category);
      FirstMatchAfterMiss(SearchNodes(nodes, name, category), nodes, name, category);
    } else {
      FirstMatchAtHead(nodes, name, category);
    }
  }

  /** A node without the searched key stops the search with KeyError, it is
      not skipped. */
  lemma MissingFieldRaises(nodes: seq<Value>, name: Value, field: string, k: nat)
    requires k < |nodes| && nodes[k].Dict? && !HasKey(nodes[k].entries, field)
    requires forall j :: 0 <= j < k ==> Miss(nodes[j], name, Str(field))
    ensures SearchNodes(nodes, name, Str(field)) == Err(KeyError(Str(field)))
  {
    SearchNodesFirst(nodes, name, Str(field), k);
  }

  /** A search raises TypeError, KeyError or IndexError, never ValueError,
      so a `except ValueError` around it only catches the decoding. */
  lemma {:induction false} SearchRaisesNoValueError(nodes: seq<Value>, name: Value, category: Value)
    ensures SearchNodes(nodes, name, category).Err? ==> !SearchNodes(nodes, name, category).error.ValueError?
    decreases |nodes|
  {
    if nodes != [] {
      SearchRaisesNoValueError(nodes[1..], name, category);
    }
  }

  /** Searching a concatenation searches the first part, then the second. */
  lemma {:induction false} SearchNodesAppend(a: seq<Value>, b: seq<Value>, name: Value, category: Value)
    ensures SearchNodes(a + b, name, category)
            == if SearchNodes(a, name, category) == Ok(Null) then SearchNodes(b, name, category)
               else SearchNodes(a, name, category)
    decreases |a|
  {
    if a == [] {
      assert a + b == b;
    } else if Miss(a[0], name, category) {
      SkipMiss(a, b, name, category);
      SearchNodesAppend(a[1..], b, name, category);
    } else {
      StopAtHead(a, b, name, category);
    }
  }

  lemma SkipMiss(a: seq<Value>, b: seq<Value>, name: Value, category: Value)
    requires a != [] && Miss(a[0], name, category)
    ensures SearchNodes(a + b, name, category) == SearchNodes(a[1..] + b, name, category)
    ensures SearchNodes(a, name, category) == SearchNodes(a[1..], name, category)
  {
    var ab := a + b;
    assert ab[0] == a[0] && ab[1..] == a[1..] + b;
    SearchNodesStep(ab, name, category);
    SearchNodesStep(a, name, category);
  }

  lemma StopAtHead(a: seq<Value>, b: seq<Value>, name: Value, category: Value)
    requires a != [] && !Miss(a[0], name, category)
    ensures SearchNodes(a + b, name, category) == SearchNodes(a, name, category) != Ok(Null)
  {
    var ab := a + b;
    assert ab[0] == a[0];
    SearchNodesStep(ab, name, category);
    SearchNodesStep(a, name, category);
    if Hit(a[0], name, category) {
      assert !a[0].Null?;
    }
  }

  predicate AllLists(es: seq<Entry>) {
    forall i :: 0 <= i < |es| ==> es[i].val.List?
  }

  /** The lists of a dictionary of lists, concatenated in key order. */
  function Flatten(es: seq<Entry>): seq<Value>
    requires AllLists(es)
  {
    if es == [] then [] else es[0].val.elems + Flatten(es[1..])
  }

  /** `searchlist` refuses anything but a list, and answers the first node
      of the list that matches, or None. */
  lemma SearchListFirst(liss: Value, name: Value, category: Value)
    ensures !liss.List? ==> SearchList(liss, name, category) == Err(TypeError(MustBeList))
    ensures liss.List? ==> FirstMatchOf(SearchList(liss, name, category), liss.elems, name, category)
  {
    if liss.List? {
      SearchNodesFindsFirst(liss.elems, name, category);
    }
  }

  /** `searchdict` refuses anything but a dict, and over a dictionary of
      lists answers the first matching node in key order, or None. */
  lemma SearchDictFirst(dic: Value, name: Value, category: Value)
    ensures !dic.Dict? ==> SearchDict(dic, name, category) == Err(TypeError(MustBeDict))
    ensures dic.Dict? && AllLists(dic.entries) ==>
              FirstMatchOf(SearchDict(dic, name, category), Flatten(dic.entries), name, category)
  {
    if dic.Dict? && AllLists(dic.entries) {
      SearchDictIsFlatSearch(dic.entries, name, category);
      SearchNodesFindsFirst(Flatten(dic.entries), name, category);
    }
  }

  /** The nodes the server lists at `url`, when its answer decodes to a
      list. */
  function Listing(srv: Server, url: string): Option<seq<Value>> {
    match srv(Get(url)).json
    case Some(List(xs)) => Some(xs)
    case _ => None
  }

  /** `queryhelper` sends exactly one GET: of the named object when only a
      name is given, of the whole collection otherwise. Without a search the
      answer goes through `returnobject`; a search raises ValueError exactly
      when the collection does not decode, TypeError when it is not a list,
      and otherwise answers its first matching node, or None. */
  lemma QueryHelperFindsFirst(c: Client, srv: Server, ext: string, name: Value, category: Value)
    ensures QueryHelper(c, srv, ext, name, category).calls
            == [Get(c.baseurl + ext + (if !name.Null? && category.Null? then "/" + StrOf(name) else ""))]
    ensures name.Null? || category.Null? ==>
              var url := c.baseurl + ext + (if !name.Null? then "/" + StrOf(name) else "");
              QueryHelper(c, srv, ext, name, category).out == ReturnObject(srv(Get(url)))
    ensures !name.Null? && !category.Null? ==>
              var r := QueryHelper(c, srv, ext, name, category);
              var resp := srv(Get(c.baseurl + ext));
              (r.out.Err? && r.out.error.ValueError? <==> resp.json.None?)
              && (resp.json.Some? && !resp.json.value.List? ==> r.out == Err(TypeError(MustBeList)))
              && (Listing(srv, c.baseurl + ext).Some? ==>
                    FirstMatchOf(r.out, Listing(srv, c.baseurl + ext).value, name, category))
  {
    assert c.baseurl + ext + "" == c.baseurl + ext;
    assert c.baseurl + ext + ("/" + StrOf(name)) == c.baseurl + ext + "/" + StrOf(name);
    var resp := srv(Get(c.baseurl + ext));
    if !name.Null? && !category.Null? && resp.json.Some? {
      SearchListFirst(resp.json.value, name, category);
      if resp.json.value.List? {
        SearchRaisesNoValueError(resp.json.value.elems, name, category);
      }
    }
  }

  /** `searchdict` over a dictionary of lists is `searchlist` over all its
      lists joined in iteration order. */
  lemma {:induction false} SearchDictIsFlatSearch(es: seq<Entry>, name: Value, category: Value)
    requires AllLists(es)
    ensures SearchDict(Dict(es), name, category) == SearchNodes(Flatten(es), name, category)
    decreases |es|
  {
    if es != [] {
      SearchDictIsFlatSearch(es[1..], name, category);
      SearchNodesAppend(es[0].val.elems, Flatten(es[1..]), name, category);
    }
  }

  /** `dictprint` extends the string it is given by exactly the rendering
      of the tree. */
  lemma {:induction false} PrintFromAppends(d: Value, i: nat, s: string, tab: int)
    requires d.Dict? && i <= |d.entries|
    ensures PrintFrom(d, i, s, tab) == s + RenderFrom(d, i, tab)
    decreases d, 0, |d.entries| - i
  {
    if i < |d.entries| {
      var e := d.entries[i];
      assert e in d.entries;
      var line, sub, rest := Line(tab, e.key), RenderValue(e.val, tab), RenderFrom(d, i + 1, tab);
      var s2 := PrintValue(e.val, s + line, tab);
      PrintValueAppends(e.val, s + line, tab);
      PrintFromAppends(d, i + 1, s2, tab);
      ConcatAssoc(s, line, sub, rest);
    }
  }

  lemma ConcatAssoc(s: string, a: string, b: string, c: string)
    ensures s + a + b + c == s + (a + b + c)
  {
  }

  lemma {:induction false} PrintValueAppends(v: Value, s: string, tab: int)
    ensures PrintValue(v, s, tab) == s + RenderValue(v, tab)
    decreases v, 1
  {
    if v.Dict? && v.entries != [] {
      PrintFromAppends(v, 0, s, tab + 1);
    }
  }

  function NewLines(s: string): nat {
    if s == [] then 0 else (if s[0] == '\n' then 1 else 0) + NewLines(s[1..])
  }

  lemma {:induction false} NewLinesAppend(a: string, b: string)
    ensures NewLines(a + b) == NewLines(a) + NewLines(b)
    decreases |a|
  {
    if a != [] {
      assert (a + b)[0] == a[0];
      assert (a + b)[1..] == a[1..] + b;
      NewLinesAppend(a[1..], b);
    } else {
      assert a + b == b;
    }
  }

  lemma NoNewLines(s: string)
    requires '\n' !in s
    ensures NewLines(s) == 0
  {
    if s != [] {
      assert s[0] != '\n';
      NoNewLines(s[1..]);
    }
  }

  predicate KeysOnOneLine(d: Value)
    decreases d
  {
    d.Dict?
    && forall i :: 0 <= i < |d.entries| ==>
         '\n' !in d.entries[i].key
         && (d.entries[i].val.Dict? ==> (d.entries[i] in d.entries && KeysOnOneLine(d.entries[i].val)))
  }

  lemma LineHasOneNewLine(tab: int, key: string)
    requires '\n' !in key
    ensures NewLines(Line(tab, key)) == 1
  {
    NewLinesAppend(Indent(tab) + "| " + key, "\n");
    NewLinesAppend(Indent(tab) + "| ", key);
    NewLinesAppend(Indent(tab), "| ");
    NoNewLines(Indent(tab));
    NoNewLines(key);
    assert NewLines("| ") == 0;
    assert NewLines("\n") == 1;
  }

  /** The rendering of a tree whose keys hold no newline has one line per
      key. */
  lemma {:induction false} RenderLines(d: Value, i: nat, tab: int)
    requires d.Dict? && i <= |d.entries| && KeysOnOneLine(d)
    ensures NewLines(RenderFrom(d, i, tab)) == KeyCount(d, i)
    decreases d, 0, |d.entries| - i
  {
    if i < |d.entries| {
      var e := d.entries[i];
      assert e in d.entries;
      var head := Line(tab, e.key);
      var sub := RenderValue(e.val, tab);
      var rest := RenderFrom(d, i + 1, tab);
      NewLinesAppend(head + sub, rest);
      NewLinesAppend(head, sub);
      LineHasOneNewLine(tab, e.key);
      ValueLines(e.val, tab);
      RenderLines(d, i + 1, tab);
    }
  }

  lemma {:induction false} ValueLines(v: Value, tab: int)
    requires v.Dict? ==> KeysOnOneLine(v)
    ensures NewLines(RenderValue(v, tab)) == ValueKeyCount(v)
    decreases v, 1
  {
    if v.Dict? && v.entries != [] {
      RenderLines(v, 0, tab + 1);
    }
  }

  /** Reading `{'name': k, 'value': v}` items back into a dictionary,
      unwrapping one-element value lists. */
  function Regroup(items: seq<Value>): seq<Entry> {
    if items == [] then []
    else
      var it := items[0];
      var rest := Regroup(items[1..]);
      if it.Dict? && HasKey(it.entries, "name") && HasKey(it.entries, "value")
         && Lookup(it.entries, "name").value.Str? then
        var v := Lookup(it.entries, "value").value;
        [Entry(Lookup(it.entries, "name").value.s, if v.List? && |v.elems| == 1 then v.elems[0] else v)] + rest
      else rest
  }

  predicate AllStrings(es: seq<Entry>) {
    forall i :: 0 <= i < |es| ==> es[i].val.Str?
  }

  lemma {:induction false} RegroupItems(es: seq<Entry>, wrap: bool)
    requires AllStrings(es)
    ensures Regroup(DictItems(es, wrap)) == es
    decreases |es|
  {
    if es != [] {
      RegroupItems(es[1..], wrap);
      var items := DictItems(es, wrap);
      assert items[1..] == DictItems(es[1..], wrap);
      var v := Str(StrOf(es[0].val));
      assert StrOf(es[0].val) == es[0].val.s;
      var it := NameValue(es[0].key, if wrap then List([v]) else v);
      assert items[0] == it;
      NameValueFields(es[0].key, if wrap then List([v]) else v);
    }
  }

  /** For a dictionary of strings, `dicttolistofdicts` loses nothing:
      reading the items back gives the dictionary again, in order. */
  lemma DictToListRoundTrip(es: seq<Entry>)
    requires AllStrings(es) && HasKey(es, "URL")
    ensures DictToListOfDicts(Dict(es)).Ok?
    ensures Regroup(DictToListOfDicts(Dict(es)).value.elems) == es
  {
    LookupFound(es, "URL");
    RegroupItems(es, true);
  }
}

=== FILE: http.dfy ===
/**
 The requests the library sends and the way its operations chain them.
 The server is a pure function from request to response, so every
 operation is a function of its arguments and of that server, and the
 requests it sends in order become part of its result. Logging in opens a
 session before each operation; those login requests are not recorded.
 */
module Http {
  import opened Wrappers
  import opened PyValue

  datatype Request =
    | Get(url: string)
    | GetRanged(url: string, range: string)   // GET with a `Range` header
    | Post(url: string, body: Value)
    | Put(url: string, body: Value, ifMatch: Option<string>)   // with an `If-Match` header when present
    | Delete(url: string)

  /** What the server answers to each request. */
  type Server = Request -> Response

  /** The requests an operation sent, in order, and how it ended. */
  datatype Run<+T> = Run(calls: seq<Request>, out: Result<T>) {

    /** Continue with `f` unless an exception is propagating. */
    function Then<U>(f: T -> Run<U>): (r: Run<U>)
      ensures out.Err? ==> r == Run(calls, Err(out.error))
      ensures out.Ok? ==> r.calls == calls + f(out.value).calls && r.out == f(out.value).out
    {
      if out.Err? then Run(calls, Err(out.error))
      else
        var next := f(out.value);
        Run(calls + next.calls, next.out)
    }
  }

  function Pure<T>(x: T): Run<T> {
    Run([], Ok(x))
  }

  function Fail<T>(e: Error): Run<T> {
    Run([], Err(e))
  }

  function Lift<T>(r: Result<T>): Run<T> {
    Run([], r)
  }

  /** Send one request. */
  function Fetch(srv: Server, req: Request): Run<Response> {
    Run([req], Ok(srv(req)))
  }

  /** `try: r except ValueError: handler`. JSON decoding failures are
      ValueErrors too; TypeErrors, KeyErrors and the library's own
      exceptions pass through. */
  function CatchValue<T>(r: Run<T>, handler: Run<T>): (c: Run<T>)
    ensures !(r.out.Err? && r.out.error.ValueError?) ==> c == r
    ensures r.out.Err? && r.out.error.ValueError? ==> c == Run(r.calls + handler.calls, handler.out)
  {
    if r.out.Err? && r.out.error.ValueError? then Run(r.calls + handler.calls, handler.out) else r
  }

  /** The same for a computation that sends no requests. */
  function CatchValueResult<T>(r: Result<T>, handler: Result<T>): (c: Result<T>)
    ensures !(r.Err? && r.error.ValueError?) ==> c == r
    ensures r.Err? && r.error.ValueError? ==> c == handler
  {
    if r.Err? && r.error.ValueError? then handler else r
  }

  /** `response.json()`. */
  function JsonOf(resp: Response): (r: Result<Value>)
    ensures r.Ok? <==> resp.json.Some?
    ensures r.Err? ==> r.error == ValueError(JsonDecode)
  {
    match resp.json
    case Some(j) => Ok(j)
    case None => Err(ValueError(JsonDecode))
  }
}

=== FILE: issuedict.dfy ===
/**
 `issuelisttodict(issuelist, appid, hostfilter)`, the conversion the
 library's examples ship: every issue of a list is fetched in full, its
 attribute array (a list of `{lookup, value}` objects) is turned into one
 dictionary from lookup name to the joined value, and the issues can be
 narrowed to one host.
 */
module IssueDict {
  import opened Wrappers
  import opened PyValue
  import opened Http
  import opened Helper
  import opened Query

  // ---------------------------------------------------------------------
  // ''.join

  /** The concatenation of a sequence of strings; TypeError at the first
      object that is not a string. */
  function JoinStrings(xs: seq<Value>): (r: Result<string>)
    ensures r.Ok? <==> forall i :: 0 <= i < |xs| ==> xs[i].Str?
    ensures r.Err? ==> r.error == TypeError(JoinArgument)
  {
    if xs == [] then Ok("")
    else if !xs[0].Str? then Err(TypeError(JoinArgument))
    else
      var rest := JoinStrings(xs[1..]);
      assert forall i :: 1 <= i < |xs| ==> xs[i] == xs[1..][i - 1];
      if rest.Err? then rest else Ok(xs[0].s + rest.value)
  }

  /** `''.join(v)`: whatever `v` iterates over must be strings. */
  function Join(v: Value): (r: Result<string>)
    ensures v.List? ==> r == JoinStrings(v.elems)
    ensures v.Int? || v.Bool? || v.Null? ==> r == Err(TypeError(NotIterable))
  {
    var xs :- Iterate(v);
    JoinStrings(xs)
  }

  /** The one-character strings a `for` loop visits in `s`. */
  function Chars(s: string): seq<Value> {
    seq(|s|, i requires 0 <= i < |s| => Str([s[i]]))
  }

  lemma {:induction false} JoinChars(s: string)
    ensures JoinStrings(Chars(s)) == Ok(s)
    decreases |s|
  {
    if s != [] {
      assert Chars(s)[1..] == Chars(s[1..]);
      JoinChars(s[1..]);
      assert [s[0]] + s[1..] == s;
    }
  }

  /** Joining a string gives the string back: the values the server sends
      as plain strings come through unchanged. */
  lemma JoinOfString(s: string)
    ensures Join(Str(s)) == Ok(s)
  {
    JoinChars(s);
  }

  /** Joining a list concatenates its strings in order. */
  lemma {:induction false} JoinOfList(xs: seq<string>)
    ensures Join(List(seq(|xs|, i requires 0 <= i < |xs| => Str(xs[i])))) == Ok(ConcatAll(xs))
    decreases |xs|
  {
    var vs := seq(|xs|, i requires 0 <= i < |xs| => Str(xs[i]));
    if xs != [] {
      var vs' := seq(|xs| - 1, i requires 0 <= i < |xs| - 1 => Str(xs[1..][i]));
      assert vs[1..] == vs';
      JoinOfList(xs[1..]);
    }
  }

  function ConcatAll(xs: seq<string>): string {
    if xs == [] then "" else xs[0] + ConcatAll(xs[1..])
  }

  // ---------------------------------------------------------------------
  // One issue

  /** One attribute: `lookup` and `value` are both read (for the log line)
      before the value is joined and stored under the lookup. */
  function Attribute(attribute: Value): (r: Result<(string, string)>)
    ensures r.Ok? ==> At(attribute, "lookup") == Ok(Str(r.value.0))
                      && At(attribute, "value").Ok? && Join(At(attribute, "value").value) == Ok(r.value.1)
  {
    var k :- At(attribute, "lookup");
    var v :- At(attribute, "value");
    var joined :- Join(v);
    if k.Str? then Ok((k.s, joined)) else Err(TypeError(Unhashable))
  }

  /** The attribute dictionary built from `attrs`, starting from `acc`. */
  function Flatten(attrs: seq<Value>, acc: seq<Entry>): (r: Result<seq<Entry>>)
    ensures r.Ok? <==> forall i :: 0 <= i < |attrs| ==> Attribute(attrs[i]).Ok?
    decreases |attrs|
  {
    if attrs == [] then Ok(acc)
    else
      var a := Attribute(attrs[0]);
      assert forall i :: 1 <= i < |attrs| ==> attrs[i] == attrs[1..][i - 1];
      if a.Err? then Err(a.error)
      else Flatten(attrs[1..], Assign(acc, a.value.0, Str(a.value.1)))
  }

  /** The joined value of the last attribute stored under `k`, read from
      the back of the array. */
  function LastValue(attrs: seq<Value>, k: string): Option<string>
    requires forall i :: 0 <= i < |attrs| ==> Attribute(attrs[i]).Ok?
    decreases |attrs|
  {
    if attrs == [] then None
    else
      var a := Attribute(attrs[|attrs| - 1]).value;
      if a.0 == k then Some(a.1) else LastValue(attrs[..|attrs| - 1], k)
  }

  lemma {:induction false} LastValueCons(attrs: seq<Value>, k: string)
    requires attrs != [] && forall i :: 0 <= i < |attrs| ==> Attribute(attrs[i]).Ok?
    ensures LastValue(attrs, k)
            == match LastValue(attrs[1..], k)
               case Some(s) => Some(s)
               case None => if Attribute(attrs[0]).value.0 == k then Some(Attribute(attrs[0]).value.1) else None
    decreases |attrs|
  {
    var n := |attrs|;
    if n > 1 {
      assert attrs[1..][..n - 2] == attrs[..n - 1][1..];
      assert attrs[1..][n - 2] == attrs[n - 1];
      LastValueCons(attrs[..n - 1], k);
    } else {
      assert attrs[1..] == [];
      assert attrs[..0] == [];
    }
  }

  /** When a lookup name occurs more than once, the last value wins; a name
      that does not occur keeps what the dictionary held before. */
  lemma {:induction false} FlattenLastWins(attrs: seq<Value>, acc: seq<Entry>, k: string)
    requires Flatten(attrs, acc).Ok?
    ensures Lookup(Flatten(attrs, acc).value, k)
            == match LastValue(attrs, k)
               case Some(s) => Some(Str(s))
               case None => Lookup(acc, k)
    decreases |attrs|
  {
    if attrs != [] {
      assert forall i :: 1 <= i < |attrs| ==> attrs[i] == attrs[1..][i - 1];
      var a := Attribute(attrs[0]).value;
      FlattenLastWins(attrs[1..], Assign(acc, a.0, Str(a.1)), k);
      LastValueCons(attrs, k);
    }
  }

  /** `issue['attributeCollection']['attributeArray']`, iterated. */
  function AttributeArray(issue: Value): Result<seq<Value>> {
    var coll :- At(issue, "attributeCollection");
    var arr :- At(coll, "attributeArray");
    Iterate(arr)
  }

  /** The issue with its attribute array replaced by the flattened
      dictionary of that same array; every other key keeps its value. */
  function Rewrite(issue: Value): (r: Result<Value>)
    ensures r.Ok? <==> AttributeArray(issue).Ok? && Flatten(AttributeArray(issue).value, []).Ok?
    ensures r.Ok? ==>
              issue.Dict? && r.value.Dict?
              && (forall k :: k != "attributeCollection" ==> Lookup(r.value.entries, k) == Lookup(issue.entries, k))
              && Lookup(r.value.entries, "attributeCollection")
                 == Some(Dict(Flatten(AttributeArray(issue).value, []).value))
  {
    var attrs :- AttributeArray(issue);
    var d :- Flatten(attrs, []);
    Ok(Dict(Assign(issue.entries, "attributeCollection", Dict(d))))
  }

  /** After the rewrite, each lookup name of the issue's own attribute array
      reads the joined value of its last attribute, and no other name is
      there. */
  lemma RewriteReadsAttributes(issue: Value, k: string)
    requires Rewrite(issue).Ok?
    ensures var attrs := AttributeArray(issue).value;
            var coll := Lookup(Rewrite(issue).value.entries, "attributeCollection").value;
            coll.Dict?
            && Lookup(coll.entries, k) == match LastValue(attrs, k)
                                          case Some(s) => Some(Str(s))
                                          case None => None
  {
    FlattenLastWins(AttributeArray(issue).value, [], k);
  }

  /** Every issue rewritten, in order; the first failure propagates. */
  function RewriteAll(issues: seq<Value>): (r: Result<seq<Value>>)
    ensures r.Ok? <==> forall i :: 0 <= i < |issues| ==> Rewrite(issues[i]).Ok?
    ensures r.Ok? ==> |r.value| == |issues|
                      && forall i :: 0 <= i < |issues| ==> r.value[i] == Rewrite(issues[i]).value
    decreases |issues|
  {
    if issues == [] then Ok([])
    else
      var x := Rewrite(issues[0]);
      assert forall i :: 1 <= i < |issues| ==> issues[i] == issues[1..][i - 1];
      if x.Err? then Err(x.error)
      else
        var rest := RewriteAll(issues[1..]);
        if rest.Err? then rest else Ok([x.value] + rest.value)
  }

  // ---------------------------------------------------------------------
  // The host filter

  /** `issue['attributeCollection']['domain']`. */
  function Domain(issue: Value): Result<Value> {
    var coll :- At(issue, "attributeCollection");
    At(coll, "domain")
  }

  predicate OnHost(issue: Value, host: Value) {
    Domain(issue).Ok? && Eq(Domain(issue).value, host)
  }

  /** The issues on `host`, in order. An issue without a domain raises
      KeyError for the whole list. */
  function OnHostOnly(issues: seq<Value>, host: Value): (r: Result<seq<Value>>)
    ensures r.Ok? <==> forall i :: 0 <= i < |issues| ==> Domain(issues[i]).Ok?
    ensures r.Ok? ==> forall x :: x in r.value <==> x in issues && OnHost(x, host)
    ensures r.Ok? ==> |r.value| <= |issues|
    decreases |issues|
  {
    if issues == [] then Ok([])
    else
      var d := Domain(issues[0]);
      assert forall i :: 1 <= i < |issues| ==> issues[i] == issues[1..][i - 1];
      if d.Err? then Err(d.error)
      else
        var rest := OnHostOnly(issues[1..], host);
        if rest.Err? then rest
        else if Eq(d.value, host) then Ok([issues[0]] + rest.value)
        else Ok(rest.value)
  }

  lemma OnHostOnlyStep(issues: seq<Value>, host: Value)
    requires issues != [] && Domain(issues[0]).Ok? && OnHostOnly(issues[1..], host).Ok?
    ensures OnHostOnly(issues, host)
            == Ok((if OnHost(issues[0], host) then [issues[0]] else []) + OnHostOnly(issues[1..], host).value)
  {
    if !OnHost(issues[0], host) {
      assert [] + OnHostOnly(issues[1..], host).value == OnHostOnly(issues[1..], host).value;
    }
  }

  lemma OnHostOnlyAppendOk(a: seq<Value>, b: seq<Value>, host: Value)
    ensures OnHostOnly(a + b, host).Ok? <==> OnHostOnly(a, host).Ok? && OnHostOnly(b, host).Ok?
  {
    assert forall i :: 0 <= i < |a| ==> a[i] == (a + b)[i];
    assert forall i :: 0 <= i < |b| ==> b[i] == (a + b)[|a| + i];
    if OnHostOnly(a, host).Ok? && OnHostOnly(b, host).Ok? {
      forall i | 0 <= i < |a + b|
        ensures Domain((a + b)[i]).Ok?
      {
        if i >= |a| {
          assert (a + b)[i] == b[i - |a|];
        }
      }
    }
  }

  lemma OnHostOnlyOne(a: seq<Value>, host: Value)
    requires |a| == 1 && Domain(a[0]).Ok?
    ensures OnHostOnly(a, host) == Ok(if OnHost(a[0], host) then a else [])
  {
    assert a[1..] == [] && a == [a[0]];
    OnHostOnlyStep(a, host);
    assert (if OnHost(a[0], host) then [a[0]] else []) + [] == (if OnHost(a[0], host) then a else []);
  }

  /** The filter keeps the order and the repetitions of the list: filtering
      a concatenation concatenates the filtered parts, and one issue is kept
      exactly when it is on the host. */
  lemma {:induction false} OnHostOnlyKeepsOrder(a: seq<Value>, b: seq<Value>, host: Value)
    ensures OnHostOnly(a + b, host).Ok? <==> OnHostOnly(a, host).Ok? && OnHostOnly(b, host).Ok?
    ensures OnHostOnly(a + b, host).Ok? ==>
              OnHostOnly(a + b, host).value == OnHostOnly(a, host).value + OnHostOnly(b, host).value
    ensures |a| == 1 && Domain(a[0]).Ok? ==> OnHostOnly(a, host) == Ok(if OnHost(a[0], host) then a else [])
    decreases |a|
  {
    if a == [] {
      assert a + b == b;
    } else {
      assert (a + b)[1..] == a[1..] + b;
      assert (a + b)[0] == a[0];
      OnHostOnlyKeepsOrder(a[1..], b, host);
      if |a| == 1 && Domain(a[0]).Ok? {
        OnHostOnlyOne(a, host);
      }
      OnHostOnlyAppendOk(a, b, host);
      if OnHostOnly(a + b, host).Ok? {
        OnHostOnlyStep(a, host);
        OnHostOnlyStep(a + b, host);
        var head: seq<Value> := if OnHost(a[0], host) then [a[0]] else [];
        AppendAssociates(head, OnHostOnly(a[1..], host).value, OnHostOnly(b, host).value);
      }
    }
  }

  // ---------------------------------------------------------------------
  // The conversion

  /** `[step(issue['id']) for issue in xs]`, stopping at the first failure. */
  function FetchAll(step: Value -> Run<Value>, xs: seq<Value>): (r: Run<seq<Value>>)
    decreases |xs|
  {
    if xs == [] then Pure([])
    else
      var id := At(xs[0], "id");
      if id.Err? then Fail(id.error)
      else
        var first := step(id.value);
        if first.out.Err? then Run(first.calls, Err(first.out.error))
        else
          var rest := FetchAll(step, xs[1..]);
          Run(first.calls + rest.calls, if rest.out.Err? then rest.out else Ok([first.out.value] + rest.out.value))
  }

  /** Each issue of the list is replaced by what `step` answers for its
      `id`, in order. */
  lemma {:induction false} FetchAllAnswers(step: Value -> Run<Value>, xs: seq<Value>)
    ensures var r := FetchAll(step, xs);
            r.out.Ok? ==>
              |r.out.value| == |xs|
              && forall i :: 0 <= i < |xs| ==>
                   At(xs[i], "id").Ok? && step(At(xs[i], "id").value).out == Ok(r.out.value[i])
    decreases |xs|
  {
    if xs != [] {
      FetchAllAnswers(step, xs[1..]);
      var r := FetchAll(step, xs);
      if r.out.Ok? {
        var rest := FetchAll(step, xs[1..]);
        forall i | 0 <= i < |xs|
          ensures At(xs[i], "id").Ok? && step(At(xs[i], "id").value).out == Ok(r.out.value[i])
        {
          if i > 0 {
            assert xs[i] == xs[1..][i - 1];
            assert r.out.value[i] == rest.out.value[i - 1];
          }
        }
      }
    }
  }

  /** The full issue the conversion fetches for an id. */
  function IssueById(c: Client, srv: Server, appid: Value): Value -> Run<Value> {
    id => IssueQuery(c, srv, Null, appid, id, Bool(false), Int(100))
  }

  /** The conversion, for any way of fetching an issue by id. */
  function Convert(step: Value -> Run<Value>, issuelist: Value, hostfilter: Value): (r: Run<Value>)
    ensures Iterate(issuelist).Err? ==> r == Fail(Iterate(issuelist).error)
    ensures Iterate(issuelist).Ok? ==>
              var f := FetchAll(step, Iterate(issuelist).value);
              r.calls == f.calls
              && (r.out.Ok? ==>
                    f.out.Ok? && RewriteAll(f.out.value).Ok? && r.out.value.List?
                    && (hostfilter.Null? ==> r.out.value.elems == RewriteAll(f.out.value).value)
                    && (!hostfilter.Null? ==>
                          OnHostOnly(RewriteAll(f.out.value).value, hostfilter) == Ok(r.out.value.elems)))
  {
    var xs := Iterate(issuelist);
    if xs.Err? then Fail(xs.error)
    else
      var f := FetchAll(step, xs.value);
      if f.out.Err? then Run(f.calls, Err(f.out.error))
      else
        var issues := RewriteAll(f.out.value);
        if issues.Err? then Run(f.calls, Err(issues.error))
        else if hostfilter.Null? then Run(f.calls, Ok(List(issues.value)))
        else
          var kept := OnHostOnly(issues.value, hostfilter);
          Run(f.calls, if kept.Err? then Err(kept.error) else Ok(List(kept.value)))
  }

  /** `issuelisttodict(issuelist, appid, hostfilter)`: each issue is fetched
      with `issuequery(appid=appid, issueid=issue['id'])`. */
  function IssueListToDict(c: Client, srv: Server, issuelist: Value, appid: Value, hostfilter: Value): (r: Run<Value>)
    ensures issuelist.List? && hostfilter.Null? && r.out.Ok? ==>
              var xs := issuelist.elems;
              r.out.value.List? && |r.out.value.elems| == |xs|
              && forall i :: 0 <= i < |xs| ==>
                   At(xs[i], "id").Ok?
                   && var full := IssueQuery(c, srv, Null, appid, At(xs[i], "id").value, Bool(false), Int(100)).out;
                      full.Ok? && Rewrite(full.value) == Ok(r.out.value.elems[i])
    ensures issuelist.List? && !hostfilter.Null? && r.out.Ok? ==>
              var xs := issuelist.elems;
              r.out.value.List?
              && forall x :: x in r.out.value.elems ==>
                   OnHost(x, hostfilter)
                   && exists i :: 0 <= i < |xs| && At(xs[i], "id").Ok?
                                  && var full := IssueQuery(c, srv, Null, appid, At(xs[i], "id").value, Bool(false), Int(100)).out;
                                     full.Ok? && Rewrite(full.value) == Ok(x)
  {
    if issuelist.List? then
      var step := IssueById(c, srv, appid);
      ConvertKeepsAll(step, issuelist.elems);
      if !hostfilter.Null? then ConvertKeepsHost(step, issuelist.elems, hostfilter); Convert(step, issuelist, hostfilter)
      else Convert(step, issuelist, hostfilter)
    else Convert(IssueById(c, srv, appid), issuelist, hostfilter)
  }

  /** Without a host filter every issue of the list comes back, in order, as
      the server describes it under the issue's `id`, its attributes
      flattened. */
  lemma ConvertKeepsAll(step: Value -> Run<Value>, xs: seq<Value>)
    ensures var r := Convert(step, List(xs), Null);
            r.out.Ok? ==>
              r.out.value.List? && |r.out.value.elems| == |xs|
              && forall i :: 0 <= i < |xs| ==>
                   At(xs[i], "id").Ok? && step(At(xs[i], "id").value).out.Ok?
                   && Rewrite(step(At(xs[i], "id").value).out.value) == Ok(r.out.value.elems[i])
  {
    var r := Convert(step, List(xs), Null);
    if r.out.Ok? {
      assert Iterate(List(xs)) == Ok(xs);
      var f := FetchAll(step, xs);
      FetchAllAnswers(step, xs);
      var all := RewriteAll(f.out.value);
      assert r.out.value.elems == all.value;
      forall i | 0 <= i < |xs|
        ensures At(xs[i], "id").Ok? && step(At(xs[i], "id").value).out.Ok?
        ensures Rewrite(step(At(xs[i], "id").value).out.value) == Ok(r.out.value.elems[i])
      {
        assert f.out.value[i] == step(At(xs[i], "id").value).out.value;
        assert Rewrite(f.out.value[i]).Ok?;
      }
    }
  }

  /** With a host filter, only issues on that host come back, each of them
      the converted form of an issue of the list; every converted issue on
      the host comes back; and the result is the unfiltered conversion with
      the other hosts dropped, so it keeps the list's order
      (`OnHostOnlyKeepsOrder`). */
  lemma ConvertKeepsHost(step: Value -> Run<Value>, xs: seq<Value>, hostfilter: Value)
    requires !hostfilter.Null?
    ensures var r := Convert(step, List(xs), hostfilter);
            r.out.Ok? ==>
              r.out.value.List?
              && (forall x :: x in r.out.value.elems ==>
                    OnHost(x, hostfilter)
                    && exists i :: 0 <= i < |xs| && At(xs[i], "id").Ok? && step(At(xs[i], "id").value).out.Ok?
                                   && Rewrite(step(At(xs[i], "id").value).out.value) == Ok(x))
              && (forall i :: 0 <= i < |xs| ==>
                    At(xs[i], "id").Ok? && step(At(xs[i], "id").value).out.Ok?
                    && var x := Rewrite(step(At(xs[i], "id").value).out.value);
                       x.Ok? && (OnHost(x.value, hostfilter) ==> x.value in r.out.value.elems))
              && var all := Convert(step, List(xs), Null);
                 all.out.Ok? && OnHostOnly(all.out.value.elems, hostfilter) == Ok(r.out.value.elems)
  {
    var r := Convert(step, List(xs), hostfilter);
    if r.out.Ok? {
      assert Iterate(List(xs)) == Ok(xs);
      var f := FetchAll(step, xs);
      FetchAllAnswers(step, xs);
      var all := RewriteAll(f.out.value).value;
      assert OnHostOnly(all, hostfilter) == Ok(r.out.value.elems);
      forall x | x in r.out.value.elems
        ensures OnHost(x, hostfilter)
        ensures exists i :: 0 <= i < |xs| && At(xs[i], "id").Ok? && step(At(xs[i], "id").value).out.Ok?
                            && Rewrite(step(At(xs[i], "id").value).out.value) == Ok(x)
      {
        assert x in all && OnHost(x, hostfilter);
        var i :| 0 <= i < |all| && all[i] == x;
        assert step(At(xs[i], "id").value).out == Ok(f.out.value[i]);
        assert Rewrite(f.out.value[i]) == Ok(x);
      }
      ConvertKeepsAll(step, xs);
      var unfiltered := Convert(step, List(xs), Null);
      assert unfiltered.out == Ok(List(all));
      forall i | 0 <= i < |xs|
        ensures At(xs[i], "id").Ok? && step(At(xs[i], "id").value).out.Ok?
        ensures var x := Rewrite(step(At(xs[i], "id").value).out.value);
                x.Ok? && (OnHost(x.value, hostfilter) ==> x.value in r.out.value.elems)
      {
        assert Rewrite(step(At(xs[i], "id").value).out.value) == Ok(unfiltered.out.value.elems[i]);
        assert all[i] in all;
      }
    }
  }
}

=== FILE: pyappscan.dfy ===
/**
 The `AppScan` client's operations that create, change and delete things:
 users, jobs, scan settings, applications and folders. Each builds a JSON
 body from its arguments, resolving every "ID or name" argument on the way,
 and sends it.
 */
module PyAppscan {
  import opened Wrappers
  import opened PyValue
  import opened Conv
  import opened Http
  import opened Helper
  import opened Query

  /** `query(x, category)[field]` on collection `ext`. */
  function FindField(c: Client, srv: Server, ext: string, x: Value, category: string, field: string): Run<Value> {
    Field(QueryHelper(c, srv, ext, x, Str(category)), field)
  }

  // ---------------------------------------------------------------------
  // Reference resolution. Every operation tests `bool(int(x)) != True`
  // inside `try ... except ValueError`, but each does something different
  // in the handler and with a non-zero number.

  /** `jobcreate`: a non-zero number is converted with `int`; zero and names
      are looked up, zero twice when the first lookup raises ValueError. */
  function RetryRef(c: Client, srv: Server, ext: string, x: Value, category: string, field: string): (r: Run<Value>)
  {
    match Classify(x)
    case NonZero(n) => Pure(Int(n))
    case Zero => CatchValue(FindField(c, srv, ext, x, category, field), FindField(c, srv, ext, x, category, field))
    case NotNumeric => FindField(c, srv, ext, x, category, field)
    case NotCastable => Fail(TypeError(IntArgument))
  }

  /** `updatejob`: as `jobcreate`, but the handler converts with `int`, so a
      name raises ValueError and a failed zero lookup gives 0. */
  function CastRef(c: Client, srv: Server, ext: string, x: Value, category: string, field: string): (r: Run<Value>)
  {
    match Classify(x)
    case NonZero(n) => Pure(Int(n))
    case Zero => CatchValue(FindField(c, srv, ext, x, category, field), Pure(Int(0)))
    case NotNumeric => Fail(ValueError(IntLiteral))
    case NotCastable => Fail(TypeError(IntArgument))
  }

  /** `updatefolder`: a non-zero reference is kept as given (not converted),
      zero is looked up by `name` (0 when that raises ValueError), a name
      raises ValueError. */
  function EditFolderRef(c: Client, srv: Server, x: Value): (r: Run<Value>)
  {
    match Classify(x)
    case NonZero(_) => Pure(x)
    case Zero => CatchValue(FindField(c, srv, Folders, x, "name", "folderId"), Pure(Int(0)))
    case NotNumeric => Fail(ValueError(IntLiteral))
    case NotCastable => Fail(TypeError(IntArgument))
  }

  /** `createfolder` and `deletefolder`: the handler's `x == int(x)` is a
      comparison, not an assignment, so a reference is kept unless a zero
      lookup succeeds; a name raises ValueError from that `int(x)`. */
  function KeepFolderRef(c: Client, srv: Server, x: Value): (r: Run<Value>)
  {
    match Classify(x)
    case NonZero(_) => Pure(x)
    case Zero => CatchValue(FindField(c, srv, Folders, x, "name", "folderId"), Pure(x))
    case NotNumeric => Fail(ValueError(IntLiteral))
    case NotCastable => Fail(TypeError(IntArgument))
  }

  /** `deleteapplication`: the lookup of a zero reference is compared with,
      not assigned to, the reference, so the reference is always the one
      given; the lookup still runs and its errors other than ValueError
      propagate. */
  function CheckAppRef(c: Client, srv: Server, x: Value): (r: Run<Value>)
    ensures r.out.Ok? ==> r.out.value == x
    ensures Classify(x).NonZero? ==> r == Pure(x)
    ensures Classify(x) == Zero ==>
              var look := CatchValue(FindField(c, srv, Applications, x, "name", "id"), Pure(x));
              r.calls == look.calls && (look.out.Ok? ==> r.out == Ok(x)) && (look.out.Err? ==> r.out == look.out)
    ensures Classify(x) == NotNumeric ==> r == Fail(ValueError(IntLiteral))
    ensures Classify(x) == NotCastable ==> r == Fail(TypeError(IntArgument))
  {
    match Classify(x)
    case NonZero(_) => Pure(x)
    case Zero =>
      var look := CatchValue(FindField(c, srv, Applications, x, "name", "id"), Pure(x));
      Run(look.calls, if look.out.Ok? then Ok(x) else look.out)
    case NotNumeric => Fail(ValueError(IntLiteral))
    case NotCastable => Fail(TypeError(IntArgument))
  }

  /** `adduser`: a non-zero reference is kept as given; zero is looked up
      among the user types by `name`, a miss raising UserTypeError. */
  function UserTypeRef(c: Client, srv: Server, x: Value): (r: Run<Value>)
  {
    match Classify(x)
    case NonZero(_) => Pure(x)
    case Zero =>
      var q := QueryHelper(c, srv, UserTypes, x, Str("name"));
      Run(q.calls,
          if q.out.Err? then (if q.out.error.ValueError? then Ok(Int(0)) else q.out)
          else if q.out.value.Null? then Err(UserTypeError)
          else
            var id :- At(q.out.value, "id");
            // `int(usertype['id'])` failing with ValueError lands in the
            // handler, which converts the node itself
            CatchValueResult(IntValue(id), IntValue(q.out.value)))
    case NotNumeric => Fail(ValueError(IntLiteral))
    case NotCastable => Fail(TypeError(IntArgument))
  }

  /** `jobcreate`'s template id, as a string: a non-zero reference as given,
      anything else looked up as `RetryRef` does. */
  function TemplateRef(c: Client, srv: Server, x: Value): (r: Run<string>)
    ensures Classify(x).NonZero? ==> r == Pure(StrOf(x))
    ensures !Classify(x).NonZero? ==>
              var look := RetryRef(c, srv, Templates, x, "name", "id");
              r.calls == look.calls
              && (look.out.Ok? ==> r.out == Ok(StrOf(look.out.value)))
              && (look.out.Err? ==> r.out == Err(look.out.error))
  {
    if Classify(x).NonZero? then Pure(StrOf(x))
    else
      var look := RetryRef(c, srv, Templates, x, "name", "id");
      Run(look.calls, if look.out.Ok? then Ok(StrOf(look.out.value)) else Err(look.out.error))
  }

  /** A number other than zero is never looked up: every resolver answers it
      without a request. */
  lemma NumbersAreNotLookedUp(c: Client, srv: Server, ext: string, n: int, category: string, field: string)
    requires n != 0
    ensures RetryRef(c, srv, ext, Int(n), category, field) == Pure(Int(n))
    ensures CastRef(c, srv, ext, Int(n), category, field) == Pure(Int(n))
    ensures EditFolderRef(c, srv, Int(n)) == Pure(Int(n))
    ensures KeepFolderRef(c, srv, Int(n)) == Pure(Int(n))
    ensures CheckAppRef(c, srv, Int(n)) == Pure(Int(n))
    ensures UserTypeRef(c, srv, Int(n)) == Pure(Int(n))
    ensures TemplateRef(c, srv, Int(n)) == Pure(IntToDecimal(n))
  {
  }

  /** A name is looked up exactly once by `jobcreate` and refused by the
      resolvers whose handler converts with `int`. */
  lemma NamesAreLookedUpOnce(c: Client, srv: Server, ext: string, s: string, category: string, field: string)
    requires Classify(Str(s)) == NotNumeric
    ensures RetryRef(c, srv, ext, Str(s), category, field).calls == [Get(c.baseurl + ext)]
    ensures CastRef(c, srv, ext, Str(s), category, field) == Fail(ValueError(IntLiteral))
    ensures KeepFolderRef(c, srv, Str(s)) == Fail(ValueError(IntLiteral))
    ensures EditFolderRef(c, srv, Str(s)) == Fail(ValueError(IntLiteral))
  {
  }

  /** `jobcreate` takes a non-zero number without a request, and `None`
      raises TypeError. Every other value is `RetryRefLookup`. */
  lemma RetryRefRequests(c: Client, srv: Server, ext: string, x: Value, category: string, field: string)
    ensures IntOf(x).IntOk? && IntOf(x).n != 0 ==>
              RetryRef(c, srv, ext, x, category, field) == Run([], Ok(Int(IntOf(x).n)))
    ensures IntOf(x) == IntTypeError ==> RetryRef(c, srv, ext, x, category, field) == Run([], Err(TypeError(IntArgument)))
  {
  }

  /** Anything `int` reads as zero or refuses with ValueError is looked up
      by one search of the collection; zero is looked up again, by the same
      GET, exactly when the first answer does not decode. */
  lemma RetryRefLookup(c: Client, srv: Server, ext: string, x: Value, category: string, field: string)
    requires IntOf(x) == IntValueError || IntOf(x) == IntOk(0)
    ensures IntOf(x) == IntValueError || srv(Get(c.baseurl + ext)).json.Some? ==>
              AnswersLookup(RetryRef(c, srv, ext, x, category, field), c, srv, ext, x, category, field)
    ensures IntOf(x) == IntOk(0) && srv(Get(c.baseurl + ext)).json.None? ==>
              var r := RetryRef(c, srv, ext, x, category, field);
              r.calls == [Get(c.baseurl + ext), Get(c.baseurl + ext)] && r.out.Err? && r.out.error.ValueError?
  {
    FieldLookup(c, srv, ext, x, category, field);
  }

  /** `updatejob` takes a non-zero number without a request, and refuses a
      name (ValueError) and `None` (TypeError) before any request. Zero is
      `CastRefZero`. */
  lemma CastRefRequests(c: Client, srv: Server, ext: string, x: Value, category: string, field: string)
    ensures IntOf(x).IntOk? && IntOf(x).n != 0 ==>
              CastRef(c, srv, ext, x, category, field) == Run([], Ok(Int(IntOf(x).n)))
    ensures IntOf(x) == IntValueError ==> CastRef(c, srv, ext, x, category, field) == Run([], Err(ValueError(IntLiteral)))
    ensures IntOf(x) == IntTypeError ==> CastRef(c, srv, ext, x, category, field) == Run([], Err(TypeError(IntArgument)))
  {
  }

  /** Zero is looked up once, and becomes 0 when the answer does not
      decode. */
  lemma CastRefZero(c: Client, srv: Server, ext: string, x: Value, category: string, field: string)
    requires IntOf(x) == IntOk(0)
    ensures srv(Get(c.baseurl + ext)).json.Some? ==>
              AnswersLookup(CastRef(c, srv, ext, x, category, field), c, srv, ext, x, category, field)
    ensures srv(Get(c.baseurl + ext)).json.None? ==>
              CastRef(c, srv, ext, x, category, field) == Run([Get(c.baseurl + ext)], Ok(Int(0)))
  {
    FieldLookup(c, srv, ext, x, category, field);
  }

  /** `updatefolder` keeps a non-zero reference as given, without a
      request, and refuses a name (ValueError) and `None` (TypeError)
      before any request. Zero is `EditFolderRefZero`. */
  lemma EditFolderRefRequests(c: Client, srv: Server, x: Value)
    ensures IntOf(x).IntOk? && IntOf(x).n != 0 ==> EditFolderRef(c, srv, x) == Run([], Ok(x))
    ensures IntOf(x) == IntValueError ==> EditFolderRef(c, srv, x) == Run([], Err(ValueError(IntLiteral)))
    ensures IntOf(x) == IntTypeError ==> EditFolderRef(c, srv, x) == Run([], Err(TypeError(IntArgument)))
  {
  }

  /** Zero is looked up once by folder name, and becomes 0 when the answer
      does not decode. */
  lemma EditFolderRefZero(c: Client, srv: Server, x: Value)
    requires IntOf(x) == IntOk(0)
    ensures srv(Get(c.baseurl + Folders)).json.Some? ==>
              AnswersLookup(EditFolderRef(c, srv, x), c, srv, Folders, x, "name", "folderId")
    ensures srv(Get(c.baseurl + Folders)).json.None? ==>
              EditFolderRef(c, srv, x) == Run([Get(c.baseurl + Folders)], Ok(Int(0)))
  {
    FieldLookup(c, srv, Folders, x, "name", "folderId");
  }

  /** `createfolder` and `deletefolder` keep a non-zero reference as given
      and refuse a name (ValueError) and `None` (TypeError), all without a
      request. Zero is `KeepFolderRefZero`. */
  lemma KeepFolderRefRequests(c: Client, srv: Server, x: Value)
    ensures IntOf(x).IntOk? && IntOf(x).n != 0 ==> KeepFolderRef(c, srv, x) == Run([], Ok(x))
    ensures IntOf(x) == IntValueError ==> KeepFolderRef(c, srv, x) == Run([], Err(ValueError(IntLiteral)))
    ensures IntOf(x) == IntTypeError ==> KeepFolderRef(c, srv, x) == Run([], Err(TypeError(IntArgument)))
  {
  }

  /** Zero is looked up once by folder name, and kept as given when the
      answer does not decode. */
  lemma KeepFolderRefZero(c: Client, srv: Server, x: Value)
    requires IntOf(x) == IntOk(0)
    ensures srv(Get(c.baseurl + Folders)).json.Some? ==>
              AnswersLookup(KeepFolderRef(c, srv, x), c, srv, Folders, x, "name", "folderId")
    ensures srv(Get(c.baseurl + Folders)).json.None? ==>
              KeepFolderRef(c, srv, x) == Run([Get(c.baseurl + Folders)], Ok(x))
  {
    FieldLookup(c, srv, Folders, x, "name", "folderId");
  }

  /** `adduser` keeps a non-zero user type as given and refuses a name
      (ValueError) and `None` (TypeError), all without a request. Zero is
      `UserTypeZero`. */
  lemma UserTypeRefRequests(c: Client, srv: Server, x: Value)
    ensures IntOf(x).IntOk? && IntOf(x).n != 0 ==> UserTypeRef(c, srv, x) == Run([], Ok(x))
    ensures IntOf(x) == IntValueError ==> UserTypeRef(c, srv, x) == Run([], Err(ValueError(IntLiteral)))
    ensures IntOf(x) == IntTypeError ==> UserTypeRef(c, srv, x) == Run([], Err(TypeError(IntArgument)))
  {
  }

  /** A zero user type is looked up once among the user types: 0 when the
      answer does not decode, UserTypeError when no type has that name, and
      otherwise the first such type's id as an `int`. */
  lemma UserTypeZero(c: Client, srv: Server, x: Value)
    requires IntOf(x) == IntOk(0)
    ensures var r := UserTypeRef(c, srv, x);
            var nodes := Listing(srv, c.baseurl + UserTypes);
            r.calls == [Get(c.baseurl + UserTypes)]
            && (srv(Get(c.baseurl + UserTypes)).json.None? ==> r.out == Ok(Int(0)))
            && (nodes.Some? && AllMiss(nodes.value, x, Str("name")) ==> r.out == Err(UserTypeError))
            && (nodes.Some? ==>
                  forall k :: FirstHit(nodes.value, x, Str("name"), k) && At(nodes.value[k], "id").Ok?
                              && IntOf(At(nodes.value[k], "id").value).IntOk? ==>
                                r.out == Ok(Int(IntOf(At(nodes.value[k], "id").value).n)))
  {
    QueryHelperFindsFirst(c, srv, UserTypes, x, Str("name"));
  }

  /** `jobcreate`'s template id is a non-zero reference's own text, without
      a request; a name is looked up once, and the id sent is the text of
      the `id` found for it. */
  lemma TemplateRefRequests(c: Client, srv: Server, x: Value)
    ensures IntOf(x).IntOk? && IntOf(x).n != 0 ==> TemplateRef(c, srv, x) == Run([], Ok(StrOf(x)))
    ensures IntOf(x) == IntValueError ==>
              var r := TemplateRef(c, srv, x);
              r.calls == [Get(c.baseurl + Templates)]
              && (r.out.Ok? ==> exists v :: LookedUp(c, srv, Templates, x, "name", "id", v) && r.out.value == StrOf(v))
  {
    if IntOf(x) == IntValueError {
      RetryRefLookup(c, srv, Templates, x, "name", "id");
    }
  }

  // ---------------------------------------------------------------------
  // Users

  /** The body of `adduser`. */
  function UserBody(realname: Value, username: Value, email: Value, usertype: Value): (b: Value)
    ensures b.Dict? && |b.entries| == 4
    ensures Lookup(b.entries, "fullName") == Some(realname) && Lookup(b.entries, "userName") == Some(username)
    ensures Lookup(b.entries, "email") == Some(email) && Lookup(b.entries, "userTypeId") == Some(usertype)
  {
    var es := [Entry("fullName", realname), Entry("userName", username), Entry("email", email),
               Entry("userTypeId", usertype)];
    LookupAt(es, 1);
    LookupAt(es, 2);
    LookupAt(es, 3);
    Dict(es)
  }

  /** `adduser(realname, username, email, usertype)`. */
  function AddUser(c: Client, srv: Server, realname: Value, username: Value, email: Value, usertype: Value): (r: Run<Value>)
    ensures UserTypeRef(c, srv, usertype).out.Err? ==> r == UserTypeRef(c, srv, usertype)
    ensures UserTypeRef(c, srv, usertype).out.Ok? ==>
              var t := UserTypeRef(c, srv, usertype);
              var req := Post(c.baseurl + "consoleusers", UserBody(realname, username, email, t.out.value));
              r == Run(t.calls + [req], ReturnObject(srv(req)))
  {
    var t := UserTypeRef(c, srv, usertype);
    if t.out.Err? then t
    else
      var req := Post(c.baseurl + "consoleusers", UserBody(realname, username, email, t.out.value));
      Run(t.calls + [req], ReturnObject(srv(req)))
  }

  /** The user `adduser` posts carries the arguments given. */
  predicate PostsUser(req: Request, c: Client, realname: Value, username: Value, email: Value, usertype: Value) {
    req.Post? && req.url == c.baseurl + "consoleusers" && req.body.Dict?
    && Lookup(req.body.entries, "fullName") == Some(realname) && Lookup(req.body.entries, "userName") == Some(username)
    && Lookup(req.body.entries, "email") == Some(email) && Lookup(req.body.entries, "userTypeId") == Some(usertype)
  }

  /** `adduser` with a non-zero user type posts one user carrying that type
      as given; a named type raises before any request; for zero the type
      list is read first, a type not listed raising before the POST and an
      undecodable list giving type 0. */
  lemma AddUserPosts(c: Client, srv: Server, realname: Value, username: Value, email: Value, usertype: Value)
    ensures IntOf(usertype).IntOk? && IntOf(usertype).n != 0 ==>
              var r := AddUser(c, srv, realname, username, email, usertype);
              |r.calls| == 1 && PostsUser(r.calls[0], c, realname, username, email, usertype)
              && r.out == ReturnObject(srv(r.calls[0]))
    ensures IntOf(usertype) == IntValueError ==>
              AddUser(c, srv, realname, username, email, usertype) == Run([], Err(ValueError(IntLiteral)))
    ensures IntOf(usertype) == IntOk(0) && srv(Get(c.baseurl + UserTypes)).json.None? ==>
              var r := AddUser(c, srv, realname, username, email, usertype);
              |r.calls| == 2 && r.calls[0] == Get(c.baseurl + UserTypes)
              && PostsUser(r.calls[1], c, realname, username, email, Int(0))
    ensures IntOf(usertype) == IntOk(0) && Listing(srv, c.baseurl + UserTypes).Some?
            && AllMiss(Listing(srv, c.baseurl + UserTypes).value, usertype, Str("name")) ==>
              AddUser(c, srv, realname, username, email, usertype)
              == Run([Get(c.baseurl + UserTypes)], Err(UserTypeError))
  {
    UserTypeRefRequests(c, srv, usertype);
    if IntOf(usertype) == IntOk(0) {
      UserTypeZero(c, srv, usertype);
    }
  }

  // ---------------------------------------------------------------------
  // Jobs

  /** The keys a job body always starts with. */
  lemma JobHead(name: Value, policy: Value, folder: Value)
    ensures var head := [Entry("name", name), Entry("testPolicyId", policy), Entry("folderId", folder)];
            Lookup(head, "name") == Some(name) && Lookup(head, "testPolicyId") == Some(policy)
            && Lookup(head, "folderId") == Some(folder) && Lookup(head, "applicationId") == None
            && Lookup(head, "description") == None && Lookup(head, "contact") == None
  {
    var head := [Entry("name", name), Entry("testPolicyId", policy), Entry("folderId", folder)];
    LookupAt(head, 1);
    LookupAt(head, 2);
    LookupAbsent(head, "applicationId");
    LookupAbsent(head, "description");
    LookupAbsent(head, "contact");
  }

  /** The keys a job body ends with: the application only when one is
      given, the description only when it is not None, then the contact. */
  function JobTail(app: Option<Value>, desc: Value, contact: Value): (r: seq<Entry>)
    ensures Lookup(r, "contact") == Some(contact)
    ensures Lookup(r, "applicationId") == app
    ensures Lookup(r, "description") == if desc.Null? then None else Some(desc)
  {
    var last := [Entry("contact", contact)];
    if app.None? then
      if desc.Null? then last
      else
        var r := [Entry("description", desc)] + last;
        LookupAt(r, 1);
        LookupAbsent(r, "applicationId");
        r
    else if desc.Null? then
      var r := [Entry("applicationId", app.value)] + last;
      LookupAt(r, 1);
      LookupAbsent(r, "description");
      r
    else
      var r := [Entry("applicationId", app.value), Entry("description", desc)] + last;
      LookupAt(r, 1);
      LookupAt(r, 2);
      r
  }

  /** The body of `jobcreate` and `updatejob`: every key holds the argument
      it is named after, and the optional ones are there exactly when
      given. */
  function JobBody(name: Value, policy: Value, folder: Value, app: Option<Value>, desc: Value, contact: Value): (b: Value)
    ensures b.Dict?
    ensures Lookup(b.entries, "name") == Some(name) && Lookup(b.entries, "testPolicyId") == Some(policy)
    ensures Lookup(b.entries, "folderId") == Some(folder) && Lookup(b.entries, "contact") == Some(contact)
    ensures Lookup(b.entries, "applicationId") == app
    ensures Lookup(b.entries, "description") == if desc.Null? then None else Some(desc)
  {
    var head := [Entry("name", name), Entry("testPolicyId", policy), Entry("folderId", folder)];
    var tail := JobTail(app, desc, contact);
    JobHead(name, policy, folder);
    LookupAppend(head, tail, "name");
    LookupAppend(head, tail, "testPolicyId");
    LookupAppend(head, tail, "folderId");
    LookupAppend(head, tail, "applicationId");
    LookupAppend(head, tail, "description");
    LookupAppend(head, tail, "contact");
    Dict(head + tail)
  }

  /** A resolved job reference, by `RetryRef` for `jobcreate` and `CastRef`
      for `updatejob`. */
  function JobRef(c: Client, srv: Server, create: bool, ext: string, x: Value, category: string, field: string): Run<Value> {
    if create then RetryRef(c, srv, ext, x, category, field) else CastRef(c, srv, ext, x, category, field)
  }

  /** The body of a job, its references resolved in argument order: test
      policy, folder, application; the contact is the client's user name
      when none is given. */
  function JobFields(c: Client, srv: Server, create: bool, jobname: Value, policy: Value, folder: Value,
                     app: Value, desc: Value, contact: Value): (r: Run<Value>)
    ensures r.out.Ok? ==>
              var p := JobRef(c, srv, create, TestPolicies, policy, "name", "id");
              var f := JobRef(c, srv, create, Folders, folder, "folderName", "folderId");
              var a := JobRef(c, srv, create, Applications, app, "name", "id");
              p.out.Ok? && f.out.Ok? && (!app.Null? ==> a.out.Ok?)
              && r.calls == p.calls + f.calls + (if app.Null? then [] else a.calls)
              && (contact.Null? ==> c.username.Some?)
              && r.out.value
                 == JobBody(jobname, p.out.value, f.out.value, if app.Null? then None else Some(a.out.value),
                            desc, if contact.Null? then c.username.value else contact)
    ensures contact.Null? && c.username.None? ==> r.out.Err?
  {
    var p := JobRef(c, srv, create, TestPolicies, policy, "name", "id");
    if p.out.Err? then p
    else
      var f := JobRef(c, srv, create, Folders, folder, "folderName", "folderId");
      if f.out.Err? then Run(p.calls + f.calls, f.out)
      else
        var a := if app.Null? then Pure(Null) else JobRef(c, srv, create, Applications, app, "name", "id");
        var calls := p.calls + f.calls + a.calls;
        if a.out.Err? then Run(calls, a.out)
        else
          var who := if contact.Null? then UserName(c) else Ok(contact);
          if who.Err? then Run(calls, who)
          else
            Run(calls, Ok(JobBody(jobname, p.out.value, f.out.value, if app.Null? then None else Some(a.out.value),
                                  desc, who.value)))
  }

  /** `jobcreate(jobname, policyname, foldername, templatename, jobdesc,
      jobcontact, appname)`: the job is created from the template. */
  function JobCreate(c: Client, srv: Server, jobname: Value, policy: Value, folder: Value, template: Value,
                     desc: Value, contact: Value, app: Value): (r: Run<Value>)
    ensures r.out.Ok? ==>
              var body := JobFields(c, srv, true, jobname, policy, folder, app, desc, contact);
              var t := TemplateRef(c, srv, template);
              body.out.Ok? && t.out.Ok?
              && var req := Post(c.baseurl + "jobs/" + t.out.value + "/dastconfig/createjob", body.out.value);
                 r.calls == body.calls + t.calls + [req] && r.out == ReturnObject(srv(req))
  {
    var body := JobFields(c, srv, true, jobname, policy, folder, app, desc, contact);
    if body.out.Err? then body
    else
      var t := TemplateRef(c, srv, template);
      if t.out.Err? then Run(body.calls + t.calls, Err(t.out.error))
      else
        var req := Post(c.baseurl + "jobs/" + t.out.value + "/dastconfig/createjob", body.out.value);
        Run(body.calls + t.calls + [req], ReturnObject(srv(req)))
  }

  /** Given numbers for every reference and a contact, `jobcreate` sends
      nothing but the one POST, whose body holds the numbers. */
  lemma JobCreateByNumbers(c: Client, srv: Server, jobname: Value, p: int, f: int, t: int, desc: Value, contact: Value)
    requires p != 0 && f != 0 && t != 0 && !contact.Null?
    ensures var req := Post(c.baseurl + "jobs/" + IntToDecimal(t) + "/dastconfig/createjob",
                            JobBody(jobname, Int(p), Int(f), None, desc, contact));
            JobCreate(c, srv, jobname, Int(p), Int(f), Int(t), desc, contact, Null)
            == Run([req], ReturnObject(srv(req)))
  {
  }

  /** `updatejob(jobid, jobname, policyname, foldername, templatename,
      jobdesc, jobcontact, appname)`: the job's `ETag` is read and sent back
      as `If-Match` with the new body. The template is not used. */
  function UpdateJob(c: Client, srv: Server, jobid: Value, jobname: Value, policy: Value, folder: Value,
                     template: Value, desc: Value, contact: Value, app: Value): (r: Run<Value>)
    ensures r.out.Ok? ==>
              var body := JobFields(c, srv, false, jobname, policy, folder, app, desc, contact);
              var url := c.baseurl + "jobs/" + StrOf(jobid);
              body.out.Ok? && srv(Get(url)).etag.Some?
              && var req := Put(url, body.out.value, srv(Get(url)).etag);
                 r.calls == body.calls + [Get(url), req] && r.out == ReturnObject(srv(req))
    ensures var body := JobFields(c, srv, false, jobname, policy, folder, app, desc, contact);
            body.out.Ok? && srv(Get(c.baseurl + "jobs/" + StrOf(jobid))).etag.None? ==>
              r == Run(body.calls + [Get(c.baseurl + "jobs/" + StrOf(jobid))], Err(KeyError(Str("ETag"))))
  {
    var body := JobFields(c, srv, false, jobname, policy, folder, app, desc, contact);
    if body.out.Err? then body
    else
      var url := c.baseurl + "jobs/" + StrOf(jobid);
      var tag := srv(Get(url)).etag;
      if tag.None? then Run(body.calls + [Get(url)], Err(KeyError(Str("ETag"))))
      else
        var req := Put(url, body.out.value, tag);
        Run(body.calls + [Get(url), req], ReturnObject(srv(req)))
  }

  /** `updatejob` with numbers for the policy and the folder and a contact
      given reads the job once for its `ETag` and puts the new body back
      under it, whatever the template; without an `ETag` it stops after the
      read. */
  lemma UpdateJobByNumbers(c: Client, srv: Server, jobid: Value, jobname: Value, p: int, f: int, template: Value,
                           desc: Value, contact: Value)
    requires p != 0 && f != 0 && !contact.Null?
    ensures var url := c.baseurl + "jobs/" + StrOf(jobid);
            var r := UpdateJob(c, srv, jobid, jobname, Int(p), Int(f), template, desc, contact, Null);
            var tag := srv(Get(url)).etag;
            var req := Put(url, JobBody(jobname, Int(p), Int(f), None, desc, contact), tag);
            (tag.Some? ==> r == Run([Get(url), req], ReturnObject(srv(req))))
            && (tag.None? ==> r == Run([Get(url)], Err(KeyError(Str("ETag")))))
  {
  }

  // ---------------------------------------------------------------------
  // updatescan

  /** The data codes `updatescan` accepts, each with the scan setting it
      changes. */
  const XPaths: seq<(seq<string>, string)> := [
    (["url", "URL"], "StartingUrl"),
    (["username", "Username"], "LoginUsername"),
    (["password", "Password"], "LoginPassword"),
    (["method", "Method"], "LoginMethod"),
    (["header", "Header", "headers", "Headers"], "CustomHeaders"),
    (["lockout", "Lockout"], "AccountLockout"),
    (["additionaldomains", "AdditionalDomains"], "AdditionalDomains"),
    (["exclusions", "Exclusions"], "Exclusions")
  ]

  /** The setting a data code names, by the `if`/`elif` chain. */
  function XPathFor(datacode: Value): (r: Option<string>)
    ensures r.Some? ==> datacode.Str?
  {
    if datacode == Str("url") || datacode == Str("URL") then Some("StartingUrl")
    else if datacode == Str("username") || datacode == Str("Username") then Some("LoginUsername")
    else if datacode == Str("password") || datacode == Str("Password") then Some("LoginPassword")
    else if datacode == Str("method") || datacode == Str("Method") then Some("LoginMethod")
    else if datacode == Str("header") || datacode == Str("Header") || datacode == Str("headers")
            || datacode == Str("Headers") then Some("CustomHeaders")
    else if datacode == Str("lockout") || datacode == Str("Lockout") then Some("AccountLockout")
    else if datacode == Str("additionaldomains") || datacode == Str("AdditionalDomains") then Some("AdditionalDomains")
    else if datacode == Str("exclusions") || datacode == Str("Exclusions") then Some("Exclusions")
    else None
  }

  /** The chain and the table agree: a code is accepted exactly when the
      table lists it, and then names the table's setting. */
  lemma XPathForTable(code: string)
    ensures XPathFor(Str(code)).Some? <==> exists i :: 0 <= i < |XPaths| && code in XPaths[i].0
    ensures forall i :: 0 <= i < |XPaths| && code in XPaths[i].0 ==> XPathFor(Str(code)) == Some(XPaths[i].1)
  {
    if XPathFor(Str(code)).Some? {
      var x := XPathFor(Str(code)).value;
      var i := if x == "StartingUrl" then 0 else if x == "LoginUsername" then 1 else if x == "LoginPassword" then 2
               else if x == "LoginMethod" then 3 else if x == "CustomHeaders" then 4 else if x == "AccountLockout" then 5
               else if x == "AdditionalDomains" then 6 else 7;
      assert code in XPaths[i].0;
    }
    forall i | 0 <= i < |XPaths| && code in XPaths[i].0
      ensures XPathFor(Str(code)) == Some(XPaths[i].1)
    {
      XPathRow(code, i);
    }
  }

  lemma XPathRow(code: string, i: nat)
    requires i < |XPaths| && code in XPaths[i].0
    ensures XPathFor(Str(code)) == Some(XPaths[i].1)
  {
    if i == 0 {
      assert code == "url" || code == "URL";
      assert XPathFor(Str(code)) == Some("StartingUrl");
    } else if i == 1 {
      assert code == "username" || code == "Username";
      assert XPathFor(Str(code)) == Some("LoginUsername");
    } else if i == 2 {
      assert code == "password" || code == "Password";
      assert XPathFor(Str(code)) == Some("LoginPassword");
    } else if i == 3 {
      assert code == "method" || code == "Method";
      assert XPathFor(Str(code)) == Some("LoginMethod");
    } else {
      XPathRowLate(code, i);
    }
  }

  lemma XPathRowLate(code: string, i: nat)
    requires 4 <= i < |XPaths| && code in XPaths[i].0
    ensures XPathFor(Str(code)) == Some(XPaths[i].1)
  {
    if i == 4 {
      assert code == "header" || code == "Header" || code == "headers" || code == "Headers";
      assert XPathFor(Str(code)) == Some("CustomHeaders");
    } else if i == 5 {
      assert code == "lockout" || code == "Lockout";
      assert XPathFor(Str(code)) == Some("AccountLockout");
    } else if i == 6 {
      assert code == "additionaldomains" || code == "AdditionalDomains";
      assert XPathFor(Str(code)) == Some("AdditionalDomains");
    } else {
      assert code == "exclusions" || code == "Exclusions";
      assert XPathFor(Str(code)) == Some("Exclusions");
    }
  }

  /** The body of `updatescan`. */
  function ScanBody(data: Value, encrypt: Value, xpath: string): (b: Value)
    ensures b.Dict? && |b.entries| == 3
    ensures Lookup(b.entries, "scantNodeNewValue") == Some(data)
    ensures Lookup(b.entries, "encryptNodeValue") == Some(encrypt)
    ensures Lookup(b.entries, "scantNodeXpath") == Some(Str(xpath))
  {
    var es := [Entry("scantNodeNewValue", data), Entry("encryptNodeValue", encrypt), Entry("scantNodeXpath", Str(xpath))];
    LookupAt(es, 1);
    LookupAt(es, 2);
    Dict(es)
  }

  /** `updatescan(jobid, data, datacode, encrypt)`. An unknown data code
      raises DataCodeError before anything is sent. */
  function UpdateScan(c: Client, srv: Server, jobid: Value, data: Value, datacode: Value, encrypt: Value): (r: Run<Value>)
    ensures XPathFor(datacode).None? ==> r == Fail(DataCodeError)
    ensures XPathFor(datacode).Some? ==>
              var req := Post(c.baseurl + "jobs/" + StrOf(jobid) + "/dastconfig/updatescant",
                              ScanBody(data, encrypt, XPathFor(datacode).value));
              r == Run([req], ReturnObject(srv(req)))
  {
    match XPathFor(datacode)
    case None => Fail(DataCodeError)
    case Some(x) =>
      var req := Post(c.baseurl + "jobs/" + StrOf(jobid) + "/dastconfig/updatescant", ScanBody(data, encrypt, x));
      Run([req], ReturnObject(srv(req)))
  }

  /** `updatescan` changes the setting the table gives for the data code. */
  lemma UpdateScanSetsTableEntry(c: Client, srv: Server, jobid: Value, data: Value, encrypt: Value, i: nat, code: string)
    requires i < |XPaths| && code in XPaths[i].0
    ensures var r := UpdateScan(c, srv, jobid, data, Str(code), encrypt);
            |r.calls| == 1 && r.calls[0].Post? && r.calls[0].body.Dict?
            && Lookup(r.calls[0].body.entries, "scantNodeXpath") == Some(Str(XPaths[i].1))
            && Lookup(r.calls[0].body.entries, "scantNodeNewValue") == Some(data)
  {
    XPathForTable(code);
  }

  /** `updatescan` sends nothing exactly when the data code is not one the
      table lists, and then raises DataCodeError; otherwise it posts once to
      the job's `updatescant`. */
  lemma UpdateScanRequests(c: Client, srv: Server, jobid: Value, data: Value, datacode: Value, encrypt: Value)
    ensures var r := UpdateScan(c, srv, jobid, data, datacode, encrypt);
            r.calls == [] <==> !(datacode.Str? && exists i :: 0 <= i < |XPaths| && datacode.s in XPaths[i].0)
    ensures var r := UpdateScan(c, srv, jobid, data, datacode, encrypt);
            r.calls == [] ==> r.out == Err(DataCodeError)
    ensures var r := UpdateScan(c, srv, jobid, data, datacode, encrypt);
            r.calls != [] ==>
              |r.calls| == 1 && r.calls[0].Post?
              && r.calls[0].url == c.baseurl + "jobs/" + StrOf(jobid) + "/dastconfig/updatescant"
              && r.out == ReturnObject(srv(r.calls[0]))
  {
    if datacode.Str? {
      XPathForTable(datacode.s);
    }
  }

  // ---------------------------------------------------------------------
  // Applications

  /** `isOutOfDate`: 1 for `appoutdated == True`, 0 for `== False`, 2 for
      anything else (so also 1 for the number 1 and 0 for 0). */
  function OutOfDate(v: Value): (n: int)
    ensures n == 1 <==> Eq(v, Bool(true))
    ensures n == 0 <==> Eq(v, Bool(false))
    ensures 0 <= n <= 2
  {
    if Eq(v, Bool(true)) then 1 else if Eq(v, Bool(false)) then 0 else 2
  }

  /** The body of `createapplication` and `updateapplication`; `now` is the
      time in milliseconds both dates are set to. */
  function AppBody(appname: Value, attributes: Value, now: int, appdesc: Value, appoutdated: Value): (b: Value)
    ensures b.Dict?
    ensures Keys(b.entries)
            == ["attributeCollection", "name", "dateCreated", "lastUpdated"]
               + (if appdesc.Null? then [] else ["description"]) + ["isOutOfDate"]
    ensures b.entries[0] == Entry("attributeCollection", Dict([Entry("attributeArray", attributes)]))
  {
    var es := [Entry("attributeCollection", Dict([Entry("attributeArray", attributes)])), Entry("name", appname),
               Entry("dateCreated", Int(now)), Entry("lastUpdated", Int(now))]
              + (if appdesc.Null? then [] else [Entry("description", appdesc)])
              + [Entry("isOutOfDate", Int(OutOfDate(appoutdated)))];
    assert Keys(es) == ["attributeCollection", "name", "dateCreated", "lastUpdated"]
                       + (if appdesc.Null? then [] else ["description"]) + ["isOutOfDate"];
    Dict(es)
  }

  /** Every field of an application body holds the argument it is named
      after; the description is there exactly when given. */
  lemma AppBodyFields(appname: Value, attributes: Value, now: int, appdesc: Value, appoutdated: Value)
    ensures var es := AppBody(appname, attributes, now, appdesc, appoutdated).entries;
            Lookup(es, "attributeCollection") == Some(Dict([Entry("attributeArray", attributes)]))
            && Lookup(es, "name") == Some(appname)
            && Lookup(es, "dateCreated") == Some(Int(now)) && Lookup(es, "lastUpdated") == Some(Int(now))
            && Lookup(es, "description") == (if appdesc.Null? then None else Some(appdesc))
            && Lookup(es, "isOutOfDate") == Some(Int(OutOfDate(appoutdated)))
  {
    AppBodyDates(appname, attributes, now, appdesc, appoutdated);
    AppBodyOptional(appname, attributes, now, appdesc, appoutdated);
  }

  /** The name and the two dates of `AppBodyFields`. */
  lemma AppBodyDates(appname: Value, attributes: Value, now: int, appdesc: Value, appoutdated: Value)
    ensures var es := AppBody(appname, attributes, now, appdesc, appoutdated).entries;
            Lookup(es, "name") == Some(appname)
            && Lookup(es, "dateCreated") == Some(Int(now)) && Lookup(es, "lastUpdated") == Some(Int(now))
  {
    var es := AppBody(appname, attributes, now, appdesc, appoutdated).entries;
    LookupAt(es, 1);
    LookupAt(es, 2);
    LookupAt(es, 3);
  }

  /** The description and the out-of-date flag of `AppBodyFields`. */
  lemma AppBodyOptional(appname: Value, attributes: Value, now: int, appdesc: Value, appoutdated: Value)
    ensures var es := AppBody(appname, attributes, now, appdesc, appoutdated).entries;
            Lookup(es, "description") == (if appdesc.Null? then None else Some(appdesc))
            && Lookup(es, "isOutOfDate") == Some(Int(OutOfDate(appoutdated)))
  {
    var es := AppBody(appname, attributes, now, appdesc, appoutdated).entries;
    LookupAt(es, |es| - 1);
    if appdesc.Null? {
      LookupAbsent(es, "description");
    } else {
      LookupAt(es, 4);
    }
  }

  /** The attribute array of an application: the attributes are checked,
      then flattened with `dicttolistofdicts`. Only a dictionary passes the
      check, so the source's branch for a list of attributes never runs. */
  function AppAttributes(attrs: Value): (r: Result<Value>)
    ensures attrs.Null? ==> r == Err(ValueError(NoAttributeSource))
    ensures r.Ok? ==> AttributeCheck(attrs).Ok? && r == DictToListOfDicts(attrs)
    ensures !attrs.Null? && AttributeCheck(attrs).Err? ==> r == AttributeCheck(attrs)
  {
    if attrs.Null? then Err(ValueError(NoAttributeSource))
    else
      var _ :- AttributeCheck(attrs);
      DictToListOfDicts(attrs)
  }

  /** `createapplication(appname, attributedict, appdesc, appoutdated)`. */
  function CreateApplication(c: Client, srv: Server, appname: Value, attrs: Value, appdesc: Value,
                             appoutdated: Value, now: int): (r: Run<Value>)
    ensures AppAttributes(attrs).Err? ==> r == Fail(AppAttributes(attrs).error)
    ensures AppAttributes(attrs).Ok? ==>
              var req := Post(c.baseurl + "applications", AppBody(appname, AppAttributes(attrs).value, now, appdesc, appoutdated));
              r == Run([req], ReturnObject(srv(req)))
  {
    var arr := AppAttributes(attrs);
    if arr.Err? then Fail(arr.error)
    else
      var req := Post(c.baseurl + "applications", AppBody(appname, arr.value, now, appdesc, appoutdated));
      Run([req], ReturnObject(srv(req)))
  }

  /** The attributes an application is created with can be read back from
      its body: regrouping the attribute array gives the dictionary again. */
  lemma CreateApplicationKeepsAttributes(c: Client, srv: Server, appname: Value, es: seq<Entry>, appdesc: Value,
                                         appoutdated: Value, now: int)
    requires AllStrings(es) && AttributeCheck(Dict(es)).Ok?
    ensures var r := CreateApplication(c, srv, appname, Dict(es), appdesc, appoutdated, now);
            |r.calls| == 1 && r.calls[0].Post?
            && var attributes := r.calls[0].body.entries[0].val.entries[0].val;
               attributes.List? && Regroup(attributes.elems) == es
  {
    assert HasKey(es, RequiredAttributes[1]);
    DictToListRoundTrip(es);
  }

  /** `createapplication` sends nothing when the attributes are missing or
      fail the check, and otherwise posts one application whose fields hold
      the arguments. */
  lemma CreateApplicationPosts(c: Client, srv: Server, appname: Value, attrs: Value, appdesc: Value,
                               appoutdated: Value, now: int)
    ensures var r := CreateApplication(c, srv, appname, attrs, appdesc, appoutdated, now);
            r.calls == [] <==> attrs.Null? || AttributeCheck(attrs).Err?
    ensures attrs.Null? ==>
              CreateApplication(c, srv, appname, attrs, appdesc, appoutdated, now) == Run([], Err(ValueError(NoAttributeSource)))
    ensures var r := CreateApplication(c, srv, appname, attrs, appdesc, appoutdated, now);
            r.calls != [] ==>
              |r.calls| == 1 && r.calls[0].Post? && r.calls[0].url == c.baseurl + "applications"
              && r.calls[0].body.Dict? && r.out == ReturnObject(srv(r.calls[0]))
              && var es := r.calls[0].body.entries;
                 Lookup(es, "name") == Some(appname) && Lookup(es, "dateCreated") == Some(Int(now))
                 && Lookup(es, "description") == (if appdesc.Null? then None else Some(appdesc))
                 && Lookup(es, "isOutOfDate") == Some(Int(OutOfDate(appoutdated)))
  {
    if !attrs.Null? && AttributeCheck(attrs).Ok? {
      assert HasKey(attrs.entries, RequiredAttributes[1]);
      AppBodyFields(appname, AppAttributes(attrs).value, now, appdesc, appoutdated);
    }
  }

  /** `updateapplication`'s id as a string: an `int` as is, anything else
      (a `bool` too) looked up by name. */
  function AppIdString(c: Client, srv: Server, appid: Value): (r: Run<string>)
    ensures appid.Int? ==> r == Pure(IntToDecimal(appid.i))
    ensures !appid.Int? ==>
              var f := FindField(c, srv, Applications, appid, "name", "id");
              r.calls == f.calls && (f.out.Ok? ==> r.out == Ok(StrOf(f.out.value)))
              && (f.out.Err? ==> r.out == Err(f.out.error))
  {
    if appid.Int? then Pure(StrOf(appid))
    else
      var f := FindField(c, srv, Applications, appid, "name", "id");
      Run(f.calls, if f.out.Ok? then Ok(StrOf(f.out.value)) else Err(f.out.error))
  }

  /** An `int` id is written in decimal without a request; any other id but
      None is looked up once by application name, and the text sent is that
      of the `id` found. */
  lemma AppIdStringRequests(c: Client, srv: Server, appid: Value)
    ensures appid.Int? ==> AppIdString(c, srv, appid) == Run([], Ok(IntToDecimal(appid.i)))
    ensures !appid.Int? && !appid.Null? ==>
              var r := AppIdString(c, srv, appid);
              r.calls == [Get(c.baseurl + Applications)]
              && (r.out.Ok? ==> exists v :: LookedUp(c, srv, Applications, appid, "name", "id", v) && r.out.value == StrOf(v))
              && (r.out.Err? && r.out.error.ValueError? <==> srv(Get(c.baseurl + Applications)).json.None?)
  {
    if !appid.Int? && !appid.Null? {
      FieldLookup(c, srv, Applications, appid, "name", "id");
    }
  }

  /** `updateapplication(appid, appname, attributedict, appdesc,
      appoutdated)`. The id follows `applications` without a `/`. */
  function UpdateApplication(c: Client, srv: Server, appid: Value, appname: Value, attrs: Value, appdesc: Value,
                             appoutdated: Value, now: int): (r: Run<Value>)
    ensures AppAttributes(attrs).Err? ==> r == Fail(AppAttributes(attrs).error)
    ensures AppAttributes(attrs).Ok? && AppIdString(c, srv, appid).out.Ok? ==>
              var id := AppIdString(c, srv, appid);
              var req := Put(c.baseurl + "applications" + id.out.value,
                             AppBody(appname, AppAttributes(attrs).value, now, appdesc, appoutdated), None);
              r == Run(id.calls + [req], ReturnObject(srv(req)))
  {
    var arr := AppAttributes(attrs);
    if arr.Err? then Fail(arr.error)
    else
      var id := AppIdString(c, srv, appid);
      if id.out.Err? then Run(id.calls, Err(id.out.error))
      else
        var req := Put(c.baseurl + "applications" + id.out.value,
                       AppBody(appname, arr.value, now, appdesc, appoutdated), None);
        Run(id.calls + [req], ReturnObject(srv(req)))
  }

  /** Attributes that are missing or fail the check stop `updateapplication`
      before any request; with an `int` id and good attributes it puts the
      body once to `applications` followed directly by the id's digits. */
  lemma UpdateApplicationPuts(c: Client, srv: Server, i: int, appname: Value, attrs: Value, appdesc: Value,
                              appoutdated: Value, now: int)
    ensures var r := UpdateApplication(c, srv, Int(i), appname, attrs, appdesc, appoutdated, now);
            (attrs.Null? || AttributeCheck(attrs).Err? ==> r.calls == [] && r.out.Err?)
            && (AppAttributes(attrs).Ok? ==>
                  |r.calls| == 1 && r.calls[0].Put? && r.calls[0].url == c.baseurl + "applications" + IntToDecimal(i)
                  && r.calls[0].ifMatch.None? && r.out == ReturnObject(srv(r.calls[0]))
                  && r.calls[0].body == AppBody(appname, AppAttributes(attrs).value, now, appdesc, appoutdated))
  {
    AppIdStringRequests(c, srv, Int(i));
  }

  /** `deleteapplication(appid)`. */
  function DeleteApplication(c: Client, srv: Server, appid: Value): (r: Run<Value>)
    ensures CheckAppRef(c, srv, appid).out.Err? ==> r == CheckAppRef(c, srv, appid)
    ensures CheckAppRef(c, srv, appid).out.Ok? ==>
              var req := Delete(c.baseurl + "applications/" + StrOf(appid));
              r == Run(CheckAppRef(c, srv, appid).calls + [req], ReturnObject(srv(req)))
  {
    var id := CheckAppRef(c, srv, appid);
    if id.out.Err? then id
    else
      var req := Delete(c.baseurl + "applications/" + StrOf(id.out.value));
      Run(id.calls + [req], ReturnObject(srv(req)))
  }

  /** `deleteapplication(None)` raises the TypeError of `int(None)`: the
      handler that would raise "appid can't be NoneType" is never reached. */
  lemma DeleteApplicationOfNone(c: Client, srv: Server)
    ensures DeleteApplication(c, srv, Null) == Fail(TypeError(IntArgument))
  {
  }

  /** `deleteapplication` deletes a non-zero reference as given with one
      request and refuses a name without any. For zero it reads the
      application list first and then deletes the reference as given, not
      the id it found; it always deletes when that list does not decode. */
  lemma DeleteApplicationRequests(c: Client, srv: Server, x: Value)
    ensures IntOf(x).IntOk? && IntOf(x).n != 0 ==>
              var req := Delete(c.baseurl + "applications/" + StrOf(x));
              DeleteApplication(c, srv, x) == Run([req], ReturnObject(srv(req)))
    ensures IntOf(x) == IntValueError ==> DeleteApplication(c, srv, x) == Run([], Err(ValueError(IntLiteral)))
    ensures IntOf(x) == IntOk(0) ==>
              var r := DeleteApplication(c, srv, x);
              var req := Delete(c.baseurl + "applications/" + StrOf(x));
              |r.calls| >= 1 && r.calls[0] == Get(c.baseurl + Applications)
              && (|r.calls| > 1 ==> r == Run([Get(c.baseurl + Applications), req], ReturnObject(srv(req))))
              && (srv(Get(c.baseurl + Applications)).json.None? ==> |r.calls| == 2)
  {
    if IntOf(x) == IntOk(0) {
      FieldLookup(c, srv, Applications, x, "name", "id");
    }
  }

  // ---------------------------------------------------------------------
  // Folders

  /** The body of `createfolder`: the description only when truthy. */
  function FolderBody(name: Value, parent: Value, description: Value, contact: Value): (b: Value)
    ensures b.Dict?
    ensures Lookup(b.entries, "folderName") == Some(name) && Lookup(b.entries, "parentId") == Some(parent)
    ensures Lookup(b.entries, "description") == if Truthy(description) then Some(description) else None
    ensures Lookup(b.entries, "contact") == Some(contact)
  {
    var head := [Entry("folderName", name), Entry("parentId", parent)];
    var tail := (if Truthy(description) then [Entry("description", description)] else []) + [Entry("contact", contact)];
    LookupAt(head, 1);
    LookupAbsent(head, "description");
    LookupAbsent(head, "contact");
    assert Lookup(tail, "contact") == Some(contact) by {
      LookupAt(tail, |tail| - 1);
    }
    LookupAppend(head, tail, "folderName");
    LookupAppend(head, tail, "parentId");
    LookupAppend(head, tail, "description");
    LookupAppend(head, tail, "contact");
    Dict(head + tail)
  }

  /** `createfolder(name, parent, description, contact)`: the client's user
      name is the contact when none is given. */
  function CreateFolder(c: Client, srv: Server, name: Value, parent: Value, description: Value, contact: Value): (r: Run<Value>)
    ensures KeepFolderRef(c, srv, parent).out.Err? ==> r == KeepFolderRef(c, srv, parent)
    ensures KeepFolderRef(c, srv, parent).out.Ok? && (Truthy(contact) || c.username.Some?) ==>
              var p := KeepFolderRef(c, srv, parent);
              var who := if Truthy(contact) then contact else c.username.value;
              var req := Post(c.baseurl + "folders/create", FolderBody(name, p.out.value, description, who));
              r == Run(p.calls + [req], ReturnObject(srv(req)))
    ensures !Truthy(contact) && c.username.None? ==> r.out.Err?
  {
    var p := KeepFolderRef(c, srv, parent);
    if p.out.Err? then p
    else
      var who := if Truthy(contact) then Ok(contact) else UserName(c);
      if who.Err? then Run(p.calls, who)
      else
        var req := Post(c.baseurl + "folders/create", FolderBody(name, p.out.value, description, who.value));
        Run(p.calls + [req], ReturnObject(srv(req)))
  }

  /** The folder `createfolder` posts: its name, its parent, the
      description only when truthy, and the contact. */
  predicate PostsFolder(req: Request, c: Client, name: Value, parent: Value, description: Value, contact: Value) {
    req.Post? && req.url == c.baseurl + "folders/create" && req.body.Dict?
    && Lookup(req.body.entries, "folderName") == Some(name) && Lookup(req.body.entries, "parentId") == Some(parent)
    && Lookup(req.body.entries, "description") == (if Truthy(description) then Some(description) else None)
    && Lookup(req.body.entries, "contact") == Some(contact)
  }

  /** `createfolder` under a non-zero parent posts one folder whose parent
      is the reference as given and whose contact is the one given or else
      the client's user; a named parent raises before any request; a zero
      parent is kept when the folder list does not decode. */
  lemma CreateFolderPosts(c: Client, srv: Server, name: Value, parent: Value, description: Value, contact: Value)
    ensures IntOf(parent).IntOk? && IntOf(parent).n != 0 && (Truthy(contact) || c.username.Some?) ==>
              var r := CreateFolder(c, srv, name, parent, description, contact);
              var who := if Truthy(contact) then contact else c.username.value;
              |r.calls| == 1 && PostsFolder(r.calls[0], c, name, parent, description, who)
              && r.out == ReturnObject(srv(r.calls[0]))
    ensures IntOf(parent) == IntValueError ==>
              CreateFolder(c, srv, name, parent, description, contact) == Run([], Err(ValueError(IntLiteral)))
    ensures IntOf(parent) == IntOk(0) && srv(Get(c.baseurl + Folders)).json.None? && Truthy(contact) ==>
              var r := CreateFolder(c, srv, name, parent, description, contact);
              |r.calls| == 2 && r.calls[0] == Get(c.baseurl + Folders)
              && PostsFolder(r.calls[1], c, name, parent, description, contact)
  {
    KeepFolderRefRequests(c, srv, parent);
    if IntOf(parent) == IntOk(0) {
      KeepFolderRefZero(c, srv, parent);
    }
  }

  /** `createfolder` with no parent raises the TypeError of `int(None)`, not
      the "Parent cannot be Nonetype" ValueError its handler holds. */
  lemma CreateFolderWithoutParent(c: Client, srv: Server, name: Value, description: Value, contact: Value)
    ensures CreateFolder(c, srv, name, Null, description, contact) == Fail(TypeError(IntArgument))
  {
  }

  /** The body of `updatefolder`: only the truthy fields. */
  function FolderEdits(name: Value, description: Value, contact: Value): (b: Value)
    ensures b.Dict? && |b.entries| <= 3
    ensures Lookup(b.entries, "folderName") == if Truthy(name) then Some(name) else None
    ensures Lookup(b.entries, "description") == if Truthy(description) then Some(description) else None
    ensures Lookup(b.entries, "contact") == if Truthy(contact) then Some(contact) else None
    ensures forall i :: 0 <= i < |b.entries| ==> b.entries[i].key in ["folderName", "description", "contact"]
  {
    var a := if Truthy(name) then [Entry("folderName", name)] else [];
    var d := if Truthy(description) then [Entry("description", description)] else [];
    var k := if Truthy(contact) then [Entry("contact", contact)] else [];
    LookupAppend(a, d, "folderName");
    LookupAppend(a, d, "description");
    LookupAppend(a, d, "contact");
    LookupAppend(a + d, k, "folderName");
    LookupAppend(a + d, k, "description");
    LookupAppend(a + d, k, "contact");
    Dict(a + d + k)
  }

  /** `updatefolder(folderid, name, description, contact)`. */
  function UpdateFolder(c: Client, srv: Server, folderid: Value, name: Value, description: Value, contact: Value): (r: Run<Value>)
    ensures EditFolderRef(c, srv, folderid).out.Err? ==> r == EditFolderRef(c, srv, folderid)
    ensures EditFolderRef(c, srv, folderid).out.Ok? ==>
              var f := EditFolderRef(c, srv, folderid);
              var req := Post(c.baseurl + "folders/edit/" + StrOf(f.out.value), FolderEdits(name, description, contact));
              r == Run(f.calls + [req], ReturnObject(srv(req)))
  {
    var f := EditFolderRef(c, srv, folderid);
    if f.out.Err? then f
    else
      var req := Post(c.baseurl + "folders/edit/" + StrOf(f.out.value), FolderEdits(name, description, contact));
      Run(f.calls + [req], ReturnObject(srv(req)))
  }

  /** `updatefolder` with a non-zero folder number posts once to
      `folders/edit/<number>` a body of exactly the truthy fields; a named
      folder raises before any request; folder zero is edited as folder 0
      when the folder list does not decode. */
  lemma UpdateFolderPosts(c: Client, srv: Server, n: int, name: Value, description: Value, contact: Value)
    ensures n != 0 ==>
              var r := UpdateFolder(c, srv, Int(n), name, description, contact);
              |r.calls| == 1 && r.calls[0].Post? && r.calls[0].url == c.baseurl + "folders/edit/" + IntToDecimal(n)
              && r.calls[0].body == FolderEdits(name, description, contact)
              && r.out == ReturnObject(srv(r.calls[0]))
    ensures n == 0 && srv(Get(c.baseurl + Folders)).json.None? ==>
              var r := UpdateFolder(c, srv, Int(n), name, description, contact);
              |r.calls| == 2 && r.calls[0] == Get(c.baseurl + Folders) && r.calls[1].Post?
              && r.calls[1].url == c.baseurl + "folders/edit/0"
  {
    EditFolderRefRequests(c, srv, Int(n));
    if n == 0 {
      EditFolderRefZero(c, srv, Int(n));
      assert IntToDecimal(0) == "0";
    }
  }

  /** `updatefolder` with a name raises before any request. */
  lemma UpdateFolderByName(c: Client, srv: Server, folder: Value, name: Value, description: Value, contact: Value)
    ensures IntOf(folder) == IntValueError ==>
              UpdateFolder(c, srv, folder, name, description, contact) == Run([], Err(ValueError(IntLiteral)))
  {
    EditFolderRefRequests(c, srv, folder);
  }

  /** `deletefolder(folderid)`. */
  function DeleteFolder(c: Client, srv: Server, folderid: Value): (r: Run<Value>)
    ensures KeepFolderRef(c, srv, folderid).out.Err? ==> r == KeepFolderRef(c, srv, folderid)
    ensures KeepFolderRef(c, srv, folderid).out.Ok? ==>
              var f := KeepFolderRef(c, srv, folderid);
              var req := Delete(c.baseurl + "folders/delete/" + StrOf(f.out.value));
              r == Run(f.calls + [req], ReturnObject(srv(req)))
  {
    var f := KeepFolderRef(c, srv, folderid);
    if f.out.Err? then f
    else
      var req := Delete(c.baseurl + "folders/delete/" + StrOf(f.out.value));
      Run(f.calls + [req], ReturnObject(srv(req)))
  }

  /** `deletefolder` deletes a non-zero reference as given with one request
      and refuses a name without any; for zero it reads the folder list,
      deletes the folder found, and deletes the reference as given when the
      list does not decode. */
  lemma DeleteFolderRequests(c: Client, srv: Server, x: Value)
    ensures IntOf(x).IntOk? && IntOf(x).n != 0 ==>
              var req := Delete(c.baseurl + "folders/delete/" + StrOf(x));
              DeleteFolder(c, srv, x) == Run([req], ReturnObject(srv(req)))
    ensures IntOf(x) == IntValueError ==> DeleteFolder(c, srv, x) == Run([], Err(ValueError(IntLiteral)))
    ensures IntOf(x) == IntOk(0) && srv(Get(c.baseurl + Folders)).json.None? ==>
              var req := Delete(c.baseurl + "folders/delete/" + StrOf(x));
              DeleteFolder(c, srv, x) == Run([Get(c.baseurl + Folders), req], ReturnObject(srv(req)))
    ensures IntOf(x) == IntOk(0) && srv(Get(c.baseurl + Folders)).json.Some? ==>
              var r := DeleteFolder(c, srv, x);
              |r.calls| >= 1 && r.calls[0] == Get(c.baseurl + Folders)
              && (|r.calls| > 1 ==>
                    exists v :: LookedUp(c, srv, Folders, x, "name", "folderId", v)
                                && r.calls == [Get(c.baseurl + Folders), Delete(c.baseurl + "folders/delete/" + StrOf(v))])
  {
    KeepFolderRefRequests(c, srv, x);
    if IntOf(x) == IntOk(0) {
      KeepFolderRefZero(c, srv, x);
    }
  }
}

=== FILE: pyvalue.dfy ===
/**
 Python objects as the client library handles them: the JSON values the
 server returns, the arguments callers pass, the `requests.Response`
 objects some operations hand back, and the exceptions they raise. There
 is no float case: numbers are integers (and booleans).
 Dictionaries are ordered lists of entries, because the library's output
 (request bodies, rendered trees, flattened issues) follows dict order.
 */
module PyValue {
  import opened Wrappers

  datatype Value =
    | Null
    | Bool(b: bool)
    | Int(i: int)
    | Str(s: string)
    | Bytes(data: string)
    | List(elems: seq<Value>)
    | Dict(entries: seq<Entry>)
    | Resp(resp: Response)
    | Exc(exc: Error)

  datatype Entry = Entry(key: string, val: Value)

  /** A `requests.Response` as the library inspects it. `json` is the outcome
      of `.json()` (None when the body does not decode), `raises` tells whether
      `raise_for_status()` raises for this response, `etag` is the `ETag`
      header when present. */
  datatype Response = Response(
    status: int,
    content: string,
    json: Option<Value>,
    raises: bool,
    etag: Option<string>)

  datatype TypeFault =
    | MustBeList          // searchlist: "Must be a list"
    | MustBeDict          // searchdict: "Must be a dictionary"
    | NotSubscriptable
    | BadIndex            // a list, str or bytes indexed by a non-integer
    | Unhashable          // a list or dict used as a dict key
    | IntArgument         // int() of None, a list, a dict, an object
    | NotIterable
    | UnsupportedOperand  // `+` on mismatched operands
    | RangeArgument       // range() bound that is not an integer
    | ReportZip           // issuequery: report issues cannot be zipped
    | JoinArgument        // ''.join of something other than strings

  datatype ValueFault =
    | IntLiteral          // int() of a string that is not a decimal literal
    | JsonDecode          // Response.json() on a body that is not JSON
    | Utf8Decode          // UnicodeDecodeError: bytes.decode('utf-8') of bytes that are not UTF-8
    | NoAttributeSource   // createapplication without attributes or a copy source
    | NotFolderItemName   // folderitemquery: "Not a valid folderitem name"
    | NoReportOrApp       // issuequery without reportid and appid
    | ParentNone          // createfolder: "Parent cannot be Nonetype"
    | AppIdNone           // deleteapplication: "appid can't be NoneType"

  /** The exceptions the library raises, its own (exceptions.py) included. */
  datatype Error =
    | TypeError(tf: TypeFault)
    | ValueError(vf: ValueFault)
    | KeyError(key: Value)
    | IndexError
    | AttributeError(attribute: string)
    | UnboundLocalError(variable: string)
    | HttpError(status: int)
    | AttrError(attr: string)
    | DataCodeError
    | UserTypeError

  datatype Result<+T> = Ok(value: T) | Err(error: Error) {
    predicate IsFailure() {
      Err?
    }

    function PropagateFailure<U>(): Result<U>
      requires Err?
    {
      Err(error)
    }

    function Extract(): T
      requires Ok?
    {
      value
    }
  }

  /** Python truthiness; a response is truthy when it is `ok`, that is when
      `raise_for_status()` would not raise. */
  predicate Truthy(v: Value) {
    match v
    case Null => false
    case Bool(b) => b
    case Int(i) => i != 0
    case Str(s) => s != ""
    case Bytes(d) => d != ""
    case List(xs) => xs != []
    case Dict(es) => es != []
    case Resp(r) => !r.raises
    case Exc(_) => true
  }

  /** The value stored under `k`: the first entry with that key. */
  function Lookup(es: seq<Entry>, k: string): Option<Value> {
    if es == [] then None
    else if es[0].key == k then Some(es[0].val)
    else Lookup(es[1..], k)
  }

  /** A key is missing exactly when no entry carries it. */
  lemma {:induction false} LookupAbsent(es: seq<Entry>, k: string)
    ensures Lookup(es, k).None? <==> forall i :: 0 <= i < |es| ==> es[i].key != k
  {
    if es != [] {
      LookupAbsent(es[1..], k);
      assert forall i :: 1 <= i < |es| ==> es[i] == es[1..][i - 1];
    }
  }

  /** A key that is found is carried by an entry holding the value found. */
  lemma {:induction false} LookupFound(es: seq<Entry>, k: string)
    requires Lookup(es, k).Some?
    ensures exists i :: 0 <= i < |es| && es[i].key == k && es[i].val == Lookup(es, k).value
  {
    if es[0].key != k {
      LookupFound(es[1..], k);
      var i :| 0 <= i < |es[1..]| && es[1..][i].key == k && es[1..][i].val == Lookup(es[1..], k).value;
      assert es[i + 1] == es[1..][i];
    }
  }

  predicate HasKey(es: seq<Entry>, k: string) {
    Lookup(es, k).Some?
  }

  function Keys(es: seq<Entry>): (ks: seq<string>)
    ensures |ks| == |es|
    ensures forall i :: 0 <= i < |es| ==> ks[i] == es[i].key
  {
    if es == [] then [] else [es[0].key] + Keys(es[1..])
  }

  /** The entry a key first occurs in holds the value looked up. */
  lemma {:induction false} LookupAt(es: seq<Entry>, i: nat)
    requires i < |es| && forall j :: 0 <= j < i ==> es[j].key != es[i].key
    ensures Lookup(es, es[i].key) == Some(es[i].val)
  {
    if i > 0 {
      assert es[1..][i - 1] == es[i];
      LookupAt(es[1..], i - 1);
    }
  }

  /** A key is looked up in the first part of a concatenation, and in the
      second only when the first lacks it. */
  lemma {:induction false} LookupAppend(a: seq<Entry>, b: seq<Entry>, k: string)
    ensures Lookup(a + b, k) == if HasKey(a, k) then Lookup(a, k) else Lookup(b, k)
    decreases |a|
  {
    if a != [] {
      assert (a + b)[0] == a[0];
      assert (a + b)[1..] == a[1..] + b;
      LookupAppend(a[1..], b, k);
    } else {
      assert a + b == b;
    }
  }

  /** No key occurs twice, as in every Python dict. */
  predicate DistinctKeys(es: seq<Entry>) {
    forall i, j :: 0 <= i < j < |es| ==> es[i].key != es[j].key
  }

  /** `d[k] = v`: an existing key keeps its position and takes the new value,
      a new key is appended. */
  function Assign(es: seq<Entry>, k: string, v: Value): (r: seq<Entry>)
    ensures Lookup(r, k) == Some(v)
    ensures forall k' :: k' != k ==> Lookup(r, k') == Lookup(es, k')
    ensures HasKey(es, k) ==> |r| == |es|
    ensures !HasKey(es, k) ==> r == es + [Entry(k, v)]
  {
    if es == [] then [Entry(k, v)]
    else if es[0].key == k then [Entry(k, v)] + es[1..]
    else [es[0]] + Assign(es[1..], k, v)
  }

  /** Python `==` between two objects: numbers compare by value (so `True == 1`),
      strings and bytes never equal each other, lists pairwise, dicts by key set
      and per-key value, responses and exceptions by identity. */
  predicate Eq(a: Value, b: Value)
    decreases a
  {
    match a
    case Null => b.Null?
    case Bool(x) => (b.Bool? && b.b == x) || (b.Int? && b.i == (if x then 1 else 0))
    case Int(x) => (b.Int? && b.i == x) || (b.Bool? && x == (if b.b then 1 else 0))
    case Str(x) => b.Str? && b.s == x
    case Bytes(x) => b.Bytes? && b.data == x
    case List(xs) =>
      b.List? && |xs| == |b.elems|
      && forall i :: 0 <= i < |xs| ==> Eq(xs[i], b.elems[i])
    case Dict(es) =>
      b.Dict?
      && (forall i :: 0 <= i < |es| ==>
            HasKey(b.entries, es[i].key) && Eq(es[i].val, Lookup(b.entries, es[i].key).value))
      && (forall j :: 0 <= j < |b.entries| ==> HasKey(es, b.entries[j].key))
    case Resp(r) => b == a
    case Exc(e) => b == a
  }

  /** Comparing with a string literal is plain equality. */
  lemma EqStr(v: Value, s: string)
    ensures Eq(v, Str(s)) <==> v == Str(s)
    ensures Eq(Str(s), v) <==> v == Str(s)
  {
  }

  /** Numbers compare by value whatever their type, and never equal a
      non-number. */
  lemma EqNumbers(a: Value, b: Value)
    requires a.Int? || a.Bool?
    ensures (b.Int? || b.Bool?) ==> (Eq(a, b) <==> NumOf(a) == NumOf(b))
    ensures !(b.Int? || b.Bool?) ==> !Eq(a, b)
    ensures Eq(a, b) <==> Eq(b, a)
  {
  }

  /** `v[key]`. */
  function GetItem(v: Value, key: Value): (r: Result<Value>)
    ensures r.Ok? && key.Str? ==> v.Dict? && Lookup(v.entries, key.s) == Some(r.value)
    ensures v.Dict? && key.Str? && !HasKey(v.entries, key.s) ==> r == Err(KeyError(key))
  {
    match v
    case Dict(es) =>
      if key.List? || key.Dict? then Err(TypeError(Unhashable))
      else if key.Str? && HasKey(es, key.s) then Ok(Lookup(es, key.s).value)
      else Err(KeyError(key))
    case List(xs) =>
      var n :- Index(key, |xs|); Ok(xs[n])
    case Str(s) =>
      var n :- Index(key, |s|); Ok(Str([s[n]]))
    case Bytes(d) =>
      var n :- Index(key, |d|); Ok(Int(d[n] as int))
    case _ => Err(TypeError(NotSubscriptable))
  }

  /** `v['k']`, the form the library uses everywhere. */
  function At(v: Value, k: string): Result<Value> {
    GetItem(v, Str(k))
  }

  /** The position an integer index denotes in a sequence of length `len`;
      negative indices count from the end. */
  function Index(key: Value, len: nat): (r: Result<nat>)
    ensures r.Ok? ==> r.value < len
  {
    if !(key.Int? || key.Bool?) then Err(TypeError(BadIndex))
    else
      var n := NumOf(key);
      if 0 <= n < len then Ok(n as nat)
      else if -(len as int) <= n < 0 then Ok((n + len) as nat)
      else Err(IndexError)
  }

  /** The objects a `for` loop over `v` visits: list elements, dict keys,
      one-character strings, byte values, 128-byte chunks of a response body. */
  function Iterate(v: Value): Result<seq<Value>> {
    match v
    case List(xs) => Ok(xs)
    case Dict(es) => Ok(KeyValues(es))
    case Str(s) => Ok(seq(|s|, i requires 0 <= i < |s| => Str([s[i]])))
    case Bytes(d) => Ok(seq(|d|, i requires 0 <= i < |d| => Int(d[i] as int)))
    case Resp(r) => Ok(Chunks(r.content))
    case _ => Err(TypeError(NotIterable))
  }

  /** The bytes of a sequence of byte chunks, in order. */
  function ChunkData(cs: seq<Value>): string {
    if cs == [] then "" else (if cs[0].Bytes? then cs[0].data else "") + ChunkData(cs[1..])
  }

  /** Iterating a response gives back its whole body, in chunks of at most
      128 bytes, none of them empty. */
  lemma {:induction false} ChunksCover(d: string)
    ensures ChunkData(Chunks(d)) == d
    ensures forall i :: 0 <= i < |Chunks(d)| ==> Chunks(d)[i].Bytes? && 0 < |Chunks(d)[i].data| <= 128
    decreases |d|
  {
    if |d| > 128 {
      ChunksCover(d[128..]);
      var cs := Chunks(d);
      assert cs[1..] == Chunks(d[128..]);
      assert d[..128] + d[128..] == d;
      forall i | 0 <= i < |cs|
        ensures cs[i].Bytes? && 0 < |cs[i].data| <= 128
      {
        if i > 0 {
          assert cs[i] == Chunks(d[128..])[i - 1];
        }
      }
    } else if d != [] {
      assert Chunks(d) == [Bytes(d)];
      assert Chunks(d)[1..] == [];
    }
  }

  /** A `for` loop visits exactly the elements of a list, the keys of a dict
      in order, the characters of a string and the bytes of a bytes object,
      and fails with TypeError for anything else but a response. */
  lemma IterateVisits(v: Value)
    ensures Iterate(v).Ok? <==> v.List? || v.Dict? || v.Str? || v.Bytes? || v.Resp?
    ensures Iterate(v).Err? ==> Iterate(v).error == TypeError(NotIterable)
    ensures v.List? ==> Iterate(v).value == v.elems
    ensures v.Dict? ==> |Iterate(v).value| == |v.entries|
                        && forall i :: 0 <= i < |v.entries| ==> Iterate(v).value[i] == Str(v.entries[i].key)
    ensures v.Str? ==> |Iterate(v).value| == |v.s|
                       && forall i :: 0 <= i < |v.s| ==> Iterate(v).value[i] == Str([v.s[i]])
    ensures v.Resp? ==> ChunkData(Iterate(v).value) == v.resp.content
  {
    if v.Resp? {
      ChunksCover(v.resp.content);
    }
  }

  /** Python truthiness of a container is non-emptiness of what a loop over
      it visits, and of a number is being different from 0. */
  lemma TruthyIsNonEmpty(v: Value)
    ensures v.List? || v.Dict? || v.Str? || v.Bytes? ==> (Truthy(v) <==> Iterate(v).value != [])
    ensures v.Int? || v.Bool? ==> (Truthy(v) <==> !Eq(v, Int(0)))
  {
    if v.Dict? {
      assert |Iterate(v).value| == |v.entries|;
    } else if v.Str? {
      assert |Iterate(v).value| == |v.s|;
    } else if v.Bytes? {
      assert |Iterate(v).value| == |v.data|;
    }
  }

  function KeyValues(es: seq<Entry>): (r: seq<Value>)
    ensures |r| == |es|
    ensures forall i :: 0 <= i < |es| ==> r[i] == Str(es[i].key)
  {
    if es == [] then [] else [Str(es[0].key)] + KeyValues(es[1..])
  }

  function Chunks(d: string): seq<Value>
    decreases |d|
  {
    if d == [] then []
    else if |d| <= 128 then [Bytes(d)]
    else [Bytes(d[..128])] + Chunks(d[128..])
  }

  /** Python `a + b`. */
  function Add(a: Value, b: Value): (r: Result<Value>)
    ensures a.List? && b.List? ==> r == Ok(List(a.elems + b.elems))
    ensures a.Str? && b.Str? ==> r == Ok(Str(a.s + b.s))
    ensures r.Ok? ==> (a.List? <==> b.List?) && (a.Str? <==> b.Str?)
  {
    if a.List? && b.List? then Ok(List(a.elems + b.elems))
    else if a.Str? && b.Str? then Ok(Str(a.s + b.s))
    else if a.Bytes? && b.Bytes? then Ok(Bytes(a.data + b.data))
    else if (a.Int? || a.Bool?) && (b.Int? || b.Bool?) then Ok(Int(NumOf(a) + NumOf(b)))
    else Err(TypeError(UnsupportedOperand))
  }

  function NumOf(v: Value): int
    requires v.Int? || v.Bool?
  {
    if v.Int? then v.i else if v.b then 1 else 0
  }

  /** A string literal on the left of `+`: `'...' + v`. */
  function Concat(s: string, v: Value): (r: Result<string>)
    ensures r.Ok? <==> v.Str?
    ensures r.Ok? ==> r.value == s + v.s
  {
    if v.Str? then Ok(s + v.s) else Err(TypeError(UnsupportedOperand))
  }
}

=== FILE: query.dfy ===
/**
 The `Query` class: how each query operation resolves its "ID or name"
 argument, which endpoint it then hits and what it makes of the answer.
 */
module Query {
  import opened Wrappers
  import opened PyValue
  import opened Conv
  import opened Http
  import opened Helper
  import Utf8

  /** `lookup(x, category)[field]`: search a collection, then read one field
      of the node found (None has no fields). */
  function Field(r: Run<Value>, field: string): (f: Run<Value>)
    ensures f.calls == r.calls
    ensures r.out.Err? ==> f.out == r.out
    ensures r.out.Ok? ==> f.out == At(r.out.value, field)
  {
    r.Then(v => Lift(At(v, field)))
  }

  /** Send one request and gate the answer with `returnobject`. */
  function Object(srv: Server, req: Request): Run<Value> {
    Run([req], ReturnObject(srv(req)))
  }

  /** Send one request and gate the answer with `returnhtml`. */
  function Html(srv: Server, req: Request): Run<Value> {
    Run([req], ReturnHtml(srv(req)))
  }

  /** The value a name lookup reads: the collection at `baseurl + ext`
      decodes to a list, node `k` is its first node whose `category`
      matches `name`, and that node's `field` is `v`. */
  ghost predicate LookedUp(c: Client, srv: Server, ext: string, name: Value, category: string, field: string, v: Value) {
    var nodes := Listing(srv, c.baseurl + ext);
    nodes.Some? && exists k :: FirstHit(nodes.value, name, Str(category), k) && At(nodes.value[k], field) == Ok(v)
  }

  /** What `lookup(name, category)[field]` observably does: one GET of the
      collection; ValueError exactly when the answer does not decode; the
      field of the first matching node when there is one; the TypeError of
      reading a field of None when nothing matches; and no value that was
      not read that way. */
  ghost predicate AnswersLookup(r: Run<Value>, c: Client, srv: Server, ext: string, name: Value, category: string, field: string) {
    var nodes := Listing(srv, c.baseurl + ext);
    r.calls == [Get(c.baseurl + ext)]
    && (r.out.Err? && r.out.error.ValueError? <==> srv(Get(c.baseurl + ext)).json.None?)
    && (r.out.Ok? ==> LookedUp(c, srv, ext, name, category, field, r.out.value))
    && (nodes.Some? ==> forall k :: FirstHit(nodes.value, name, Str(category), k) ==> r.out == At(nodes.value[k], field))
    && (nodes.Some? && AllMiss(nodes.value, name, Str(category)) ==> r.out == Err(TypeError(NotSubscriptable)))
  }

  /** Reading a field never raises ValueError. */
  lemma AtRaisesNoValueError(v: Value, field: string)
    ensures At(v, field).Err? ==> !At(v, field).error.ValueError?
  {
  }

  /** Searching a collection for a name and reading one field of the node
      found is a lookup in the sense above. */
  lemma FieldLookup(c: Client, srv: Server, ext: string, x: Value, category: string, field: string)
    requires !x.Null?
    ensures AnswersLookup(Field(QueryHelper(c, srv, ext, x, Str(category)), field), c, srv, ext, x, category, field)
  {
    QueryHelperFindsFirst(c, srv, ext, x, Str(category));
    var q := QueryHelper(c, srv, ext, x, Str(category));
    if q.out.Ok? {
      AtRaisesNoValueError(q.out.value, field);
      var nodes := Listing(srv, c.baseurl + ext);
      if At(q.out.value, field).Ok? {
        assert nodes.Some?;
        var k :| FirstHit(nodes.value, x, Str(category), k) && q.out.value == nodes.value[k];
        assert LookedUp(c, srv, ext, x, category, field, At(q.out.value, field).value);
      }
    }
  }

  // ---------------------------------------------------------------------
  // jobsquery and folderjobsquery

  /** The folder id of `folderjobsquery`: a non-zero number is used as is, a
      name is looked up by `folderName`, and zero assigns nothing, so the
      later `str(folderid)` finds the variable unbound. */
  function JobFolderId(c: Client, srv: Server, folder: Value): (r: Run<Value>)
  {
    match Classify(folder)
    case NonZero(n) => Pure(Int(n))
    case Zero => Fail(UnboundLocalError("folderid"))
    case NotNumeric => Field(QueryHelper(c, srv, Folders, folder, Str("folderName")), "folderId")
    case NotCastable => Fail(TypeError(IntArgument))
  }

  /** `searchlist(result.json(), job, category)`. */
  function SearchJson(resp: Response, job: Value, category: string): (r: Result<Value>)
    ensures resp.json.None? ==> r == Err(ValueError(JsonDecode))
    ensures resp.json.Some? ==> r == SearchList(resp.json.value, job, Str(category))
  {
    var j :- JsonOf(resp);
    SearchList(j, job, Str(category))
  }

  /** Once the body decodes, the search raises no ValueError. */
  lemma DecodedSearchRaisesNoValueError(resp: Response, job: Value, category: string)
    ensures resp.json.Some? && SearchJson(resp, job, category).Err? ==>
              !SearchJson(resp, job, category).error.ValueError?
  {
    if resp.json.Some? && resp.json.value.List? {
      SearchRaisesNoValueError(resp.json.value.elems, job, Str(category));
    }
  }

  /** `folderjobsquery` takes a non-zero folder number as the id without a
      request and leaves the id unbound for zero; `None` raises TypeError.
      Folder names are `JobFolderIdByName`. */
  lemma JobFolderIdRequests(c: Client, srv: Server, folder: Value)
    ensures IntOf(folder).IntOk? && IntOf(folder).n != 0 ==>
              JobFolderId(c, srv, folder) == Run([], Ok(Int(IntOf(folder).n)))
    ensures IntOf(folder) == IntOk(0) ==> JobFolderId(c, srv, folder) == Run([], Err(UnboundLocalError("folderid")))
    ensures IntOf(folder) == IntTypeError ==> JobFolderId(c, srv, folder) == Run([], Err(TypeError(IntArgument)))
  {
  }

  /** A folder name is found by one search of the folder list on
      `folderName`, whose `folderId` is the id. */
  lemma JobFolderIdByName(c: Client, srv: Server, folder: Value)
    requires IntOf(folder) == IntValueError
    ensures AnswersLookup(JobFolderId(c, srv, folder), c, srv, Folders, folder, "folderName", "folderId")
  {
    FieldLookup(c, srv, Folders, folder, "folderName", "folderId");
  }

  /** Searching a decoded job list: ValueError exactly when the body does
      not decode, TypeError when it is not a list, and otherwise the first
      job whose field matches, or None. */
  lemma SearchJsonFirst(resp: Response, job: Value, category: string)
    ensures var r := SearchJson(resp, job, category);
            (r.Err? && r.error.ValueError? <==> resp.json.None?)
            && (resp.json.Some? && !resp.json.value.List? ==> r == Err(TypeError(MustBeList)))
            && (resp.json.Some? && resp.json.value.List? ==> FirstMatchOf(r, resp.json.value.elems, job, Str(category)))
  {
    DecodedSearchRaisesNoValueError(resp, job, category);
    if resp.json.Some? {
      SearchListFirst(resp.json.value, job, Str(category));
    }
  }

  /** What `folderjobsquery` makes of a folder's job list. A non-zero job
      reference is searched by `id`, and if decoding raises ValueError the
      handler searches by `name` (and decodes again); a name is searched by
      `name`; zero falls through the `try` and the method returns None. */
  function JobsOfFolder(resp: Response, job: Value): (r: Result<Value>)
    ensures job.Null? ==> r == ReturnObject(resp)
    ensures !job.Null? && Classify(job) == Zero ==> r == Ok(Null)
    ensures !job.Null? && Classify(job) == NotNumeric ==> r == SearchJson(resp, job, "name")
    ensures !job.Null? && Classify(job).NonZero? && resp.json.Some? ==> r == SearchJson(resp, job, "id")
    ensures !job.Null? && Classify(job).NonZero? && resp.json.None? ==> r == Err(ValueError(JsonDecode))
    ensures !job.Null? && Classify(job) == NotCastable ==> r == Err(TypeError(IntArgument))
  {
    if job.Null? then ReturnObject(resp)
    else
      match Classify(job)
      case NonZero(_) =>
        DecodedSearchRaisesNoValueError(resp, job, "id");
        CatchValueResult(SearchJson(resp, job, "id"), SearchJson(resp, job, "name"))
      case Zero => Ok(Null)
      case NotNumeric => SearchJson(resp, job, "name")
      case NotCastable => Err(TypeError(IntArgument))
  }

  function FolderJobsUrl(c: Client, folderId: Value): string {
    c.baseurl + "folders/" + StrOf(folderId) + "/jobs"
  }

  /** `folderjobsquery(foldername, jobname)`. */
  function FolderJobsQuery(c: Client, srv: Server, folder: Value, job: Value): (r: Run<Value>)
    ensures Classify(folder) == Zero ==> r == Run([], Err(UnboundLocalError("folderid")))
    ensures Classify(folder).NonZero? ==>
              var req := Get(FolderJobsUrl(c, Int(Classify(folder).n)));
              r == Run([req], JobsOfFolder(srv(req), job))
    ensures JobFolderId(c, srv, folder).out.Ok? ==>
              var req := Get(FolderJobsUrl(c, JobFolderId(c, srv, folder).out.value));
              r.calls == JobFolderId(c, srv, folder).calls + [req] && r.out == JobsOfFolder(srv(req), job)
  {
    JobFolderId(c, srv, folder).Then(fid =>
      var req := Get(FolderJobsUrl(c, fid));
      Run([req], JobsOfFolder(srv(req), job)))
  }

  /** The per-folder loop of `jobsquery`; `step` asks `folderjobsquery`
      about one folder name. With no job name (`all`) it collects every
      folder's answer; with a name it stops at the first truthy answer and
      otherwise returns the (empty) list. */
  function JobsLoop(step: Value -> Run<Value>, folders: seq<Value>, all: bool, acc: seq<Value>): (r: Run<Value>)
    ensures r.out.Ok? && !all ==> r.out.value == List(acc) || Truthy(r.out.value)
    decreases |folders|
  {
    if folders == [] then Pure(List(acc))
    else
      var fname := At(folders[0], "folderName");
      if fname.Err? then Fail(fname.error)
      else
        var jq := step(fname.value);
        if jq.out.Err? then jq
        else if !all && Truthy(jq.out.value) then jq
        else
          var rest := JobsLoop(step, folders[1..], all, if all then acc + [jq.out.value] else acc);
          Run(jq.calls + rest.calls, rest.out)
  }

  /** Without a job name, `jobsquery` returns one answer per folder, in
      folder order. */
  lemma {:induction false} JobsLoopCollects(step: Value -> Run<Value>, folders: seq<Value>, acc: seq<Value>)
    ensures var r := JobsLoop(step, folders, true, acc);
            r.out.Ok? ==>
              r.out.value.List? && |r.out.value.elems| == |acc| + |folders|
              && r.out.value.elems[..|acc|] == acc
              && forall i :: 0 <= i < |folders| ==>
                   At(folders[i], "folderName").Ok?
                   && step(At(folders[i], "folderName").value).out == Ok(r.out.value.elems[|acc| + i])
    decreases |folders|
  {
    if folders != [] && At(folders[0], "folderName").Ok? {
      var jq := step(At(folders[0], "folderName").value);
      if jq.out.Ok? {
        var v := jq.out.value;
        JobsLoopCollects(step, folders[1..], acc + [v]);
        var r := JobsLoop(step, folders, true, acc);
        if r.out.Ok? {
          var es := r.out.value.elems;
          assert es[..|acc| + 1] == acc + [v];
          assert es[..|acc|] == (acc + [v])[..|acc|];
          forall i | 0 <= i < |folders|
            ensures At(folders[i], "folderName").Ok?
                    && step(At(folders[i], "folderName").value).out == Ok(es[|acc| + i])
          {
            if i == 0 {
              assert es[|acc|] == (acc + [v])[|acc|];
            } else {
              assert folders[i] == folders[1..][i - 1];
            }
          }
        }
      }
    }
  }

  /** With a job name, a non-empty answer is the answer for some folder, and
      every earlier folder answered something falsy. */
  lemma {:induction false} JobsLoopFirstTruthy(step: Value -> Run<Value>, folders: seq<Value>)
    ensures var r := JobsLoop(step, folders, false, []);
            r.out.Ok? && r.out.value != List([]) ==>
              exists k :: 0 <= k < |folders| && FirstTruthyAt(step, folders, k, r.out.value)
    decreases |folders|
  {
    var r := JobsLoop(step, folders, false, []);
    if folders != [] && At(folders[0], "folderName").Ok? && r.out.Ok? && r.out.value != List([]) {
      var jq := step(At(folders[0], "folderName").value);
      if Truthy(jq.out.value) {
        assert FirstTruthyAt(step, folders, 0, r.out.value);
      } else {
        JobsLoopFirstTruthy(step, folders[1..]);
        var k :| 0 <= k < |folders[1..]| && FirstTruthyAt(step, folders[1..], k, r.out.value);
        assert folders[k + 1] == folders[1..][k];
        forall j | 0 <= j < k + 1
          ensures FalsyAt(step, folders, j)
        {
          if j > 0 {
            assert folders[j] == folders[1..][j - 1];
            assert FalsyAt(step, folders[1..], j - 1);
          }
        }
        assert FirstTruthyAt(step, folders, k + 1, r.out.value);
      }
    }
  }

  /** Folder `j` has a name and answered something falsy. */
  predicate FalsyAt(step: Value -> Run<Value>, folders: seq<Value>, j: int)
    requires 0 <= j < |folders|
  {
    At(folders[j], "folderName").Ok? && step(At(folders[j], "folderName").value).out.Ok?
    && !Truthy(step(At(folders[j], "folderName").value).out.value)
  }

  /** Folder `k` answered `v` and every earlier folder answered something falsy. */
  predicate FirstTruthyAt(step: Value -> Run<Value>, folders: seq<Value>, k: int, v: Value)
    requires 0 <= k < |folders|
  {
    At(folders[k], "folderName").Ok? && step(At(folders[k], "folderName").value).out == Ok(v)
    && forall j :: 0 <= j < k ==> FalsyAt(step, folders, j)
  }

  /** With a job name, the first folder that answers something truthy
      decides the answer. */
  lemma {:induction false} JobsLoopFindsFirstTruthy(step: Value -> Run<Value>, folders: seq<Value>, k: int, v: Value)
    requires 0 <= k < |folders| && FirstTruthyAt(step, folders, k, v) && Truthy(v)
    ensures JobsLoop(step, folders, false, []).out == Ok(v)
    decreases k
  {
    if k > 0 {
      assert FalsyAt(step, folders, 0);
      forall j | 0 <= j < k - 1
        ensures FalsyAt(step, folders[1..], j)
      {
        assert folders[1..][j] == folders[j + 1];
        assert FalsyAt(step, folders, j + 1);
      }
      assert folders[1..][k - 1] == folders[k];
      JobsLoopFindsFirstTruthy(step, folders[1..], k - 1, v);
    }
  }

  /** With a job name, when every folder answers something falsy the
      answer is the empty list. */
  lemma {:induction false} JobsLoopAllFalsy(step: Value -> Run<Value>, folders: seq<Value>)
    requires forall j :: 0 <= j < |folders| ==> FalsyAt(step, folders, j)
    ensures JobsLoop(step, folders, false, []).out == Ok(List([]))
    decreases |folders|
  {
    if folders != [] {
      assert FalsyAt(step, folders, 0);
      forall j | 0 <= j < |folders| - 1
        ensures FalsyAt(step, folders[1..], j)
      {
        assert folders[1..][j] == folders[j + 1];
        assert FalsyAt(step, folders, j + 1);
      }
      JobsLoopAllFalsy(step, folders[1..]);
    }
  }

  /** `jobsquery(name, category)`. The single-job URL is built on the base
      URL, which already ends in `/`, so it holds `//jobs/`. */
  function JobsQuery(c: Client, srv: Server, name: Value, category: Value): (r: Run<Value>)
    ensures Truthy(name) && !Truthy(category) ==>
              var req := Get(c.baseurl + "/jobs/" + StrOf(name));
              r == Run([req], ReturnObject(srv(req)))
    ensures !(Truthy(name) && !Truthy(category)) ==>
              |r.calls| >= 1 && r.calls[0] == Get(c.baseurl + Folders)
  {
    if Truthy(name) && !Truthy(category) then Object(srv, Get(c.baseurl + "/jobs/" + StrOf(name)))
    else
      QueryHelper(c, srv, Folders, Null, Null).Then(folders =>
        Lift(Iterate(folders)).Then(fs => JobsLoop(f => FolderJobsQuery(c, srv, f, name), fs, name.Null?, [])))
  }

  // ---------------------------------------------------------------------
  // appissuequery

  const AllSeverities: seq<string> := ["High", "Medium", "Low"]

  /** The severities asked for: the chosen one and every lower one, `High`
      for anything unrecognised. */
  function Severities(severity: Value): (r: seq<string>)
    ensures exists k :: 0 <= k < |AllSeverities| && r == AllSeverities[k..]
    ensures severity == Str("Medium") || severity == Str("medium") ==> r == ["Medium", "Low"]
    ensures severity == Str("Low") || severity == Str("low") ==> r == ["Low"]
    ensures !(severity in [Str("Medium"), Str("medium"), Str("Low"), Str("low")]) ==> r == AllSeverities
  {
    if severity == Str("Medium") || severity == Str("medium") then
      assert AllSeverities[1..] == ["Medium", "Low"];
      ["Medium", "Low"]
    else if severity == Str("Low") || severity == Str("low") then
      assert AllSeverities[2..] == ["Low"];
      ["Low"]
    else
      assert AllSeverities[0..] == AllSeverities;
      AllSeverities
  }

  /** The list the URL loop runs over: `Information` is added when
      `includeinfoseverity == True`, which `1` satisfies too. */
  function SeverityList(severity: Value, info: Value): (r: seq<string>)
    ensures Eq(info, Bool(true)) ==> r == Severities(severity) + ["Information"]
    ensures !Eq(info, Bool(true)) ==> r == Severities(severity)
    ensures "Information" in r <==> Eq(info, Bool(true))
  {
    if Eq(info, Bool(true)) then Severities(severity) + ["Information"] else Severities(severity)
  }

  /** `url += ',Severity=' + entry` for each entry, in order. */
  function SeverityClause(sev: seq<string>): string {
    if sev == [] then "" else ",Severity=" + sev[0] + SeverityClause(sev[1..])
  }

  const IssuesPrefix := "issues?columns=Severity,Location,Issue Type,Element&query=Application Name="

  /** The issue query URL for application `app`, asking for the severities
      `sev` and sorting by `sortBy`. */
  function IssueListUrl(c: Client, app: string, sev: seq<string>, sortBy: string): string {
    c.baseurl + IssuesPrefix + app + SeverityClause(sev) + "&sortBy=-" + sortBy + "&compactResponse=false"
  }

  /** The issue query URL for one application, or the TypeError of `+` when
      the application or `sortBy` is not a string. */
  function IssuesUrl(c: Client, app: Value, severity: Value, sortBy: Value, info: Value): (r: Result<string>)
    ensures r.Ok? <==> app.Str? && sortBy.Str?
    ensures r.Ok? ==> r.value == IssueListUrl(c, app.s, SeverityList(severity, info), sortBy.s)
    ensures r.Err? ==> r.error == TypeError(UnsupportedOperand)
  {
    if app.Str? && sortBy.Str? then Ok(IssueListUrl(c, app.s, SeverityList(severity, info), sortBy.s))
    else Err(TypeError(UnsupportedOperand))
  }

  /** The application name of `appissuequery`: a non-zero number is looked
      up by `id` and replaced by the node's `name`, unless the lookup raises
      ValueError, which is passed over; anything else is kept. */
  function AppName(c: Client, srv: Server, app: Value): (r: Run<Value>)
  {
    match Classify(app)
    case NonZero(_) => CatchValue(Field(QueryHelper(c, srv, Applications, app, Str("id")), "name"), Pure(app))
    case Zero => Pure(app)
    case NotNumeric => Pure(app)
    case NotCastable => Fail(TypeError(IntArgument))
  }

  /** `appissuequery` takes zero and anything `int` rejects with ValueError
      as the name without a request; `None`-like values raise TypeError.
      Non-zero numbers are `AppNameById`. */
  lemma AppNameRequests(c: Client, srv: Server, app: Value)
    ensures IntOf(app) == IntOk(0) || IntOf(app) == IntValueError ==> AppName(c, srv, app) == Run([], Ok(app))
    ensures IntOf(app) == IntTypeError ==> AppName(c, srv, app) == Run([], Err(TypeError(IntArgument)))
  {
  }

  /** A non-zero application number becomes the name of the application
      found by one search of the application list on `id`; the number is
      kept when the list does not decode. */
  lemma AppNameById(c: Client, srv: Server, app: Value)
    requires IntOf(app).IntOk? && IntOf(app).n != 0
    ensures var r := AppName(c, srv, app);
            (srv(Get(c.baseurl + Applications)).json.None? ==> r == Run([Get(c.baseurl + Applications)], Ok(app)))
            && (srv(Get(c.baseurl + Applications)).json.Some? ==> AnswersLookup(r, c, srv, Applications, app, "id", "name"))
  {
    FieldLookup(c, srv, Applications, app, "id", "name");
  }

  /** `node['name']` for every application node. */
  function Names(nodes: seq<Value>): (r: Result<seq<Value>>)
    ensures r.Ok? ==> |r.value| == |nodes|
                      && forall i :: 0 <= i < |nodes| ==> At(nodes[i], "name") == Ok(r.value[i])
  {
    if nodes == [] then Ok([])
    else
      var n :- At(nodes[0], "name");
      var rest :- Names(nodes[1..]);
      Ok([n] + rest)
  }

  /** The loop over every application name: `urlOf` builds one name's
      query, sent as a plain GET whose decoded body is kept whatever its
      status. */
  function AllAppIssues(srv: Server, urlOf: Value -> Result<string>, names: seq<Value>): (r: Run<seq<Value>>)
    ensures r.out.Ok? ==> |r.out.value| == |names| && |r.calls| == |names|
    decreases |names|
  {
    if names == [] then Pure([])
    else
      var url := urlOf(names[0]);
      if url.Err? then Fail(url.error)
      else
        var req := Get(url.value);
        var j := JsonOf(srv(req));
        if j.Err? then Run([req], Err(j.error))
        else
          var rest := AllAppIssues(srv, urlOf, names[1..]);
          Run([req] + rest.calls, if rest.out.Ok? then Ok([j.value] + rest.out.value) else rest.out)
  }

  /** Every application's query is sent in order and its answer decoded
      and kept. */
  lemma {:induction false} AllAppIssuesDecoded(srv: Server, urlOf: Value -> Result<string>, names: seq<Value>)
    ensures var r := AllAppIssues(srv, urlOf, names);
            r.out.Ok? ==>
              forall i :: 0 <= i < |names| ==>
                urlOf(names[i]).Ok? && r.calls[i] == Get(urlOf(names[i]).value)
                && JsonOf(srv(r.calls[i])) == Ok(r.out.value[i])
    decreases |names|
  {
    var r := AllAppIssues(srv, urlOf, names);
    if names != [] && r.out.Ok? {
      AllAppIssuesDecoded(srv, urlOf, names[1..]);
      var rest := AllAppIssues(srv, urlOf, names[1..]);
      forall i | 0 <= i < |names|
        ensures urlOf(names[i]).Ok? && r.calls[i] == Get(urlOf(names[i]).value)
                && JsonOf(srv(r.calls[i])) == Ok(r.out.value[i])
      {
        if i > 0 {
          assert names[i] == names[1..][i - 1];
          assert r.calls[i] == rest.calls[i - 1];
          assert r.out.value[i] == rest.out.value[i - 1];
        }
      }
    }
  }

  /** `appissuequery` without an application: every application's issues,
      one plain GET each. */
  function EveryAppIssues(c: Client, srv: Server, severity: Value, sortBy: Value, info: Value): (r: Run<Value>)
    ensures |r.calls| >= 1 && r.calls[0] == Get(c.baseurl + Applications)
    ensures r.out.Ok? ==> r.out.value.List?
  {
    QueryHelper(c, srv, Applications, Null, Null).Then(apps =>
      Lift(Iterate(apps)).Then(nodes =>
        Lift(Names(nodes)).Then(names =>
          AllAppIssues(srv, a => IssuesUrl(c, a, severity, sortBy, info), names).Then(js => Pure(List(js))))))
  }

  /** `appissuequery(appname, severity, sortBy, itemcount, includeinfoseverity)`.
      For one application the query asks for the first `itemcount + 1`
      issues through the `Range` header. */
  function AppIssueQuery(c: Client, srv: Server, appname: Value, severity: Value, sortBy: Value,
                         itemcount: Value, info: Value): (r: Run<Value>)
    ensures appname.Null? ==> r == EveryAppIssues(c, srv, severity, sortBy, info)
    ensures !appname.Null? && AppName(c, srv, appname).out.Err? ==> r == AppName(c, srv, appname)
    ensures !appname.Null? && AppName(c, srv, appname).out.Ok? ==>
              var app := AppName(c, srv, appname);
              var name := app.out.value;
              (!(name.Str? && sortBy.Str?) ==> r == Run(app.calls, Err(TypeError(UnsupportedOperand))))
              && (name.Str? && sortBy.Str? ==>
                    var req := GetRanged(IssueListUrl(c, name.s, SeverityList(severity, info), sortBy.s),
                                         "items=0-" + StrOf(itemcount));
                    r == Run(app.calls + [req], ReturnObject(srv(req))))
  {
    if appname.Null? then EveryAppIssues(c, srv, severity, sortBy, info)
    else
      var app := AppName(c, srv, appname);
      if app.out.Err? then app
      else
        var url := IssuesUrl(c, app.out.value, severity, sortBy, info);
        if url.Err? then Run(app.calls, Err(url.error))
        else
          var req := GetRanged(url.value, "items=0-" + StrOf(itemcount));
          Run(app.calls + [req], ReturnObject(srv(req)))
  }

  // ---------------------------------------------------------------------
  // reportquery and reportjsonquery

  /** `reportquery(reportid, issues)`: the XML summary report, or its issue
      list unless `issues == False`, through the scan service URL. */
  function ReportQuery(c: Client, srv: Server, reportid: Value, issues: Value): (r: Run<Value>)
    ensures |r.calls| == 1 && r.calls[0].Get?
    ensures r.calls[0].url == c.scanbaseurl + "services/reports/" + StrOf(reportid)
                              + (if Eq(issues, Bool(false)) then "" else "/issues")
    ensures r.out == ReturnHtml(srv(r.calls[0]))
  {
    if Eq(issues, Bool(false)) then Html(srv, Get(c.scanbaseurl + "services/reports/" + StrOf(reportid)))
    else Html(srv, Get(c.scanbaseurl + "services/reports/" + StrOf(reportid) + "/issues"))
  }

  /** The report id of `reportjsonquery`. A non-zero number is used as is and
      zero is kept unchanged; anything `int` rejects, by ValueError or by
      TypeError (the `except` is bare), is taken for a folder item name and
      replaced by the id of that item's security report. */
  function ReportId(c: Client, srv: Server, reportid: Value): (r: Run<Value>)
  {
    match Classify(reportid)
    case NonZero(n) => Pure(Int(n))
    case Zero => Pure(reportid)
    case NotNumeric =>
      var item := FolderItemQuery(c, srv, reportid, Bool(false), Bool(true), Bool(false), Bool(false));
      if item.out.Err? then item
      else Run(item.calls, var id :- At(item.out.value, "id"); IntValue(id))
    case NotCastable => FolderItemQuery(c, srv, reportid, Bool(false), Bool(true), Bool(false), Bool(false))
  }

  datatype ReportMode = SummaryMode | IssuesMode | DataMode

  /** Which report `reportjsonquery` fetches: the summary for `issues == False
      and summary == True`, the issue list for the opposite, the data report
      otherwise. */
  function ReportModeOf(issues: Value, summary: Value): (m: ReportMode)
    ensures m == SummaryMode <==> Eq(issues, Bool(false)) && Eq(summary, Bool(true))
    ensures m == IssuesMode <==> Eq(issues, Bool(true)) && Eq(summary, Bool(false))
  {
    if Eq(issues, Bool(false)) && Eq(summary, Bool(true)) then SummaryMode
    else if Eq(issues, Bool(true)) && Eq(summary, Bool(false)) then IssuesMode
    else DataMode
  }

  /** The stop bound of `range(2, total)`: an integer, bools included. */
  function RangeBound(total: Value): (r: Result<int>)
    ensures r.Ok? <==> total.Int? || total.Bool?
    ensures total.Int? ==> r == Ok(total.i)
    ensures r.Err? ==> r.error == TypeError(RangeArgument)
  {
    if total.Int? || total.Bool? then Ok(NumOf(total)) else Err(TypeError(RangeArgument))
  }

  /** `report[key]['security-issue']`. */
  function IssueList(report: Value, key: string): Result<Value> {
    var inner :- At(report, key);
    At(inner, "security-issue")
  }

  /** `acc[key]['security-issue'] = acc[key]['security-issue'] + page[key]['security-issue']`:
      the page's issues are appended to the accumulated report, in place. */
  function Extend(acc: Value, page: Value, key: string): (r: Result<Value>)
    ensures IssueList(acc, key).Ok? && IssueList(acc, key).value.List?
            && IssueList(page, key).Ok? && IssueList(page, key).value.List? ==>
              r.Ok? && r.value.Dict?
              && IssueList(r.value, key)
                 == Ok(List(IssueList(acc, key).value.elems + IssueList(page, key).value.elems))
              && forall k :: k != key ==> Lookup(r.value.entries, k) == Lookup(acc.entries, k)
  {
    var inner :- At(acc, key);
    var mine :- At(inner, "security-issue");
    var theirs :- IssueList(page, key);
    var sum :- Add(mine, theirs);
    var updated := Dict(Assign(inner.entries, "security-issue", sum));
    Ok(Dict(Assign(acc.entries, key, updated)))
  }

  function PageUrl(url: string, page: int): string {
    url + "/pages/" + IntToDecimal(page)
  }

  /** The loop `for page in range(page, end)`: fetch each page and append its
      issues to the accumulated report. */
  function MergePages(srv: Server, url: string, key: string, acc: Value, page: int, end: int): (r: Run<Value>)
    ensures |r.calls| <= if page < end then end - page else 0
    decreases end - page
  {
    if page >= end then Pure(acc)
    else
      var req := Get(PageUrl(url, page));
      var merged := (var p :- ReturnObject(srv(req)); Extend(acc, p, key));
      if merged.Err? then Run([req], merged.PropagateFailure())
      else
        var rest := MergePages(srv, url, key, merged.value, page + 1, end);
        Run([req] + rest.calls, rest.out)
  }

  /** The issues of pages `page .. end - 1`, in page order, when every page
      answers with a well-formed issue list. */
  function PageIssues(srv: Server, url: string, key: string, page: int, end: int): Option<seq<Value>>
    decreases end - page
  {
    if page >= end then Some([])
    else
      var p := ReturnObject(srv(Get(PageUrl(url, page))));
      if p.Err? || IssueList(p.value, key).Err? || !IssueList(p.value, key).value.List? then None
      else
        match PageIssues(srv, url, key, page + 1, end)
        case None => None
        case Some(rest) => Some(IssueList(p.value, key).value.elems + rest)
  }

  /** One GET per page, in page order. */
  function PageRequests(url: string, page: int, end: int): seq<Request>
    decreases end - page
  {
    if page >= end then [] else [Get(PageUrl(url, page))] + PageRequests(url, page + 1, end)
  }

  /** When every page is well formed, merging fetches each page once, in
      order, and the merged report holds the first report's issues followed
      by every page's issues, everything else unchanged. */
  lemma {:induction false} MergePagesContents(srv: Server, url: string, key: string, acc: Value, page: int, end: int)
    requires IssueList(acc, key).Ok? && IssueList(acc, key).value.List?
    requires PageIssues(srv, url, key, page, end).Some?
    ensures var r := MergePages(srv, url, key, acc, page, end);
            r.calls == PageRequests(url, page, end)
            && r.out.Ok? && r.out.value.Dict?
            && IssueList(r.out.value, key)
               == Ok(List(IssueList(acc, key).value.elems + PageIssues(srv, url, key, page, end).value))
            && forall k :: k != key ==> Lookup(r.out.value.entries, k) == Lookup(acc.entries, k)
    decreases end - page
  {
    if page >= end {
      assert IssueList(acc, key).value.elems + [] == IssueList(acc, key).value.elems;
      assert acc.Dict?;
    } else {
      var req := Get(PageUrl(url, page));
      var p := ReturnObject(srv(req)).value;
      var xs := IssueList(acc, key).value.elems;
      var ys := IssueList(p, key).value.elems;
      var zs := PageIssues(srv, url, key, page + 1, end).value;
      assert PageIssues(srv, url, key, page, end).value == ys + zs;
      var merged := Extend(acc, p, key).value;
      assert IssueList(merged, key) == Ok(List(xs + ys));
      MergePagesContents(srv, url, key, merged, page + 1, end);
      var rest := MergePages(srv, url, key, merged, page + 1, end);
      assert MergePages(srv, url, key, acc, page, end) == Run([req] + rest.calls, rest.out);
      assert PageRequests(url, page, end) == [req] + PageRequests(url, page + 1, end);
      AppendAssociates(xs, ys, zs);
      assert IssueList(rest.out.value, key) == Ok(List(xs + (ys + zs)));
      forall k | k != key
        ensures Lookup(rest.out.value.entries, k) == Lookup(acc.entries, k)
      {
        assert Lookup(merged.entries, k) == Lookup(acc.entries, k);
      }
    }
  }

  lemma AppendAssociates<T>(a: seq<T>, b: seq<T>, c: seq<T>)
    ensures a + b + c == a + (b + c)
  {
  }

  /** A report fetched page by page: the first answer, then pages 2 up to
      `TotalPages - 1` unless `TotalPages == 1`. */
  function MergedReport(srv: Server, url: string, key: string): (r: Run<Value>)
    ensures |r.calls| >= 1 && r.calls[0] == Get(url)
    ensures ReturnObject(srv(Get(url))).Err? ==> r == Run([Get(url)], ReturnObject(srv(Get(url))))
    ensures var first := ReturnObject(srv(Get(url)));
            first.Ok? && IssueList(first.value, key).Ok? && IssueList(first.value, key).value.List?
            && At(first.value, key).Ok? && At(At(first.value, key).value, "TotalPages") == Ok(Int(1)) ==>
              r == Run([Get(url)], first)
  {
    var req := Get(url);
    var first := ReturnObject(srv(req));
    if first.Err? then Run([req], first)
    else
      var total := (var inner :- At(first.value, key); At(inner, "TotalPages"));
      if total.Err? then Run([req], total.PropagateFailure())
      else if Eq(total.value, Int(1)) then Run([req], first)
      else
        var bound := RangeBound(total.value);
        if bound.Err? then Run([req], bound.PropagateFailure())
        else
          var rest := MergePages(srv, url, key, first.value, 2, bound.value);
          Run([req] + rest.calls, rest.out)
  }

  /** A report of `t` pages, `t` an integer other than 1, asks for pages 2 up
      to `t - 1` and collects their issues after the first answer's. */
  lemma MergedReportPages(srv: Server, url: string, key: string, t: int)
    requires ReturnObject(srv(Get(url))).Ok?
    requires var first := ReturnObject(srv(Get(url))).value;
             IssueList(first, key).Ok? && IssueList(first, key).value.List?
             && At(At(first, key).value, "TotalPages") == Ok(Int(t)) && t != 1
    requires PageIssues(srv, url, key, 2, t).Some?
    ensures var first := ReturnObject(srv(Get(url))).value;
            var r := MergedReport(srv, url, key);
            r.calls == [Get(url)] + PageRequests(url, 2, t)
            && r.out.Ok?
            && IssueList(r.out.value, key)
               == Ok(List(IssueList(first, key).value.elems + PageIssues(srv, url, key, 2, t).value))
  {
    var first := ReturnObject(srv(Get(url))).value;
    MergePagesContents(srv, url, key, first, 2, t);
  }

  /** The data report loop as the source writes it: the page URL is built as
      `url + '/pages/' + page` with an integer `page`, which raises TypeError
      before the first page is requested whenever the loop runs at all. */
  function DataReportAsWritten(srv: Server, url: string): (r: Run<Value>)
    ensures |r.calls| == 1 && r.calls[0] == Get(url)
  {
    var req := Get(url);
    var first := ReturnObject(srv(req));
    if first.Err? then Run([req], first)
    else
      var total := (var inner :- At(first.value, "wf-security-issues"); At(inner, "TotalPages"));
      if total.Err? then Run([req], total.PropagateFailure())
      else if Eq(total.value, Int(1)) then Run([req], first)
      else
        var bound := RangeBound(total.value);
        if bound.Err? then Run([req], bound.PropagateFailure())
        else if 2 < bound.value then Run([req], Err(TypeError(UnsupportedOperand)))
        else Run([req], first)
  }

  /** A data report of three or more pages cannot be read as written. */
  lemma DataReportAsWrittenRaises(srv: Server, url: string, t: int)
    requires ReturnObject(srv(Get(url))).Ok?
    requires var first := ReturnObject(srv(Get(url))).value;
             At(first, "wf-security-issues").Ok?
             && At(At(first, "wf-security-issues").value, "TotalPages") == Ok(Int(t))
    requires t > 2
    ensures DataReportAsWritten(srv, url) == Run([Get(url)], Err(TypeError(UnsupportedOperand)))
  {
  }

  /** With the page number converted to a string, the same report is read
      whole: every page is requested and its issues collected. */
  lemma DataReportMerged(srv: Server, url: string, t: int)
    requires ReturnObject(srv(Get(url))).Ok?
    requires var first := ReturnObject(srv(Get(url))).value;
             IssueList(first, "wf-security-issues").Ok? && IssueList(first, "wf-security-issues").value.List?
             && At(At(first, "wf-security-issues").value, "TotalPages") == Ok(Int(t))
    requires t > 2
    requires PageIssues(srv, url, "wf-security-issues", 2, t).Some?
    ensures var r := MergedReport(srv, url, "wf-security-issues");
            r.out.Ok? && |r.calls| == t - 1
  {
    MergedReportPages(srv, url, "wf-security-issues", t);
    PageRequestsCount(url, 2, t);
  }

  lemma {:induction false} PageRequestsCount(url: string, page: int, end: int)
    ensures |PageRequests(url, page, end)| == if page < end then end - page else 0
    decreases end - page
  {
    if page < end {
      PageRequestsCount(url, page + 1, end);
    }
  }

  /** `reportjsonquery(reportid, issues, summary)`, with the data report
      read as the source writes it (`pagesFixed` false) or with its page
      number converted to a string (`pagesFixed` true). */
  function ReportJsonLookup(c: Client, srv: Server, reportid: Value, issues: Value, summary: Value,
                            pagesFixed: bool): (r: Run<Value>)
    ensures ReportId(c, srv, reportid).out.Err? ==> r == ReportId(c, srv, reportid)
    ensures ReportId(c, srv, reportid).out.Ok? ==>
              var id := ReportId(c, srv, reportid);
              var url := c.baseurl + "reports/" + StrOf(id.out.value);
              var m := match ReportModeOf(issues, summary)
                       case SummaryMode => Object(srv, Get(url))
                       case IssuesMode => MergedReport(srv, url + "/issues", "issues")
                       case DataMode =>
                         if pagesFixed then MergedReport(srv, url + "/data", "wf-security-issues")
                         else DataReportAsWritten(srv, url + "/data");
              r == Run(id.calls + m.calls, m.out)
  {
    var id := ReportId(c, srv, reportid);
    if id.out.Err? then id
    else
      var url := c.baseurl + "reports/" + StrOf(id.out.value);
      var m := match ReportModeOf(issues, summary)
               case SummaryMode => Object(srv, Get(url))
               case IssuesMode => MergedReport(srv, url + "/issues", "issues")
               case DataMode =>
                 if pagesFixed then MergedReport(srv, url + "/data", "wf-security-issues")
                 else DataReportAsWritten(srv, url + "/data");
      Run(id.calls + m.calls, m.out)
  }

  /** `reportjsonquery` as written. It differs from the corrected query
      only for the data report. */
  function ReportJsonQuery(c: Client, srv: Server, reportid: Value, issues: Value, summary: Value): (r: Run<Value>)
    ensures ReportModeOf(issues, summary) != DataMode ==> r == ReportJsonQueryIntended(c, srv, reportid, issues, summary)
  {
    ReportJsonLookup(c, srv, reportid, issues, summary, false)
  }

  /** `reportjsonquery` with the data report's page number converted to a
      string, as the issues report does. */
  function ReportJsonQueryIntended(c: Client, srv: Server, reportid: Value, issues: Value, summary: Value): Run<Value> {
    ReportJsonLookup(c, srv, reportid, issues, summary, true)
  }

  /** For a report given by a non-zero number, `reportjsonquery` sends no
      request to resolve it and then reads the summary once, the issues
      report page by page, and the data report: as written with its first
      request only, corrected page by page like the issues. */
  lemma ReportJsonRequests(c: Client, srv: Server, n: int, issues: Value, summary: Value)
    requires n != 0
    ensures var url := c.baseurl + "reports/" + IntToDecimal(n);
            var r := ReportJsonQuery(c, srv, Int(n), issues, summary);
            var fixed := ReportJsonQueryIntended(c, srv, Int(n), issues, summary);
            (ReportModeOf(issues, summary) == SummaryMode ==>
               r == fixed && r == Run([Get(url)], ReturnObject(srv(Get(url)))))
            && (ReportModeOf(issues, summary) == IssuesMode ==>
                  r == fixed && r == MergedReport(srv, url + "/issues", "issues"))
            && (ReportModeOf(issues, summary) == DataMode ==>
                  r.calls == [Get(url + "/data")]
                  && fixed == MergedReport(srv, url + "/data", "wf-security-issues"))
  {
    assert Classify(Int(n)) == NonZero(n);
    assert ReportId(c, srv, Int(n)) == Pure(Int(n));
  }

  /** A data report of `t > 2` pages: as written the query raises TypeError
      after its first request; corrected it asks for pages 2 to `t - 1`
      and returns every page's issues after the first answer's. */
  lemma DataReportPagesFinding(c: Client, srv: Server, n: int, t: int)
    requires n != 0
    requires var url := c.baseurl + "reports/" + IntToDecimal(n) + "/data";
             ReturnObject(srv(Get(url))).Ok?
             && var first := ReturnObject(srv(Get(url))).value;
                IssueList(first, "wf-security-issues").Ok? && IssueList(first, "wf-security-issues").value.List?
                && At(At(first, "wf-security-issues").value, "TotalPages") == Ok(Int(t))
    requires t > 2
    requires PageIssues(srv, c.baseurl + "reports/" + IntToDecimal(n) + "/data", "wf-security-issues", 2, t).Some?
    ensures var url := c.baseurl + "reports/" + IntToDecimal(n) + "/data";
            var first := ReturnObject(srv(Get(url))).value;
            var fixed := ReportJsonQueryIntended(c, srv, Int(n), Null, Null);
            ReportJsonQuery(c, srv, Int(n), Null, Null) == Run([Get(url)], Err(TypeError(UnsupportedOperand)))
            && fixed.calls == [Get(url)] + PageRequests(url, 2, t)
            && fixed.out.Ok?
            && IssueList(fixed.out.value, "wf-security-issues")
               == Ok(List(IssueList(first, "wf-security-issues").value.elems
                          + PageIssues(srv, url, "wf-security-issues", 2, t).value))
  {
    var url := c.baseurl + "reports/" + IntToDecimal(n) + "/data";
    assert ReportModeOf(Null, Null) == DataMode;
    ReportJsonRequests(c, srv, n, Null, Null);
    DataReportAsWrittenRaises(srv, url, t);
    MergedReportPages(srv, url, "wf-security-issues", t);
    assert c.baseurl + "reports/" + StrOf(Int(n)) + "/data" == url;
  }

  // ---------------------------------------------------------------------
  // folderitemsquery and folderitemquery

  /** The folder id of `folderitemsquery`: a non-zero number is used as is,
      zero is kept, a string that is not a number is looked up by
      `folderName` and its `folderId` converted with `int`; other values
      `int` rejects with ValueError are kept. */
  function ItemsFolderId(c: Client, srv: Server, folder: Value): (r: Run<Value>)
  {
    match Classify(folder)
    case NonZero(n) => Pure(Int(n))
    case Zero => Pure(folder)
    case NotNumeric =>
      if folder.Str? then
        var f := Field(QueryHelper(c, srv, Folders, folder, Str("folderName")), "folderId");
        Run(f.calls, var id :- f.out; IntValue(id))
      else Pure(folder)
    case NotCastable => Fail(TypeError(IntArgument))
  }

  /** `folderitemsquery` takes a non-zero folder number as the id and keeps
      zero, both without a request; a value that `int` rejects with
      ValueError and that is not a string is kept too, and `None` raises
      TypeError. Folder names are `ItemsFolderIdByName`. */
  lemma ItemsFolderIdRequests(c: Client, srv: Server, folder: Value)
    ensures IntOf(folder).IntOk? && IntOf(folder).n != 0 ==>
              ItemsFolderId(c, srv, folder) == Run([], Ok(Int(IntOf(folder).n)))
    ensures IntOf(folder) == IntOk(0) ==> ItemsFolderId(c, srv, folder) == Run([], Ok(folder))
    ensures IntOf(folder) == IntValueError && !folder.Str? ==> ItemsFolderId(c, srv, folder) == Run([], Ok(folder))
    ensures IntOf(folder) == IntTypeError ==> ItemsFolderId(c, srv, folder) == Run([], Err(TypeError(IntArgument)))
  {
  }

  /** A folder name is found by one search of the folder list on
      `folderName`, and its `folderId` is converted with `int`. */
  lemma ItemsFolderIdByName(c: Client, srv: Server, folder: Value)
    requires IntOf(folder) == IntValueError && folder.Str?
    ensures var f := Field(QueryHelper(c, srv, Folders, folder, Str("folderName")), "folderId");
            var r := ItemsFolderId(c, srv, folder);
            AnswersLookup(f, c, srv, Folders, folder, "folderName", "folderId")
            && r.calls == [Get(c.baseurl + Folders)]
            && (f.out.Ok? ==> r.out == IntValue(f.out.value))
            && (f.out.Err? ==> r.out == f.out)
  {
    FieldLookup(c, srv, Folders, folder, "folderName", "folderId");
  }

  /** The `try` block of `folderitemsquery`: the folder items, narrowed to
      one kind by `keyword`, then searched when both `name` and `category`
      are given. */
  function SelectItems(resp: Response, keyword: Value, name: Value, category: Value): (r: Result<Value>)
    ensures r.Ok? ==> resp.json.Some? && At(resp.json.value, "folder-items").Ok?
    ensures r.Ok? && keyword.Null? && (name.Null? || category.Null?) ==>
              r == At(resp.json.value, "folder-items")
  {
    var j :- JsonOf(resp);
    var items :- At(j, "folder-items");
    var kind :- if keyword.Null? then Ok(items) else GetItem(items, keyword);
    if !name.Null? && !category.Null? then
      if keyword.Null? then SearchDict(kind, name, category) else SearchList(kind, name, category)
    else Ok(kind)
  }

  function FolderItemsUrl(c: Client, folderId: Value): string {
    c.baseurl + "folders/" + StrOf(folderId) + "/folderitems"
  }

  /** `folderitemsquery(folderid, keyword, name, category)`. Whatever goes
      wrong in selecting the items (the `except` is bare) falls back to
      `returnobject` of the response. */
  function FolderItemsQuery(c: Client, srv: Server, folder: Value, keyword: Value, name: Value, category: Value): (r: Run<Value>)
    ensures ItemsFolderId(c, srv, folder).out.Err? ==> r == ItemsFolderId(c, srv, folder)
    ensures ItemsFolderId(c, srv, folder).out.Ok? ==>
              var id := ItemsFolderId(c, srv, folder);
              var req := Get(FolderItemsUrl(c, id.out.value));
              r.calls == id.calls + [req]
              && (SelectItems(srv(req), keyword, name, category).Ok? ==>
                    r.out == SelectItems(srv(req), keyword, name, category))
              && (SelectItems(srv(req), keyword, name, category).Err? ==> r.out == ReturnObject(srv(req)))
  {
    var id := ItemsFolderId(c, srv, folder);
    if id.out.Err? then id
    else
      var req := Get(FolderItemsUrl(c, id.out.value));
      var sel := SelectItems(srv(req), keyword, name, category);
      Run(id.calls + [req], if sel.Ok? then sel else ReturnObject(srv(req)))
  }

  /** For a folder given by number, `folderitemsquery` sends exactly one
      request and can only fail with the HTTP error of its answer. */
  lemma FolderItemsOnlyHttpErrors(c: Client, srv: Server, n: int, keyword: Value, name: Value, category: Value)
    requires n != 0
    ensures var r := FolderItemsQuery(c, srv, Int(n), keyword, name, category);
            r.calls == [Get(FolderItemsUrl(c, Int(n)))]
            && (r.out.Err? ==> r.out.error.HttpError?)
  {
  }

  /** For a folder given by number, `folderitemsquery` reads the folder's
      items once and answers what it selects, or else the whole answer
      gated by `returnobject`. */
  lemma FolderItemsByNumber(c: Client, srv: Server, n: int, keyword: Value, name: Value, category: Value)
    requires n != 0
    ensures var req := Get(FolderItemsUrl(c, Int(n)));
            var sel := SelectItems(srv(req), keyword, name, category);
            var r := FolderItemsQuery(c, srv, Int(n), keyword, name, category);
            r.calls == [req] && r.out == if sel.Ok? then sel else ReturnObject(srv(req))
  {
    assert Classify(Int(n)) == NonZero(n);
  }

  /** The folder items of an answer, when it decodes and has them. */
  function FolderItems(resp: Response): Result<Value> {
    var j :- JsonOf(resp);
    At(j, "folder-items")
  }

  /** Without a name search, `folderitemsquery` for a numbered folder
      answers its items, or the kind `keyword` selects, and falls back to
      the whole answer gated by `returnobject` when those cannot be read. */
  lemma FolderItemsQuerySelects(c: Client, srv: Server, n: int, keyword: Value, name: Value, category: Value)
    requires n != 0
    ensures var req := Get(FolderItemsUrl(c, Int(n)));
            var items := FolderItems(srv(req));
            var r := FolderItemsQuery(c, srv, Int(n), keyword, name, category);
            r.calls == [req]
            && (items.Err? ==> r.out == ReturnObject(srv(req)))
            && (items.Ok? && keyword.Null? && (name.Null? || category.Null?) ==> r.out == items)
            && (items.Ok? && !keyword.Null? && (name.Null? || category.Null?) ==>
                  r.out == if GetItem(items.value, keyword).Ok? then GetItem(items.value, keyword) else ReturnObject(srv(req)))
  {
    FolderItemsByNumber(c, srv, n, keyword, name, category);
  }

  /** With a name search, `folderitemsquery` for a numbered folder answers
      the first matching item, in key order over all kinds when no kind is
      selected, or None when every item misses. */
  lemma FolderItemsQueryFinds(c: Client, srv: Server, n: int, keyword: Value, name: Value, category: Value)
    requires n != 0 && !name.Null? && !category.Null?
    ensures var req := Get(FolderItemsUrl(c, Int(n)));
            var items := FolderItems(srv(req));
            var r := FolderItemsQuery(c, srv, Int(n), keyword, name, category);
            var kind := if keyword.Null? then items else (var v :- items; GetItem(v, keyword));
            var nodes := if keyword.Null? && kind.Ok? && kind.value.Dict? && AllLists(kind.value.entries)
                         then Flatten(kind.value.entries)
                         else if kind.Ok? && kind.value.List? then kind.value.elems else [];
            r.calls == [req]
            && ((keyword.Null? && kind.Ok? && kind.value.Dict? && AllLists(kind.value.entries))
                || (!keyword.Null? && kind.Ok? && kind.value.List?) ==>
                  (forall k :: FirstHit(nodes, name, category, k) ==> r.out == Ok(nodes[k]))
                  && (AllMiss(nodes, name, category) ==> r.out == Ok(Null)))
  {
    FolderItemsByNumber(c, srv, n, keyword, name, category);
    var req := Get(FolderItemsUrl(c, Int(n)));
    var items := FolderItems(srv(req));
    if items.Ok? {
      if keyword.Null? {
        assert SelectItems(srv(req), keyword, name, category) == SearchDict(items.value, name, category);
        SearchDictFirst(items.value, name, category);
      } else if GetItem(items.value, keyword).Ok? {
        var kind := GetItem(items.value, keyword).value;
        assert SelectItems(srv(req), keyword, name, category) == SearchList(kind, name, category);
        SearchListFirst(kind, name, category);
      }
    }
  }

  datatype ItemMode = OptionsMode | ReportsMode | ScanlogMode | StatisticsMode | PlainMode

  /** Which endpoint `folderitemquery` reads: the one whose flag alone is
      truthy, the item itself otherwise. */
  function ItemModeOf(options: Value, reports: Value, scanlog: Value, statistics: Value): (m: ItemMode)
    ensures m == OptionsMode <==> Truthy(options) && !Truthy(reports) && !Truthy(scanlog) && !Truthy(statistics)
    ensures m == ReportsMode <==> !Truthy(options) && Truthy(reports) && !Truthy(scanlog) && !Truthy(statistics)
    ensures m == ScanlogMode <==> !Truthy(options) && !Truthy(reports) && Truthy(scanlog) && !Truthy(statistics)
    ensures m == StatisticsMode <==> !Truthy(options) && !Truthy(reports) && !Truthy(scanlog) && Truthy(statistics)
  {
    if Truthy(options) && !(Truthy(reports) || Truthy(scanlog) || Truthy(statistics)) then OptionsMode
    else if Truthy(reports) && !(Truthy(options) || Truthy(scanlog) || Truthy(statistics)) then ReportsMode
    else if Truthy(scanlog) && !(Truthy(options) || Truthy(reports) || Truthy(statistics)) then ScanlogMode
    else if Truthy(statistics) && !(Truthy(options) || Truthy(reports) || Truthy(scanlog)) then StatisticsMode
    else PlainMode
  }

  function ItemSuffix(m: ItemMode): string {
    match m
    case OptionsMode => "/options"
    case ReportsMode => "/reports"
    case ScanlogMode => "/scanlog"
    case StatisticsMode => "/statistics"
    case PlainMode => ""
  }

  /** A report named `Security Issues`. */
  predicate IsSecurity(x: Value) {
    At(x, "name") == Ok(Str("Security Issues"))
  }

  /** Report `k` is the first security report. */
  predicate FirstSecurityAt(reps: seq<Value>, k: int) {
    0 <= k < |reps| && IsSecurity(reps[k]) && forall j :: 0 <= j < k ==> !IsSecurity(reps[j])
  }

  /** `[rep for rep in reports if rep['name'] == 'Security Issues']`. */
  function SecurityReports(reps: seq<Value>): (r: Result<seq<Value>>)
    ensures r.Ok? ==> forall x :: x in r.value ==> x in reps && IsSecurity(x)
    ensures r.Ok? ==> forall x :: x in reps && IsSecurity(x) ==> x in r.value
    ensures r.Ok? <==> forall i :: 0 <= i < |reps| ==> At(reps[i], "name").Ok?
  {
    if reps == [] then Ok([])
    else
      var n :- At(reps[0], "name");
      var rest :- SecurityReports(reps[1..]);
      EqStr(n, "Security Issues");
      assert forall i :: 1 <= i < |reps| ==> reps[i] == reps[1..][i - 1];
      if Eq(n, Str("Security Issues")) then Ok([reps[0]] + rest) else Ok(rest)
  }

  /** One report of the comprehension: a report without a name raises, a
      security report is kept, any other is dropped. */
  lemma SecurityReportsStep(reps: seq<Value>)
    requires reps != []
    ensures At(reps[0], "name").Err? ==> SecurityReports(reps) == Err(At(reps[0], "name").error)
    ensures At(reps[0], "name").Ok? && SecurityReports(reps[1..]).Err? ==> SecurityReports(reps) == SecurityReports(reps[1..])
    ensures At(reps[0], "name").Ok? && SecurityReports(reps[1..]).Ok? ==>
              SecurityReports(reps) == Ok((if IsSecurity(reps[0]) then [reps[0]] else []) + SecurityReports(reps[1..]).value)
  {
    if At(reps[0], "name").Ok? {
      EqStr(At(reps[0], "name").value, "Security Issues");
      if SecurityReports(reps[1..]).Ok? && !IsSecurity(reps[0]) {
        assert [] + SecurityReports(reps[1..]).value == SecurityReports(reps[1..]).value;
      }
    }
  }

  /** The comprehension keeps the order of the reports: filtering a
      concatenation concatenates the filtered parts, and one report is kept
      exactly when it is a security report. */
  lemma {:induction false} SecurityReportsKeepOrder(a: seq<Value>, b: seq<Value>)
    ensures SecurityReports(a + b).Ok? <==> SecurityReports(a).Ok? && SecurityReports(b).Ok?
    ensures SecurityReports(a + b).Ok? ==> SecurityReports(a + b).value == SecurityReports(a).value + SecurityReports(b).value
    ensures |a| == 1 && At(a[0], "name").Ok? ==> SecurityReports(a) == Ok(if IsSecurity(a[0]) then a else [])
    decreases |a|
  {
    if a == [] {
      assert a + b == b;
    } else {
      assert (a + b)[1..] == a[1..] + b;
      assert (a + b)[0] == a[0];
      SecurityReportsKeepOrder(a[1..], b);
      SecurityReportsStep(a);
      SecurityReportsStep(a + b);
      if |a| == 1 {
        assert a[1..] == [] && a == [a[0]];
        assert SecurityReports(a[1..]) == Ok([]);
        assert (if IsSecurity(a[0]) then [a[0]] else []) + [] == (if IsSecurity(a[0]) then a else []);
      }
      if SecurityReports(a + b).Ok? {
        var head: seq<Value> := if IsSecurity(a[0]) then [a[0]] else [];
        AppendAssociates(head, SecurityReports(a[1..]).value, SecurityReports(b).value);
      }
    }
  }

  /** The first report of the filtered list is the first security report. */
  lemma {:induction false} SecurityReportsFirst(reps: seq<Value>, k: int)
    requires FirstSecurityAt(reps, k) && SecurityReports(reps).Ok?
    ensures SecurityReports(reps).value != [] && SecurityReports(reps).value[0] == reps[k]
    decreases k
  {
    SecurityReportsStep(reps);
    if k > 0 {
      forall j | 0 <= j < k - 1
        ensures !IsSecurity(reps[1..][j])
      {
        assert reps[1..][j] == reps[j + 1];
      }
      SecurityReportsFirst(reps[1..], k - 1);
    }
  }

  /** The reports listed in a folder item's `reports` answer. */
  function ReportsOf(resp: Response): Result<seq<Value>> {
    var j :- JsonOf(resp);
    var reports :- At(j, "reports");
    var report :- At(reports, "report");
    Iterate(report)
  }

  /** The `reports` branch: the first report named `Security Issues`,
      returned as is when it is a dict. */
  function SecurityReport(resp: Response): (r: Result<Value>)
    ensures r.Ok? ==> r.value.Dict? && IsSecurity(r.value)
  {
    var reps :- ReportsOf(resp);
    var security :- SecurityReports(reps);
    if security == [] then Err(IndexError)
    else if security[0].Dict? then Ok(security[0])
    else Err(AttributeError("status_code"))
  }

  /** When every listed report has a name, the `reports` branch answers the
      first security report (AttributeError when it is not a dict), and
      IndexError when there is none; a report without a name raises its
      KeyError. Whatever it answers is the first security report. */
  lemma SecurityReportIsFirst(resp: Response)
    ensures ReportsOf(resp).Err? ==> SecurityReport(resp) == Err(ReportsOf(resp).error)
    ensures ReportsOf(resp).Ok? ==>
              var reps := ReportsOf(resp).value;
              (SecurityReports(reps).Err? ==> SecurityReport(resp) == Err(SecurityReports(reps).error))
              && (SecurityReports(reps).Ok? ==>
                    (forall k :: FirstSecurityAt(reps, k) ==>
                       SecurityReport(resp) == if reps[k].Dict? then Ok(reps[k]) else Err(AttributeError("status_code")))
                    && ((forall i :: 0 <= i < |reps| ==> !IsSecurity(reps[i])) ==> SecurityReport(resp) == Err(IndexError)))
    ensures SecurityReport(resp).Ok? ==>
              ReportsOf(resp).Ok? && exists k :: FirstSecurityAt(ReportsOf(resp).value, k) && SecurityReport(resp).value == ReportsOf(resp).value[k]
  {
    if ReportsOf(resp).Ok? && SecurityReports(ReportsOf(resp).value).Ok? {
      var reps := ReportsOf(resp).value;
      forall k | FirstSecurityAt(reps, k)
        ensures SecurityReport(resp) == if reps[k].Dict? then Ok(reps[k]) else Err(AttributeError("status_code"))
      {
        SecurityReportsFirst(reps, k);
      }
      if SecurityReports(reps).value != [] {
        var x := SecurityReports(reps).value[0];
        assert x in reps && IsSecurity(x);
        var k := FirstSecurityIndex(reps, x);
        SecurityReportsFirst(reps, k);
      }
    }
  }

  /** The position of the first security report, given that there is one. */
  lemma FirstSecurityIndex(reps: seq<Value>, x: Value) returns (k: int)
    requires x in reps && IsSecurity(x)
    ensures FirstSecurityAt(reps, k)
  {
    k := 0;
    while !IsSecurity(reps[k])
      invariant 0 <= k < |reps|
      invariant forall j :: 0 <= j < k ==> !IsSecurity(reps[j])
      invariant exists i :: k <= i < |reps| && IsSecurity(reps[i])
      decreases |reps| - k
    {
      k := k + 1;
    }
  }

  /** One folder of the name search of `folderitemquery`: the folder's items
      are searched for the value; a hit replaces it by the item's `id`, a
      miss keeps it. */
  function ItemStep(c: Client, srv: Server, folder: Value, item: Value): Run<Value> {
    var fid := At(folder, "folderId");
    if fid.Err? then Fail(fid.error)
    else
      var p := FolderItemsQuery(c, srv, fid.value, Null, item, Str("name"));
      if p.out.Err? then Run(p.calls, Err(p.out.error))
      else Run(p.calls, if p.out.value.Null? then Ok(item) else (var id :- At(p.out.value, "id"); IntValue(id)))
  }

  /** Every folder of the search is looked at without raising. */
  predicate NoStepRaises(c: Client, srv: Server, folders: seq<Value>, item: Value)
    decreases |folders|
  {
    folders == []
    || (ItemStep(c, srv, folders[0], item).out.Ok?
        && NoStepRaises(c, srv, folders[1..], ItemStep(c, srv, folders[0], item).out.value))
  }

  /** The name search of `folderitemquery`, folder by folder; later folders
      are searched for the id an earlier hit produced. The loop has no
      `break`, so its `else` raises ValueError however the search went,
      unless a folder raised first. */
  function ItemSearch(c: Client, srv: Server, folders: seq<Value>, item: Value): (r: Run<Value>)
    ensures r.out.Err?
    ensures NoStepRaises(c, srv, folders, item) ==> r.out == Err(ValueError(NotFolderItemName))
    decreases |folders|
  {
    if folders == [] then Fail(ValueError(NotFolderItemName))
    else
      var step := ItemStep(c, srv, folders[0], item);
      if step.out.Err? then step
      else
        var rest := ItemSearch(c, srv, folders[1..], step.out.value);
        Run(step.calls + rest.calls, rest.out)
  }

  /** The folder item id of `folderitemquery`. */
  function FolderItemId(c: Client, srv: Server, item: Value): (r: Run<Value>)
    ensures Classify(item).NonZero? ==> r == Pure(Int(Classify(item).n))
    ensures Classify(item) == Zero || (Classify(item) == NotNumeric && !item.Str?) ==> r == Pure(item)
    ensures Classify(item) == NotNumeric && item.Str? ==> r.out.Err?
    ensures Classify(item) == NotCastable ==> r == Fail(TypeError(IntArgument))
  {
    match Classify(item)
    case NonZero(n) => Pure(Int(n))
    case Zero => Pure(item)
    case NotNumeric =>
      if item.Str? then
        var folders := QueryHelper(c, srv, Folders, Null, Null);
        if folders.out.Err? then folders
        else
          var fs := Iterate(folders.out.value);
          if fs.Err? then Run(folders.calls, Err(fs.error))
          else
            var s := ItemSearch(c, srv, fs.value, item);
            Run(folders.calls + s.calls, s.out)
      else Pure(item)
    case NotCastable => Fail(TypeError(IntArgument))
  }

  /** What `folderitemquery` makes of the answer: the security report in
      the `reports` mode, the answer gated by `returnobject` otherwise. */
  function ItemAnswer(resp: Response, mode: ItemMode): Result<Value> {
    if mode == ReportsMode then SecurityReport(resp) else ReturnObject(resp)
  }

  /** `folderitemquery(folderitemid, options, reports, scanlog, statistics)`. */
  function FolderItemQuery(c: Client, srv: Server, item: Value, options: Value, reports: Value,
                           scanlog: Value, statistics: Value): (r: Run<Value>)
    ensures FolderItemId(c, srv, item).out.Err? ==> r == FolderItemId(c, srv, item)
    ensures FolderItemId(c, srv, item).out.Ok? ==>
              var id := FolderItemId(c, srv, item);
              var mode := ItemModeOf(options, reports, scanlog, statistics);
              var req := Get(c.baseurl + "folderitems/" + StrOf(id.out.value) + ItemSuffix(mode));
              r.calls == id.calls + [req] && r.out == ItemAnswer(srv(req), mode)
  {
    var id := FolderItemId(c, srv, item);
    if id.out.Err? then id
    else
      var mode := ItemModeOf(options, reports, scanlog, statistics);
      var req := Get(c.baseurl + "folderitems/" + StrOf(id.out.value) + ItemSuffix(mode));
      Run(id.calls + [req], ItemAnswer(srv(req), mode))
  }

  /** A folder item named by a string that is not a number is never found:
      `folderitemquery` and so `reportjsonquery` always raise for it. */
  lemma ItemNameAlwaysRaises(c: Client, srv: Server, name: string, issues: Value, summary: Value)
    requires Classify(Str(name)) == NotNumeric
    ensures FolderItemQuery(c, srv, Str(name), Bool(false), Bool(true), Bool(false), Bool(false)).out.Err?
    ensures ReportJsonQuery(c, srv, Str(name), issues, summary).out.Err?
  {
  }

  /** `folderitemquery` reads one endpoint of the item: a non-zero number,
      zero, or a value `int` rejects with ValueError other than a string is
      put in the URL as it is, with no other request. A string that is not
      a number first reads the folder list and then always raises. */
  lemma FolderItemQueryRequests(c: Client, srv: Server, item: Value, options: Value, reports: Value,
                                scanlog: Value, statistics: Value)
    ensures var mode := ItemModeOf(options, reports, scanlog, statistics);
            var r := FolderItemQuery(c, srv, item, options, reports, scanlog, statistics);
            (IntOf(item).IntOk? && IntOf(item).n != 0 ==>
               var req := Get(c.baseurl + "folderitems/" + IntToDecimal(IntOf(item).n) + ItemSuffix(mode));
               r == Run([req], ItemAnswer(srv(req), mode)))
            && (IntOf(item) == IntOk(0) || (IntOf(item) == IntValueError && !item.Str?) ==>
                  var req := Get(c.baseurl + "folderitems/" + StrOf(item) + ItemSuffix(mode));
                  r == Run([req], ItemAnswer(srv(req), mode)))
            && (IntOf(item) == IntValueError && item.Str? ==>
                  r.out.Err? && |r.calls| >= 1 && r.calls[0] == Get(c.baseurl + Folders))
            && (IntOf(item) == IntTypeError ==> r == Run([], Err(TypeError(IntArgument))))
  {
    if IntOf(item) == IntValueError && item.Str? {
      ItemNameReadsFolders(c, srv, item);
    }
  }

  /** A folder item name that is not a number is searched for in the folder
      list first. */
  lemma ItemNameReadsFolders(c: Client, srv: Server, item: Value)
    requires IntOf(item) == IntValueError && item.Str?
    ensures var r := FolderItemId(c, srv, item);
            |r.calls| >= 1 && r.calls[0] == Get(c.baseurl + Folders)
  {
    QueryHelperFindsFirst(c, srv, Folders, Null, Null);
    assert c.baseurl + Folders + "" == c.baseurl + Folders;
  }

  /** `reportjsonquery` takes a non-zero number as the report id and keeps
      zero without a request. Anything else names a folder item: a string
      that is not a number is never found, so the query raises. Other
      values are `ReportIdOfItem`. */
  lemma ReportIdRequests(c: Client, srv: Server, reportid: Value)
    ensures IntOf(reportid).IntOk? && IntOf(reportid).n != 0 ==>
              ReportId(c, srv, reportid) == Run([], Ok(Int(IntOf(reportid).n)))
    ensures IntOf(reportid) == IntOk(0) ==> ReportId(c, srv, reportid) == Run([], Ok(reportid))
    ensures IntOf(reportid) == IntTypeError ==> ReportId(c, srv, reportid) == Run([], Err(TypeError(IntArgument)))
    ensures IntOf(reportid) == IntValueError && reportid.Str? ==> ReportId(c, srv, reportid).out.Err?
  {
    var mode := ItemModeOf(Bool(false), Bool(true), Bool(false), Bool(false));
    assert mode == ReportsMode;
    FolderItemQueryRequests(c, srv, reportid, Bool(false), Bool(true), Bool(false), Bool(false));
  }

  /** A folder item that is not a string is put in the item's `reports`
      URL, read once, and replaced by the `int` of the `id` of the first
      security report there; a success always comes from that report. */
  lemma ReportIdOfItem(c: Client, srv: Server, reportid: Value)
    requires IntOf(reportid) == IntValueError && !reportid.Str?
    ensures var req := Get(c.baseurl + "folderitems/" + StrOf(reportid) + "/reports");
            var r := ReportId(c, srv, reportid);
            var reps := ReportsOf(srv(req));
            r.calls == [req]
            && (reps.Ok? && SecurityReports(reps.value).Ok? ==>
                  forall k :: FirstSecurityAt(reps.value, k) && reps.value[k].Dict? ==>
                    r.out == (var id :- At(reps.value[k], "id"); IntValue(id)))
            && (r.out.Ok? ==> reps.Ok? && exists k :: FirstSecurityAt(reps.value, k) && At(reps.value[k], "id").Ok?)
  {
    var mode := ItemModeOf(Bool(false), Bool(true), Bool(false), Bool(false));
    assert mode == ReportsMode;
    FolderItemQueryRequests(c, srv, reportid, Bool(false), Bool(true), Bool(false), Bool(false));
    var req := Get(c.baseurl + "folderitems/" + StrOf(reportid) + "/reports");
    var item := FolderItemQuery(c, srv, reportid, Bool(false), Bool(true), Bool(false), Bool(false));
    assert item == Run([req], SecurityReport(srv(req)));
    assert Classify(reportid) == NotNumeric;
    var r := ReportId(c, srv, reportid);
    assert r.calls == [req];
    assert item.out.Err? ==> r.out == item.out;
    assert item.out.Ok? ==> r.out == (var id :- At(item.out.value, "id"); IntValue(id));
    SecurityReportIsFirst(srv(req));
    if r.out.Ok? {
      var reps := ReportsOf(srv(req)).value;
      var k :| FirstSecurityAt(reps, k) && item.out.value == reps[k];
      assert At(reps[k], "id").Ok?;
    }
  }

  // ---------------------------------------------------------------------
  // issuequery

  /** `.decode('utf-8')` of a body. Bytes that are not UTF-8 raise
      UnicodeDecodeError, a ValueError; anything but bytes has no `decode`. */
  function Decode(v: Value): (r: Result<Value>)
    ensures r.Ok? <==> v.Bytes? && Utf8.Decode(v.data).Some?
    ensures r.Ok? ==> r.value.Str? && Utf8.Encode(r.value.s) == v.data
    ensures v.Bytes? && r.Err? ==> r.error == ValueError(Utf8Decode)
    ensures !v.Bytes? ==> r == Err(AttributeError("decode"))
  {
    if !v.Bytes? then Err(AttributeError("decode"))
    else
      match Utf8.Decode(v.data)
      case Some(s) => Utf8.EncodeOfDecode(v.data); Ok(Str(s))
      case None => Err(ValueError(Utf8Decode))
  }

  /** The length of the run of ASCII digits `s` starts with. */
  function DigitRun(s: string): (n: nat)
    ensures n <= |s|
    ensures forall i :: 0 <= i < n ==> IsDigit(s[i])
    ensures n < |s| ==> !IsDigit(s[n])
  {
    if s == [] || !IsDigit(s[0]) then 0 else 1 + DigitRun(s[1..])
  }

  /** A match of `<id>` digits `</id>` at the start of `t`: the number it
      holds and the length of the match. */
  function TagAt(t: string): (m: Option<(nat, nat)>)
    ensures m.Some? ==> 0 < m.value.1 <= |t|
  {
    if |t| < 4 || t[..4] != "<id>" then None
    else
      var k := DigitRun(t[4..]);
      if k == 0 || |t| < 9 + k || t[4 + k..9 + k] != "</id>" then None
      else Some((DigitsValue(t[4..4 + k]), 9 + k))
  }

  /** The numbers of every non-overlapping `<id>` digits `</id>` tag of
      `t`, left to right, as `re.finditer` finds them. */
  function IdTags(t: string): seq<nat>
    decreases |t|
  {
    if t == [] then []
    else
      match TagAt(t)
      case Some(m) => [m.0] + IdTags(t[m.1..])
      case None => IdTags(t[1..])
  }

  /** The tags that render `ns`, one after the other. */
  function Tags(ns: seq<nat>): string {
    if ns == [] then "" else "<id>" + NatToDecimal(ns[0]) + "</id>" + Tags(ns[1..])
  }

  lemma TagAtTag(n: nat, rest: string)
    ensures TagAt("<id>" + NatToDecimal(n) + "</id>" + rest) == Some((n, 9 + |NatToDecimal(n)|))
  {
    var d := NatToDecimal(n);
    var t := "<id>" + d + "</id>" + rest;
    assert t[..4] == "<id>";
    assert t[4..] == d + "</id>" + rest;
    assert (d + "</id>" + rest)[|d|] == '<';
    assert DigitRun(t[4..]) == |d| by {
      DigitRunPrefix(d, "</id>" + rest);
      assert d + "</id>" + rest == d + ("</id>" + rest);
    }
    assert t[4 + |d|..9 + |d|] == "</id>";
    assert t[4..4 + |d|] == d;
    NatToDecimalValue(n);
  }

  lemma {:induction false} DigitRunPrefix(d: string, rest: string)
    requires forall i :: 0 <= i < |d| ==> IsDigit(d[i])
    requires rest != [] && !IsDigit(rest[0])
    ensures DigitRun(d + rest) == |d|
    decreases |d|
  {
    if d != [] {
      assert (d + rest)[1..] == d[1..] + rest;
      DigitRunPrefix(d[1..], rest);
    } else {
      assert d + rest == rest;
    }
  }

  /** Reading the tags back gives the numbers that were written. */
  lemma {:induction false} IdTagsOfTags(ns: seq<nat>)
    ensures IdTags(Tags(ns)) == ns
  {
    if ns != [] {
      var d := NatToDecimal(ns[0]);
      var t := Tags(ns);
      assert t == "<id>" + d + "</id>" + Tags(ns[1..]);
      TagAtTag(ns[0], Tags(ns[1..]));
      assert t[9 + |d|..] == Tags(ns[1..]);
      IdTagsOfTags(ns[1..]);
    }
  }

  /** The issue ids of a report worth fetching: those other than the report
      id itself and above 1000, in the order they appear. */
  function FollowUps(ids: seq<nat>, reportid: Value): (r: seq<nat>)
    ensures forall e :: e in r <==> e in ids && !Eq(Int(e), reportid) && e > 1000
    ensures |r| <= |ids|
  {
    if ids == [] then []
    else if !Eq(Int(ids[0]), reportid) && ids[0] > 1000 then [ids[0]] + FollowUps(ids[1..], reportid)
    else FollowUps(ids[1..], reportid)
  }

  /** The filter keeps the order of the ids: filtering a concatenation
      concatenates the filtered parts, and one id is kept exactly when it
      is above 1000 and not the report id. */
  lemma {:induction false} FollowUpsKeepOrder(a: seq<nat>, b: seq<nat>, reportid: Value)
    ensures FollowUps(a + b, reportid) == FollowUps(a, reportid) + FollowUps(b, reportid)
    ensures |a| == 1 ==> FollowUps(a, reportid) == if !Eq(Int(a[0]), reportid) && a[0] > 1000 then a else []
    decreases |a|
  {
    if a == [] {
      assert a + b == b;
    } else {
      assert (a + b)[1..] == a[1..] + b;
      assert (a + b)[0] == a[0];
      FollowUpsKeepOrder(a[1..], b, reportid);
      if |a| == 1 {
        assert a[1..] == [] && a == [a[0]];
      }
      if !Eq(Int(a[0]), reportid) && a[0] > 1000 {
        AppendAssociates([a[0]], FollowUps(a[1..], reportid), FollowUps(b, reportid));
      }
    }
  }

  /** One issue of a report, by the XML service. */
  function ReportIssue(c: Client, srv: Server, reportid: Value, issueid: Value): Run<Value> {
    Html(srv, Get(c.scanbaseurl + "services/reports/" + StrOf(reportid) + "/issues/" + StrOf(issueid)))
  }

  /** `issuequery(reportid, issueid=ent).decode('utf-8')` for every follow-up id. */
  function ReportIssueTexts(c: Client, srv: Server, reportid: Value, ids: seq<nat>): (r: Run<seq<Value>>)
    ensures r.out.Ok? ==> |r.out.value| == |ids| && |r.calls| == |ids|
    ensures r.out.Ok? ==> forall i :: 0 <= i < |ids| ==> r.calls[i] == ReportIssue(c, srv, reportid, Int(ids[i])).calls[0]
    ensures r.out.Ok? ==> forall i :: 0 <= i < |ids| ==>
                            var one := ReportIssue(c, srv, reportid, Int(ids[i])).out;
                            one.Ok? && Decode(one.value) == Ok(r.out.value[i])
    decreases |ids|
  {
    if ids == [] then Pure([])
    else
      var one := ReportIssue(c, srv, reportid, Int(ids[0]));
      var text := (var body :- one.out; Decode(body));
      if text.Err? then Run(one.calls, text.PropagateFailure())
      else
        var rest := ReportIssueTexts(c, srv, reportid, ids[1..]);
        var r := Run(one.calls + rest.calls, if rest.out.Ok? then Ok([text.value] + rest.out.value) else rest.out);
        assert r.out.Ok? ==> forall i :: 1 <= i < |ids| ==>
                 r.calls[i] == rest.calls[i - 1] && ids[i] == ids[1..][i - 1] && r.out.value[i] == rest.out.value[i - 1];
        r
  }

  /** The application id of `issuequery`: a non-zero number is used as is,
      zero is kept, a name is looked up and replaced by its `id`. */
  function AppId(c: Client, srv: Server, app: Value): (r: Run<Value>)
    ensures Classify(app).NonZero? ==> r == Pure(Int(Classify(app).n))
    ensures Classify(app) == Zero ==> r == Pure(app)
    ensures Classify(app) == NotNumeric ==> r == Field(QueryHelper(c, srv, Applications, app, Str("name")), "id")
    ensures Classify(app) == NotCastable ==> r == Fail(TypeError(IntArgument))
  {
    match Classify(app)
    case NonZero(n) => Pure(Int(n))
    case Zero => Pure(app)
    case NotNumeric => Field(QueryHelper(c, srv, Applications, app, Str("name")), "id")
    case NotCastable => Fail(TypeError(IntArgument))
  }

  /** `issuequery` takes a non-zero application number as the id and keeps
      zero, both without a request, and `None` raises TypeError.
      Application names are `AppIdByName`. */
  lemma AppIdRequests(c: Client, srv: Server, app: Value)
    ensures IntOf(app).IntOk? && IntOf(app).n != 0 ==> AppId(c, srv, app) == Run([], Ok(Int(IntOf(app).n)))
    ensures IntOf(app) == IntOk(0) ==> AppId(c, srv, app) == Run([], Ok(app))
    ensures IntOf(app) == IntTypeError ==> AppId(c, srv, app) == Run([], Err(TypeError(IntArgument)))
  {
  }

  /** An application name is replaced by the `id` of the application found
      by one search of the application list on `name`. */
  lemma AppIdByName(c: Client, srv: Server, app: Value)
    requires IntOf(app) == IntValueError
    ensures AnswersLookup(AppId(c, srv, app), c, srv, Applications, app, "name", "id")
  {
    FieldLookup(c, srv, Applications, app, "name", "id");
  }

  /** The report branch of `issuequery`: every issue a report lists, or the
      one asked for. */
  function ReportIssues(c: Client, srv: Server, reportid: Value, issueid: Value): (r: Run<Value>)
    ensures !issueid.Null? ==> r == ReportIssue(c, srv, reportid, issueid)
    ensures issueid.Null? ==>
              var report := ReportQuery(c, srv, reportid, Bool(true));
              |r.calls| >= 1 && r.calls[..1] == report.calls
              && (r.out.Ok? ==>
                    report.out.Ok? && Decode(report.out.value).Ok?
                    && var ids := FollowUps(IdTags(Decode(report.out.value).value.s), reportid);
                       r.out.value.List? && |r.out.value.elems| == |ids| && |r.calls| == 1 + |ids|
                       && forall i :: 0 <= i < |ids| ==>
                            var one := ReportIssue(c, srv, reportid, Int(ids[i])).out;
                            one.Ok? && Decode(one.value) == Ok(r.out.value.elems[i]))
  {
    if !issueid.Null? then ReportIssue(c, srv, reportid, issueid)
    else
      var report := ReportQuery(c, srv, reportid, Bool(true));
      var text := (var body :- report.out; Decode(body));
      if text.Err? then Run(report.calls, text.PropagateFailure())
      else
        var ids := FollowUps(IdTags(text.value.s), reportid);
        var texts := ReportIssueTexts(c, srv, reportid, ids);
        Run(report.calls + texts.calls, if texts.out.Ok? then Ok(List(texts.out.value)) else texts.out.PropagateFailure())
  }

  /** The application branch of `issuequery`: the application's issues of
      every severity (the `High` it passes asks for high and all lower
      severities), or one issue's details. */
  function AppIssues(c: Client, srv: Server, appid: Value, issueid: Value, zipfile: Value, issuecount: Value): (r: Run<Value>)
    ensures AppId(c, srv, appid).out.Err? ==> r == AppId(c, srv, appid)
    ensures AppId(c, srv, appid).out.Ok? ==>
              var id := AppId(c, srv, appid);
              var aid := id.out.value;
              var rest :=
                if issueid.Null? then AppIssueQuery(c, srv, aid, Str("High"), Str("Severity"), issuecount, Bool(false))
                else if Eq(zipfile, Bool(false)) then
                  Object(srv, Get(c.baseurl + "issues/" + StrOf(issueid) + "/application/" + StrOf(aid)))
                else
                  Object(srv, Get(c.baseurl + "issues/details_v2?appId=" + StrOf(aid) + "&ids=[\"" + StrOf(issueid) + "\"]"));
              r == Run(id.calls + rest.calls, rest.out)
  {
    var id := AppId(c, srv, appid);
    if id.out.Err? then id
    else
      var aid := id.out.value;
      var rest :=
        if issueid.Null? then AppIssueQuery(c, srv, aid, Str("High"), Str("Severity"), issuecount, Bool(false))
        else if Eq(zipfile, Bool(false)) then
          Object(srv, Get(c.baseurl + "issues/" + StrOf(issueid) + "/application/" + StrOf(aid)))
        else
          Object(srv, Get(c.baseurl + "issues/details_v2?appId=" + StrOf(aid) + "&ids=[\"" + StrOf(issueid) + "\"]"));
      Run(id.calls + rest.calls, rest.out)
  }

  /** `issuequery(reportid, appid, issueid, zipfile, issuecount)`. A report
      wins over an application; a zipped report is refused; with neither,
      the ValueError is returned, not raised. */
  function IssueQuery(c: Client, srv: Server, reportid: Value, appid: Value, issueid: Value,
                      zipfile: Value, issuecount: Value): (r: Run<Value>)
    ensures !reportid.Null? && !Eq(zipfile, Bool(false)) ==> r == Fail(TypeError(ReportZip))
    ensures !reportid.Null? && Eq(zipfile, Bool(false)) ==> r == ReportIssues(c, srv, reportid, issueid)
    ensures reportid.Null? && !appid.Null? ==> r == AppIssues(c, srv, appid, issueid, zipfile, issuecount)
    ensures reportid.Null? && appid.Null? ==> r == Pure(Exc(ValueError(NoReportOrApp)))
  {
    if !reportid.Null? then
      if !Eq(zipfile, Bool(false)) then Fail(TypeError(ReportZip))
      else ReportIssues(c, srv, reportid, issueid)
    else if !appid.Null? then AppIssues(c, srv, appid, issueid, zipfile, issuecount)
    else Pure(Exc(ValueError(NoReportOrApp)))
  }

  /** The issue list of one application asks for high, medium and low
      severity issues. */
  lemma HighMeansAllSeverities()
    ensures SeverityList(Str("High"), Bool(false)) == AllSeverities
    ensures SeverityClause(AllSeverities) == ",Severity=High,Severity=Medium,Severity=Low"
  {
    HighIsDefault();
    ClauseOfAll();
  }

  lemma HighIsDefault()
    ensures Severities(Str("High")) == AllSeverities
  {
    assert "High"[0] != "Medium"[0] && "High"[0] != "medium"[0] && "High"[0] != "Low"[0] && "High"[0] != "low"[0];
  }

  lemma ClauseOfAll()
    ensures SeverityClause(AllSeverities) == ",Severity=High,Severity=Medium,Severity=Low"
  {
    assert AllSeverities[1..] == ["Medium", "Low"];
    assert ["Medium", "Low"][1..] == ["Low"];
    assert ["Low"][1..] == [];
  }

  /** For an application given by number, `issuequery` without an issue
      looks the number up to get the application's name and asks for its
      issues of every severity, sorted by severity, with the `Range` header
      `items=0-<issuecount>`. */
  lemma AppIssuesListRequests(c: Client, srv: Server, n: int, zipfile: Value, issuecount: Value)
    requires n != 0
    ensures var r := AppIssues(c, srv, Int(n), Null, zipfile, issuecount);
            var name := AppName(c, srv, Int(n));
            r.calls[..1] == [Get(c.baseurl + Applications)]
            && (name.out.Ok? && name.out.value.Str? ==>
                  r.calls == [Get(c.baseurl + Applications),
                              GetRanged(IssueListUrl(c, name.out.value.s, AllSeverities, "Severity"),
                                        "items=0-" + StrOf(issuecount))])
  {
    assert Classify(Int(n)) == NonZero(n);
    assert AppId(c, srv, Int(n)) == Pure(Int(n));
    HighQueryRequests(c, srv, n, issuecount);
  }

  /** The issue query for every severity of an application given by number. */
  lemma HighQueryRequests(c: Client, srv: Server, n: int, issuecount: Value)
    requires n != 0
    ensures var q := AppIssueQuery(c, srv, Int(n), Str("High"), Str("Severity"), issuecount, Bool(false));
            var name := AppName(c, srv, Int(n));
            q.calls[..1] == [Get(c.baseurl + Applications)]
            && (name.out.Ok? && name.out.value.Str? ==>
                  q.calls == [Get(c.baseurl + Applications),
                              GetRanged(IssueListUrl(c, name.out.value.s, AllSeverities, "Severity"),
                                        "items=0-" + StrOf(issuecount))])
  {
    HighMeansAllSeverities();
    var q := AppIssueQuery(c, srv, Int(n), Str("High"), Str("Severity"), issuecount, Bool(false));
    AppNameById(c, srv, Int(n));
    var name := AppName(c, srv, Int(n));
    assert name.calls == [Get(c.baseurl + Applications)];
    if name.out.Ok? && name.out.value.Str? {
      var url := IssueListUrl(c, name.out.value.s, AllSeverities, "Severity");
      assert q.calls == name.calls + [GetRanged(url, "items=0-" + StrOf(issuecount))];
    }
  }

  /** For an application given by number, `issuequery` with an issue reads
      that issue, through the details endpoint when `zipfile` is not False. */
  lemma AppIssueRequests(c: Client, srv: Server, n: int, issueid: Value, zipfile: Value, issuecount: Value)
    requires n != 0 && !issueid.Null?
    ensures var r := AppIssues(c, srv, Int(n), issueid, zipfile, issuecount);
            (Eq(zipfile, Bool(false)) ==>
               var req := Get(c.baseurl + "issues/" + StrOf(issueid) + "/application/" + IntToDecimal(n));
               r == Run([req], ReturnObject(srv(req))))
            && (!Eq(zipfile, Bool(false)) ==>
                  var req := Get(c.baseurl + "issues/details_v2?appId=" + IntToDecimal(n)
                                 + "&ids=[\"" + StrOf(issueid) + "\"]");
                  r == Run([req], ReturnObject(srv(req))))
  {
    assert Classify(Int(n)) == NonZero(n);
    assert AppId(c, srv, Int(n)) == Pure(Int(n));
  }

  /** A report's issue list is read once, then every follow-up issue it
      lists is read, one request each, in order. The `i`-th text returned is
      the body of the `i`-th follow-up: the text whose UTF-8 encoding that
      body is. */
  lemma ReportIssueListRequests(c: Client, srv: Server, reportid: Value)
    ensures var r := ReportIssues(c, srv, reportid, Null);
            var reports := c.scanbaseurl + "services/reports/" + StrOf(reportid);
            var list := srv(Get(reports + "/issues"));
            r.calls[..1] == [Get(reports + "/issues")]
            && (r.out.Ok? ==>
                  Success(list.status) && Utf8.Decode(list.content).Some?
                  && var ids := FollowUps(IdTags(Utf8.Decode(list.content).value), reportid);
                     |r.calls| == 1 + |ids| && r.out.value.List? && |r.out.value.elems| == |ids|
                     && forall i :: 0 <= i < |ids| ==>
                          var req := Get(reports + "/issues/" + IntToDecimal(ids[i]));
                          r.calls[1 + i] == req && Success(srv(req).status)
                          && r.out.value.elems[i].Str? && Utf8.Encode(r.out.value.elems[i].s) == srv(req).content)
  {
    var reports := c.scanbaseurl + "services/reports/" + StrOf(reportid);
    var r := ReportIssues(c, srv, reportid, Null);
    var report := ReportQuery(c, srv, reportid, Bool(true));
    assert !Eq(Bool(true), Bool(false));
    assert report.calls == [Get(reports + "/issues")];
    if r.out.Ok? {
      var list := srv(Get(reports + "/issues"));
      assert report.out == ReturnHtml(list);
      assert Decode(report.out.value).Ok?;
      assert Success(list.status) && report.out.value == Bytes(list.content);
      FollowUpsRead(c, srv, reportid);
    }
  }

  /** The follow-up issues are read after the issue list, in order, and
      each text returned is the decoded body of its follow-up. */
  lemma FollowUpsRead(c: Client, srv: Server, reportid: Value)
    requires ReportIssues(c, srv, reportid, Null).out.Ok?
    ensures var r := ReportIssues(c, srv, reportid, Null);
            var reports := c.scanbaseurl + "services/reports/" + StrOf(reportid);
            var ids := FollowUps(IdTags(Utf8.Decode(srv(Get(reports + "/issues")).content).GetOr([])), reportid);
            forall i :: 0 <= i < |ids| ==>
              var req := Get(reports + "/issues/" + IntToDecimal(ids[i]));
              r.calls[1 + i] == req && Success(srv(req).status)
              && r.out.value.elems[i].Str? && Utf8.Encode(r.out.value.elems[i].s) == srv(req).content
  {
    var reports := c.scanbaseurl + "services/reports/" + StrOf(reportid);
    var r := ReportIssues(c, srv, reportid, Null);
    var report := ReportQuery(c, srv, reportid, Bool(true));
    assert !Eq(Bool(true), Bool(false));
    var text := Decode(report.out.value).value.s;
    assert report.out == ReturnHtml(srv(Get(reports + "/issues")));
    assert Utf8.Decode(srv(Get(reports + "/issues")).content) == Some(text);
    var ids := FollowUps(IdTags(text), reportid);
    var texts := ReportIssueTexts(c, srv, reportid, ids);
    assert r.calls == report.calls + texts.calls;
    assert r.out.value.elems == texts.out.value;
    forall i | 0 <= i < |ids|
      ensures var req := Get(reports + "/issues/" + IntToDecimal(ids[i]));
              r.calls[1 + i] == req && Success(srv(req).status)
              && r.out.value.elems[i].Str? && Utf8.Encode(r.out.value.elems[i].s) == srv(req).content
    {
      var req := Get(reports + "/issues/" + IntToDecimal(ids[i]));
      assert r.calls[1 + i] == texts.calls[i];
      var one := ReportIssue(c, srv, reportid, Int(ids[i]));
      assert one.calls == [req] && one.out == ReturnHtml(srv(req));
      assert Decode(one.out.value) == Ok(texts.out.value[i]);
    }
  }

  /** `issuequery` prefers the report to the application: with a report
      and an issue it reads that issue from the XML service; with a report
      alone it reads the report's issue list and then every follow-up
      issue (ReportIssueListRequests); a zipped report is refused before any
      request; an application number given as text is used as the number;
      with neither, the ValueError is returned without a request. */
  lemma IssueQueryRequests(c: Client, srv: Server, reportid: Value, appid: Value, issueid: Value,
                           zipfile: Value, issuecount: Value)
    ensures var r := IssueQuery(c, srv, reportid, appid, issueid, zipfile, issuecount);
            var reports := c.scanbaseurl + "services/reports/" + StrOf(reportid);
            (!reportid.Null? && !Eq(zipfile, Bool(false)) ==> r == Run([], Err(TypeError(ReportZip))))
            && (!reportid.Null? && Eq(zipfile, Bool(false)) && !issueid.Null? ==>
                  var req := Get(reports + "/issues/" + StrOf(issueid));
                  r == Run([req], ReturnHtml(srv(req))))
            && (!reportid.Null? && Eq(zipfile, Bool(false)) && issueid.Null? ==> r == ReportIssues(c, srv, reportid, Null))
            && (reportid.Null? && appid.Null? ==> r == Run([], Ok(Exc(ValueError(NoReportOrApp)))))
            && (reportid.Null? && IntOf(appid).IntOk? && IntOf(appid).n != 0 ==>
                  r == AppIssues(c, srv, Int(IntOf(appid).n), issueid, zipfile, issuecount))
            && (reportid.Null? && IntOf(appid) == IntValueError ==> r.calls[..1] == [Get(c.baseurl + Applications)])
  {
    var r := IssueQuery(c, srv, reportid, appid, issueid, zipfile, issuecount);
    if !reportid.Null? {
      if !Eq(zipfile, Bool(false)) {
        assert r == Fail(TypeError(ReportZip));
      } else if !issueid.Null? {
        assert r == ReportIssue(c, srv, reportid, issueid);
      } else {
        assert issueid == Null;
      }
    } else if appid.Null? {
      assert r == Pure(Exc(ValueError(NoReportOrApp)));
    } else if IntOf(appid) == IntValueError {
      AppIdByName(c, srv, appid);
      assert |r.calls| >= 1 && r.calls[0] == Get(c.baseurl + Applications);
    } else if IntOf(appid).IntOk? && IntOf(appid).n != 0 {
      assert r == AppIssues(c, srv, appid, issueid, zipfile, issuecount);
    }
  }

  /** Each follow-up issue is fetched as `issuequery(reportid, issueid=ent)`
      would fetch it. */
  lemma FollowUpIsIssueQuery(c: Client, srv: Server, reportid: Value, e: nat)
    requires !reportid.Null?
    ensures IssueQuery(c, srv, reportid, Null, Int(e), Bool(false), Int(100)) == ReportIssue(c, srv, reportid, Int(e))
  {
  }

  // ---------------------------------------------------------------------
  // issuetypequery

  /** The issue type id of `issuetypequery`: None and zero are kept, a
      non-zero number is used as is, a name is looked up and replaced by
      its `id`. */
  function IssueTypeId(c: Client, srv: Server, id: Value): (r: Run<Value>)
  {
    if id.Null? then Pure(Null)
    else
      match Classify(id)
      case NonZero(n) => Pure(Int(n))
      case Zero => Pure(id)
      case NotNumeric => Field(QueryHelper(c, srv, IssueTypes, id, Str("name")), "id")
      case NotCastable => Fail(TypeError(IntArgument))
  }

  /** `issuetypequery` keeps None and zero and takes a non-zero number as
      the id, all without a request. Names are `IssueTypeIdByName`. */
  lemma IssueTypeIdRequests(c: Client, srv: Server, id: Value)
    ensures id.Null? ==> IssueTypeId(c, srv, id) == Run([], Ok(Null))
    ensures IntOf(id).IntOk? && IntOf(id).n != 0 ==> IssueTypeId(c, srv, id) == Run([], Ok(Int(IntOf(id).n)))
    ensures IntOf(id) == IntOk(0) ==> IssueTypeId(c, srv, id) == Run([], Ok(id))
    ensures !id.Null? && IntOf(id) == IntTypeError ==> IssueTypeId(c, srv, id) == Run([], Err(TypeError(IntArgument)))
  {
  }

  /** An issue type name is found by one search of the issue type list on
      `name`, whose `id` is the id. */
  lemma IssueTypeIdByName(c: Client, srv: Server, id: Value)
    requires IntOf(id) == IntValueError
    ensures AnswersLookup(IssueTypeId(c, srv, id), c, srv, IssueTypes, id, "name", "id")
  {
    FieldLookup(c, srv, IssueTypes, id, "name", "id");
  }

  datatype LookupKind = NoLookup | Advisory | Fix | Unknown

  function LookupKindOf(lookuptype: Value): (k: LookupKind)
    ensures k == NoLookup <==> lookuptype.Null?
    ensures k == Advisory <==> lookuptype == Str("advisory") || lookuptype == Str("Advisory")
    ensures k == Fix <==> lookuptype == Str("fix") || lookuptype == Str("Fix")
  {
    if lookuptype.Null? then NoLookup
    else if lookuptype == Str("advisory") || lookuptype == Str("Advisory") then Advisory
    else if lookuptype == Str("fix") || lookuptype == Str("Fix") then Fix
    else Unknown
  }

  /** The page a lookup without a name falls back to. The source asks for
      the advisory page for `fix` too; `IssueTypeQueryIntended` asks for
      the fix recommendation. */
  function UnnamedPage(k: LookupKind, fixFallback: string): string {
    if k == Fix then fixFallback else "/advisory"
  }

  function NamedPage(k: LookupKind): string {
    if k == Fix then "/fixrecommendation" else "/advisory"
  }

  /** `issuetypequery(issuetypeid)` without a lookup: the issue type itself. */
  function IssueTypeRead(c: Client, srv: Server, id: Value): (r: Run<Value>)
    ensures IssueTypeId(c, srv, id).out.Err? ==> r == IssueTypeId(c, srv, id)
  {
    var tid := IssueTypeId(c, srv, id);
    if tid.out.Err? then tid
    else
      var req := Get(c.baseurl + "issuetypes/" + StrOf(tid.out.value));
      Run(tid.calls + [req], ReturnObject(srv(req)))
  }

  /** `issuetypequery` with the page an unnamed `fix` lookup asks for as a
      parameter. */
  function IssueTypeLookup(c: Client, srv: Server, id: Value, lookuptype: Value, lookupname: Value,
                           fixFallback: string): (r: Run<Value>)
    ensures IssueTypeId(c, srv, id).out.Err? ==> r == IssueTypeId(c, srv, id)
    ensures IssueTypeId(c, srv, id).out.Ok? && lookuptype.Null? ==>
              var tid := IssueTypeId(c, srv, id);
              var req := Get(c.baseurl + "issuetypes/" + StrOf(tid.out.value));
              r == Run(tid.calls + [req], ReturnObject(srv(req)))
    ensures IssueTypeId(c, srv, id).out.Ok? && LookupKindOf(lookuptype) == Unknown ==>
              r == IssueTypeId(c, srv, id).Then(_ => Pure(Null))
    ensures IssueTypeId(c, srv, id).out.Ok? && (LookupKindOf(lookuptype) == Advisory || LookupKindOf(lookuptype) == Fix)
            && !lookupname.Null? ==>
              var tid := IssueTypeId(c, srv, id);
              var req := Get(c.baseurl + "issuetypes/" + StrOf(lookupname) + NamedPage(LookupKindOf(lookuptype)));
              r == Run(tid.calls + [req], ReturnHtml(srv(req)))
  {
    var tid := IssueTypeId(c, srv, id);
    if tid.out.Err? then tid
    else
      var k := LookupKindOf(lookuptype);
      match k
      case NoLookup => IssueTypeRead(c, srv, id)
      case Unknown => Run(tid.calls, Ok(Null))
      case _ =>
        if !lookupname.Null? then
          var req := Get(c.baseurl + "issuetypes/" + StrOf(lookupname) + NamedPage(k));
          Run(tid.calls + [req], ReturnHtml(srv(req)))
        else
          var name :=
            if Eq(tid.out.value, Int(0)) then Pure(Null)
            else Field(IssueTypeRead(c, srv, tid.out.value), "issueTypeLookup");
          if name.out.Err? then Run(tid.calls + name.calls, name.out)
          else
            var req := Get(c.baseurl + "issuetypes/" + StrOf(name.out.value) + UnnamedPage(k, fixFallback));
            Run(tid.calls + name.calls + [req], ReturnHtml(srv(req)))
  }

  /** `t` ends `s`. */
  predicate EndsWith(s: string, t: string) {
    |t| <= |s| && s[|s| - |t|..] == t
  }

  lemma EndsWithAppend(s: string, t: string)
    ensures EndsWith(s + t, t)
  {
    assert (s + t)[|s|..] == t;
  }

  /** For an issue type given by number, `issuetypequery` without a lookup
      reads the type; an unknown lookup type answers None without a
      request; an advisory or fix lookup with a name reads that page of
      the name; without a name it reads the type, then the fallback page of
      the type's `issueTypeLookup`. */
  lemma IssueTypeLookupRequests(c: Client, srv: Server, n: int, lookuptype: Value, lookupname: Value,
                                fixFallback: string)
    requires n != 0
    ensures var r := IssueTypeLookup(c, srv, Int(n), lookuptype, lookupname, fixFallback);
            var k := LookupKindOf(lookuptype);
            var base := c.baseurl + "issuetypes/";
            var typeReq := Get(base + IntToDecimal(n));
            (k == NoLookup ==> r == Run([typeReq], ReturnObject(srv(typeReq))))
            && (k == Unknown ==> r == Run([], Ok(Null)))
            && ((k == Advisory || k == Fix) && !lookupname.Null? ==>
                  var req := Get(base + StrOf(lookupname) + NamedPage(k));
                  r == Run([req], ReturnHtml(srv(req))))
            && ((k == Advisory || k == Fix) && lookupname.Null? ==>
                  r.calls[..1] == [typeReq]
                  && (ReturnObject(srv(typeReq)).Ok? && At(ReturnObject(srv(typeReq)).value, "issueTypeLookup").Ok? ==>
                        var req := Get(base + StrOf(At(ReturnObject(srv(typeReq)).value, "issueTypeLookup").value)
                                       + UnnamedPage(k, fixFallback));
                        r == Run([typeReq, req], ReturnHtml(srv(req)))))
  {
    assert Classify(Int(n)) == NonZero(n);
    assert IssueTypeId(c, srv, Int(n)) == Pure(Int(n));
    assert !Eq(Int(n), Int(0));
    assert StrOf(Int(n)) == IntToDecimal(n);
  }

  /** A lookup that succeeds ends with the page it asked for: the named page
      when a name is given, the fallback page otherwise. */
  lemma IssueTypeLookupPages(c: Client, srv: Server, id: Value, lookuptype: Value, lookupname: Value,
                             fixFallback: string)
    ensures var r := IssueTypeLookup(c, srv, id, lookuptype, lookupname, fixFallback);
            var k := LookupKindOf(lookuptype);
            (k == Advisory || k == Fix) && r.out.Ok? ==>
              r.calls != [] && EndsWith(LastUrl(r), if lookupname.Null? then UnnamedPage(k, fixFallback) else NamedPage(k))
  {
    var k := LookupKindOf(lookuptype);
    if k == Advisory || k == Fix {
      if lookupname.Null? {
        UnnamedLookupPage(c, srv, id, lookuptype, fixFallback);
      } else {
        NamedLookupPage(c, srv, id, lookuptype, lookupname, fixFallback);
      }
    }
  }

  lemma NamedLookupPage(c: Client, srv: Server, id: Value, lookuptype: Value, lookupname: Value, fixFallback: string)
    requires LookupKindOf(lookuptype) == Advisory || LookupKindOf(lookuptype) == Fix
    requires !lookupname.Null?
    ensures var r := IssueTypeLookup(c, srv, id, lookuptype, lookupname, fixFallback);
            r.out.Ok? ==> r.calls != [] && EndsWith(LastUrl(r), NamedPage(LookupKindOf(lookuptype)))
  {
    EndsWithAppend(c.baseurl + "issuetypes/" + StrOf(lookupname), NamedPage(LookupKindOf(lookuptype)));
  }

  lemma UnnamedLookupPage(c: Client, srv: Server, id: Value, lookuptype: Value, fixFallback: string)
    requires LookupKindOf(lookuptype) == Advisory || LookupKindOf(lookuptype) == Fix
    ensures var r := IssueTypeLookup(c, srv, id, lookuptype, Null, fixFallback);
            r.out.Ok? ==> r.calls != [] && EndsWith(LastUrl(r), UnnamedPage(LookupKindOf(lookuptype), fixFallback))
  {
    var r := IssueTypeLookup(c, srv, id, lookuptype, Null, fixFallback);
    var tid := IssueTypeId(c, srv, id);
    if tid.out.Ok? {
      var k := LookupKindOf(lookuptype);
      var name :=
        if Eq(tid.out.value, Int(0)) then Pure(Null)
        else Field(IssueTypeRead(c, srv, tid.out.value), "issueTypeLookup");
      if name.out.Ok? {
        var url := c.baseurl + "issuetypes/" + StrOf(name.out.value) + UnnamedPage(k, fixFallback);
        assert r.calls == tid.calls + name.calls + [Get(url)];
        assert LastUrl(r) == url;
        EndsWithAppend(c.baseurl + "issuetypes/" + StrOf(name.out.value), UnnamedPage(k, fixFallback));
      } else {
        assert r.out == name.out;
      }
    }
  }

  /** The fallback page is used by an unnamed `fix` lookup only. */
  lemma IssueTypeLookupFallback(c: Client, srv: Server, id: Value, lookuptype: Value, lookupname: Value,
                                fixFallback: string, other: string)
    ensures !(LookupKindOf(lookuptype) == Fix && lookupname.Null?) ==>
              IssueTypeLookup(c, srv, id, lookuptype, lookupname, fixFallback)
              == IssueTypeLookup(c, srv, id, lookuptype, lookupname, other)
  {
    assert UnnamedPage(Advisory, fixFallback) == UnnamedPage(Advisory, other);
  }

  /** `issuetypequery(issuetypeid, lookuptype, lookupname)` as written. It
      differs from the corrected query only for a `fix` lookup without a
      name, which ends with the advisory page. */
  function IssueTypeQuery(c: Client, srv: Server, id: Value, lookuptype: Value, lookupname: Value): (r: Run<Value>)
    ensures !(LookupKindOf(lookuptype) == Fix && lookupname.Null?) ==>
              r == IssueTypeQueryIntended(c, srv, id, lookuptype, lookupname)
    ensures LookupKindOf(lookuptype) == Fix && lookupname.Null? && r.out.Ok? ==> EndsWith(LastUrl(r), "/advisory")
  {
    IssueTypeLookupPages(c, srv, id, lookuptype, lookupname, "/advisory");
    IssueTypeLookupFallback(c, srv, id, lookuptype, lookupname, "/advisory", "/fixrecommendation");
    IssueTypeLookup(c, srv, id, lookuptype, lookupname, "/advisory")
  }

  /** `issuetypequery` with an unnamed `fix` lookup asking for the fix
      recommendation, as a named one does: a `fix` lookup that succeeds
      always ends with the fix recommendation page, an `advisory` lookup
      with the advisory page. */
  function IssueTypeQueryIntended(c: Client, srv: Server, id: Value, lookuptype: Value, lookupname: Value): (r: Run<Value>)
    ensures LookupKindOf(lookuptype) == Fix && r.out.Ok? ==> EndsWith(LastUrl(r), "/fixrecommendation")
    ensures LookupKindOf(lookuptype) == Advisory && r.out.Ok? ==> EndsWith(LastUrl(r), "/advisory")
  {
    IssueTypeLookupPages(c, srv, id, lookuptype, lookupname, "/fixrecommendation");
    IssueTypeLookup(c, srv, id, lookuptype, lookupname, "/fixrecommendation")
  }

  /** The last request of a lookup without a name. */
  function LastUrl(r: Run<Value>): string {
    if r.calls == [] then "" else r.calls[|r.calls| - 1].url
  }

  /** An unnamed `fix` lookup for issue type `n` reads the type's lookup
      name and then asks for the fallback page under that name. */
  lemma {:induction false} UnnamedFixUrl(c: Client, srv: Server, n: int, lookup: Value, fixFallback: string)
    requires n != 0
    requires ReturnObject(srv(Get(c.baseurl + "issuetypes/" + IntToDecimal(n)))) == Ok(Dict([Entry("issueTypeLookup", lookup)]))
    ensures LastUrl(IssueTypeLookup(c, srv, Int(n), Str("fix"), Null, fixFallback))
            == c.baseurl + "issuetypes/" + StrOf(lookup) + fixFallback
  {
    assert IssueTypeId(c, srv, Int(n)) == Pure(Int(n)) by {
      assert Classify(Int(n)) == NonZero(n);
    }
    assert LookupKindOf(Str("fix")) == Fix;
    assert !Eq(Int(n), Int(0));
    var inner := IssueTypeRead(c, srv, Int(n));
    assert inner.out == Ok(Dict([Entry("issueTypeLookup", lookup)])) by {
      assert StrOf(Int(n)) == IntToDecimal(n);
    }
    assert Field(inner, "issueTypeLookup").out == Ok(lookup);
  }

  /** A named `fix` lookup asks for the fix recommendation page under that name. */
  lemma NamedFixUrl(c: Client, srv: Server, n: int, lookup: Value, fixFallback: string)
    requires n != 0 && !lookup.Null?
    ensures LastUrl(IssueTypeLookup(c, srv, Int(n), Str("fix"), lookup, fixFallback))
            == c.baseurl + "issuetypes/" + StrOf(lookup) + "/fixrecommendation"
  {
    assert IssueTypeId(c, srv, Int(n)) == Pure(Int(n)) by {
      assert Classify(Int(n)) == NonZero(n);
    }
    assert LookupKindOf(Str("fix")) == Fix;
  }

  /** As written, a `fix` lookup for issue type `n` without a lookup name
      asks for the advisory page of the type's lookup name. */
  lemma FixWithoutNameFetchesAdvisory(c: Client, srv: Server, n: int, lookup: Value)
    requires n != 0
    requires ReturnObject(srv(Get(c.baseurl + "issuetypes/" + IntToDecimal(n)))) == Ok(Dict([Entry("issueTypeLookup", lookup)]))
    ensures var r := IssueTypeQuery(c, srv, Int(n), Str("fix"), Null);
            LastUrl(r) == c.baseurl + "issuetypes/" + StrOf(lookup) + "/advisory"
  {
    UnnamedFixUrl(c, srv, n, lookup, "/advisory");
  }

  /** Corrected, the same lookup asks for the fix recommendation page, as a
      named `fix` lookup does. */
  lemma FixWithoutNameFetchesFix(c: Client, srv: Server, n: int, lookup: Value)
    requires n != 0
    requires ReturnObject(srv(Get(c.baseurl + "issuetypes/" + IntToDecimal(n)))) == Ok(Dict([Entry("issueTypeLookup", lookup)]))
    ensures var r := IssueTypeQueryIntended(c, srv, Int(n), Str("fix"), Null);
            LastUrl(r) == c.baseurl + "issuetypes/" + StrOf(lookup) + "/fixrecommendation"
            && LastUrl(r) == LastUrl(IssueTypeQueryIntended(c, srv, Int(n), Str("fix"), lookup))
  {
    UnnamedFixUrl(c, srv, n, lookup, "/fixrecommendation");
    if !lookup.Null? {
      NamedFixUrl(c, srv, n, lookup, "/fixrecommendation");
    }
  }
}

=== FILE: utf8.dfy ===
/**
 UTF-8 as `bytes.decode('utf-8')` reads it. Python's decoder is strict: it
 accepts exactly the well-formed byte sequences of table 3-7 of the Unicode
 Standard (section 3.9), so overlong forms, surrogates and code points
 above U+10FFFF raise UnicodeDecodeError. A bytes object is a string whose
 characters are the byte values 0 to 255; a character above 255 is not a
 byte and never decodes.
 */
module Utf8 {
  import opened Wrappers

  predicate IsByte(c: char) {
    c as int < 0x100
  }

  /** A continuation byte, `10xxxxxx`. */
  predicate IsCont(c: char) {
    0x80 <= c as int <= 0xBF
  }

  /** The low six bits of a continuation byte. */
  function Low(c: char): int
    requires IsCont(c)
  {
    c as int - 0x80
  }

  /** The character the well-formed sequence at the start of `d` encodes and
      that sequence's length, or None when `d` does not start with one. */
  function DecodeFirst(d: string): (r: Option<(char, nat)>)
    requires d != []
    ensures r.Some? ==> 1 <= r.value.1 <= |d|
  {
    var b0 := d[0] as int;
    if b0 < 0x80 then Some((d[0], 1))
    else if 0xC2 <= b0 <= 0xDF then
      if |d| >= 2 && IsCont(d[1]) then Some((((b0 - 0xC0) * 64 + Low(d[1])) as char, 2))
      else None
    else if 0xE0 <= b0 <= 0xEF then
      var lo := if b0 == 0xE0 then 0xA0 else 0x80;
      var hi := if b0 == 0xED then 0x9F else 0xBF;
      if |d| >= 3 && lo <= d[1] as int <= hi && IsCont(d[2]) then
        Some((((b0 - 0xE0) * 4096 + Low(d[1]) * 64 + Low(d[2])) as char, 3))
      else None
    else if 0xF0 <= b0 <= 0xF4 then
      var lo := if b0 == 0xF0 then 0x90 else 0x80;
      var hi := if b0 == 0xF4 then 0x8F else 0xBF;
      if |d| >= 4 && lo <= d[1] as int <= hi && IsCont(d[2]) && IsCont(d[3]) then
        Some((((b0 - 0xF0) * 262144 + Low(d[1]) * 4096 + Low(d[2]) * 64 + Low(d[3])) as char, 4))
      else None
    else None
  }

  /** `d.decode('utf-8')`, None where Python raises UnicodeDecodeError. */
  function Decode(d: string): Option<string>
    decreases |d|
  {
    if d == [] then Some([])
    else
      match DecodeFirst(d)
      case None => None
      case Some(first) =>
        match Decode(d[first.1..])
        case None => None
        case Some(rest) => Some([first.0] + rest)
  }

  /** The UTF-8 bytes of one character, shortest form. */
  function EncodeChar(c: char): (e: string)
    ensures 1 <= |e| <= 4
    ensures forall i :: 0 <= i < |e| ==> IsByte(e[i])
  {
    var n := c as int;
    if n < 0x80 then [c]
    else if n < 0x800 then [(0xC0 + n / 64) as char, (0x80 + n % 64) as char]
    else if n < 0x10000 then
      [(0xE0 + n / 4096) as char, (0x80 + n / 64 % 64) as char, (0x80 + n % 64) as char]
    else
      [(0xF0 + n / 262144) as char, (0x80 + n / 4096 % 64) as char,
       (0x80 + n / 64 % 64) as char, (0x80 + n % 64) as char]
  }

  /** `s.encode('utf-8')`. */
  function Encode(s: string): (e: string)
    ensures forall i :: 0 <= i < |e| ==> IsByte(e[i])
    decreases |s|
  {
    if s == [] then [] else EncodeChar(s[0]) + Encode(s[1..])
  }

  // ---------------------------------------------------------------------
  // Properties

  /** The first character's bytes decode back to it, whatever follows. */
  lemma DecodeFirstOfEncodeChar(c: char, rest: string)
    ensures DecodeFirst(EncodeChar(c) + rest) == Some((c, |EncodeChar(c)|))
  {
    var n := c as int;
    if n < 0x80 {
    } else if n < 0x800 {
      DecodeFirstOfTwo(c, rest);
    } else if n < 0x10000 {
      DecodeFirstOfThree(c, rest);
    } else {
      DecodeFirstOfFour(c, rest);
    }
  }

  lemma DecodeFirstOfTwo(c: char, rest: string)
    requires 0x80 <= c as int < 0x800
    ensures DecodeFirst(EncodeChar(c) + rest) == Some((c, 2))
  {
    var n := c as int;
    var q, r := n / 64, n % 64;
    assert n == q * 64 + r && 2 <= q < 32 && 0 <= r < 64;
    var d := EncodeChar(c) + rest;
    assert d[0] as int == 0xC0 + q && d[1] as int == 0x80 + r;
    assert Low(d[1]) == r;
  }

  lemma DecodeFirstOfThree(c: char, rest: string)
    requires 0x800 <= c as int < 0x10000
    ensures DecodeFirst(EncodeChar(c) + rest) == Some((c, 3))
  {
    var n := c as int;
    var q, r := n / 64, n % 64;
    var q2, r2 := q / 64, q % 64;
    assert n == q * 64 + r && 0 <= r < 64;
    assert q == q2 * 64 + r2 && 0 <= r2 < 64 && q2 < 16;
    assert n / 4096 == q2 && n / 64 % 64 == r2;
    var d := EncodeChar(c) + rest;
    assert d[0] as int == 0xE0 + q2 && d[1] as int == 0x80 + r2 && d[2] as int == 0x80 + r;
    assert q2 == 0 ==> r2 >= 32;
    assert q2 == 13 ==> r2 < 32;
    assert Low(d[1]) == r2 && Low(d[2]) == r;
    assert n == q2 * 4096 + r2 * 64 + r;
  }

  lemma DecodeFirstOfFour(c: char, rest: string)
    requires 0x10000 <= c as int
    ensures DecodeFirst(EncodeChar(c) + rest) == Some((c, 4))
  {
    var n := c as int;
    var q, r := n / 64, n % 64;
    var q2, r2 := q / 64, q % 64;
    var q3, r3 := q2 / 64, q2 % 64;
    assert n == q * 64 + r && 0 <= r < 64;
    assert q == q2 * 64 + r2 && 0 <= r2 < 64;
    assert q2 == q3 * 64 + r3 && 0 <= r3 < 64 && q3 <= 4;
    assert n / 4096 == q2 && n / 262144 == q3;
    assert n / 4096 % 64 == r3 && n / 64 % 64 == r2;
    var d := EncodeChar(c) + rest;
    assert d[0] as int == 0xF0 + q3 && d[1] as int == 0x80 + r3
           && d[2] as int == 0x80 + r2 && d[3] as int == 0x80 + r;
    assert q3 == 0 ==> r3 >= 16;
    assert q3 == 4 ==> r3 < 16;
    assert Low(d[1]) == r3 && Low(d[2]) == r2 && Low(d[3]) == r;
    assert n == q3 * 262144 + r3 * 4096 + r2 * 64 + r;
  }

  /** The bytes of a well-formed first sequence are the character's
      shortest encoding. */
  lemma EncodeCharOfDecodeFirst(d: string)
    requires d != [] && DecodeFirst(d).Some?
    ensures EncodeChar(DecodeFirst(d).value.0) == d[..DecodeFirst(d).value.1]
  {
    var b0 := d[0] as int;
    if b0 < 0x80 {
    } else if b0 <= 0xDF {
      EncodeTwo(d);
    } else if b0 <= 0xEF {
      EncodeThree(d);
    } else {
      EncodeFour(d);
    }
  }

  lemma EncodeTwo(d: string)
    requires d != [] && 0xC2 <= d[0] as int <= 0xDF && DecodeFirst(d).Some?
    ensures EncodeChar(DecodeFirst(d).value.0) == d[..2]
  {
    var a, b := d[0] as int - 0xC0, Low(d[1]);
    var n := a * 64 + b;
    assert DecodeFirst(d).value.0 as int == n;
    assert n / 64 == a && n % 64 == b;
  }

  lemma EncodeThree(d: string)
    requires d != [] && 0xE0 <= d[0] as int <= 0xEF && DecodeFirst(d).Some?
    ensures EncodeChar(DecodeFirst(d).value.0) == d[..3]
  {
    var a, b, e := d[0] as int - 0xE0, Low(d[1]), Low(d[2]);
    var n := a * 4096 + b * 64 + e;
    assert DecodeFirst(d).value.0 as int == n;
    assert 0x800 <= n < 0x10000;
    assert n / 64 == a * 64 + b && n % 64 == e;
    assert n / 4096 == a && n / 64 % 64 == b;
  }

  lemma EncodeFour(d: string)
    requires d != [] && 0xF0 <= d[0] as int <= 0xF4 && DecodeFirst(d).Some?
    ensures EncodeChar(DecodeFirst(d).value.0) == d[..4]
  {
    var a, b, e, f := d[0] as int - 0xF0, Low(d[1]), Low(d[2]), Low(d[3]);
    var n := a * 262144 + b * 4096 + e * 64 + f;
    assert DecodeFirst(d).value.0 as int == n;
    assert 0x10000 <= n;
    assert n / 64 == a * 4096 + b * 64 + e && n % 64 == f;
    assert n / 4096 == a * 64 + b && n / 64 % 64 == e;
    assert n / 262144 == a && n / 4096 % 64 == b;
  }

  /** Every text decodes back from its encoding. */
  lemma {:induction false} DecodeOfEncode(s: string)
    ensures Decode(Encode(s)) == Some(s)
    decreases |s|
  {
    if s != [] {
      var e := EncodeChar(s[0]);
      DecodeFirstOfEncodeChar(s[0], Encode(s[1..]));
      assert (e + Encode(s[1..]))[|e|..] == Encode(s[1..]);
      DecodeOfEncode(s[1..]);
      assert s == [s[0]] + s[1..];
    }
  }

  /** Bytes that decode are the encoding of what they decode to. */
  lemma {:induction false} EncodeOfDecode(d: string)
    requires Decode(d).Some?
    ensures Encode(Decode(d).value) == d
    decreases |d|
  {
    if d != [] {
      var first := DecodeFirst(d).value;
      var rest := Decode(d[first.1..]).value;
      var s := Decode(d).value;
      assert s == [first.0] + rest;
      EncodeCharOfDecodeFirst(d);
      EncodeOfDecode(d[first.1..]);
      assert s[0] == first.0 && s[1..] == rest;
      calc {
        Encode(s);
        EncodeChar(first.0) + Encode(rest);
        d[..first.1] + d[first.1..];
        d;
      }
    }
  }

  /** `d.decode('utf-8') == s` exactly when `s.encode('utf-8') == d`. */
  lemma DecodeIsInverse(d: string, s: string)
    ensures Decode(d) == Some(s) <==> Encode(s) == d
  {
    if Decode(d) == Some(s) {
      EncodeOfDecode(d);
    }
    if Encode(s) == d {
      DecodeOfEncode(s);
    }
  }

  /** `b'\xc3\xa9'` is one character, `é`. */
  lemma TwoBytesOneChar()
    ensures Decode(['\U{00C3}', '\U{00A9}']) == Some("\U{00E9}")
  {
    var d := ['\U{00C3}', '\U{00A9}'];
    assert d[0] as int == 0xC3 && IsCont(d[1]) && Low(d[1]) == 0x29;
    assert DecodeFirst(d) == Some(('\U{00E9}', 2));
    assert d[2..] == [] && Decode(d[2..]) == Some([]);
    assert Decode(d) == Some(['\U{00E9}'] + []);
    assert ['\U{00E9}'] + [] == "\U{00E9}";
  }

  /** A lone continuation byte, an overlong `/` and an encoded surrogate are
      all refused. */
  lemma MalformedBytesFail()
    ensures Decode(['\U{0080}']) == None
    ensures Decode(['\U{00C0}', '\U{00AF}']) == None
    ensures Decode(['\U{00ED}', '\U{00A0}', '\U{0080}']) == None
  {
  }
}

=== FILE: wrappers.dfy ===
/** An optional value; `None` is Dafny's, Python's `None` is `PyValue.Null`. */
module Wrappers {

  datatype Option<+T> = None | Some(value: T) {

    /** The value, or `default` when there is none. */
    function GetOr(default: T): T {
      match this
      case Some(v) => v
      case None => default
    }
  }
}
